=== FILE: README.md ===
# Real-estate portal core, modelled in Dafny

The system is a PHP/JavaScript real-estate listing site for Yemen. It is bilingual (Arabic and English). This project models its decision logic:

- **`api.php`**:
  - the property-listing endpoint's request normalisation and WHERE-clause builder, plus the pagination metadata;
  - the fixed-window rate limiter;
  - required-field validation and the check order of inquiry creation;
  - the favourites join table;
  - the admin inquiry list's paging clamp.
- **`config.php`**: the helper functions. These are `generate_slug`, `get_current_language` with the cookie override at the end of the file, the CSRF token pair, `sanitize_input` and `format_price`.
- **`admin.php`**:
  - the login gate;
  - the AJAX router, including its unknown-action answer;
  - the CSRF gate in front of form dispatch;
  - the page allow-list;
  - the dashboard statistics;
  - soft delete and the featured toggle.
- **`js/app.js`**: the client helpers. These are the email and phone validators, the field-validation priority chain and the localised messages, the carousel index arithmetic and swipe classification, the search-form collection, and the favourites toggle.

Pure expressions become functions with named results. State that the source updates in place becomes a class:

| class | state it holds |
|---|---|
| `Config.Session` | `$_SESSION` |
| `RateLimit.RateLimiter` | the rate-limit record |
| `Favorites.FavoritesTable` | the `favorites` table |
| `Admin.PropertyStore` | the `properties` table |
| `Carousel.Slides`, `Carousel.SwipeTracker` | carousel and touch state |
| `ClientState.FavoriteState` | `state.favoriteProperties` |

The source's loops are methods with loop invariants:

- `validate_required_fields`;
- `get_admin_stats`;
- `collectSearchData`.

Each of these methods is proved against a specification function. The WHERE builder's chain of guarded appends (api.php has no loop there) is a sequence of methods, each proved equal to a closed-form list of conditions and parameters.

Everything outside the program's own logic is a parameter of the model:

- the database (query results, failures, "is this property active");
- the clock;
- `random_bytes`;
- `password_verify`;
- `filter_var(FILTER_VALIDATE_EMAIL)`;
- the network call of `toggleFavorite`.

Modules:

| file | module | models |
|---|---|---|
| wrappers.dfy | Wrappers | `Option` |
| php.dfy | Php | PHP `trim`, `empty`, `(bool)` cast, ASCII `strtolower`/`strtoupper` |
| text.dfy | Text | generic trimming of a character class |
| envelope.dfy | Envelope | the `error_response` payload |
| config.dfy | Config | language selection, CSRF tokens, session |
| slug.dfy | Slug | `generate_slug` |
| sanitize.dfy | Sanitize | `sanitize_input` (`trim` + `htmlspecialchars`) |
| price.dfy | Price | `format_price` |
| listing.dfy | Listing | `get_properties_list`, `get_admin_inquiries` |
| ratelimit.dfy | RateLimit | `check_rate_limit` |
| inquiry.dfy | Inquiry | `validate_required_fields`, `create_inquiry` |
| favorites.dfy | Favorites | `get_user_favorites`, `add_to_favorites`, `remove_from_favorites` |
| admin.dfy | Admin | `admin.php` gates, dispatch, row updates, statistics |
| client_validation.dfy | ClientValidation | `isValidEmail`, `isValidPhone`, `validateField`, `getValidationMessage` |
| carousel.dfy | Carousel | `createCarousel`, `addSwipeSupport` |
| client_state.dfy | ClientState | `collectSearchData`, `toggleFavorite` |

## Model

| member | source | states |
|---|---|---|
| Php.Trim | config.php:92 | the result has no leading or trailing PHP whitespace (space, tab, newline, CR, NUL, vertical tab) |
| Php.ToLower | config.php:135 | same length; exactly the ASCII capitals are shifted to lower case and every other character is kept |
| Php.ToUpper | api.php:282 | same length; exactly the ASCII small letters are shifted to upper case and every other character is kept |
| Php.ToUpperOfLetter | api.php:282-286 | upper-casing gives an all-capital word iff the input is that word with each letter in either case |
| Php.ToLowerFixed | config.php:135 | a string with no capital letter is unchanged by lower-casing |
| Text.Trim | config.php:92 | the trimmed string is the contiguous middle of the input and begins and ends with a kept character |
| Text.TrimFixed | config.php:92 | trimming leaves a string unchanged iff it is empty or its ends are not trimmed characters |
| Text.TrimChars | config.php:92 | trimming introduces no character that was not in the input |
| Text.TrimCut | config.php:92 | everything trimming removes, at either end, is a trimmed character |
| Config.GetCurrentLanguage | config.php:111-116 | the result is always "ar" or "en"; a valid cookie wins, otherwise a valid `lang` parameter, otherwise "ar"; anything other than "ar" came from the cookie or the parameter |
| Config.CookieAfterConfig | config.php:147-151 | a valid `lang` parameter overwrites the language cookie; otherwise the cookie is kept |
| Config.EffectiveLanguage | config.php:111-116 | once the config has run, a valid `lang` parameter wins over the cookie |
| Config.Bin2Hex | config.php:97 | the hex form has two characters per byte, all lower-case hex digits |
| Config.HexDigitValue | config.php:97 | each hex digit reads back as its value |
| Config.PairValue | config.php:97 | a byte's two hex digits read back as the byte |
| Config.HexPair | config.php:97 | decoding two hex digits followed by more text yields that byte first |
| Config.HexRoundTrip | config.php:97 | decoding `bin2hex` output gives back the bytes: no two entropy strings give the same token |
| Config.HashEquals | config.php:103 | `hash_equals` is true iff the strings are equal |
| Config.DiffCount | config.php:103 | the number of differing positions is zero iff the strings are equal |
| Config.VerifyCsrfToken | config.php:102-104 | verification succeeds iff a session token is set and equals the submitted one; with no session token it fails |
| Config.Session.constructor | config.php:145 | a new session holds no token and no identity |
| Config.Session.GenerateCsrfToken | config.php:95-100 | an existing token is returned unchanged; otherwise the token is the 64-hex-character encoding of 32 random bytes and is stored; either way the returned token verifies |
| Sanitize.HtmlSpecialChars | config.php:92 | the output contains none of `< > " '` raw, and every `&` starts one of the five entities |
| Sanitize.EntityThenEscaped | config.php:92 | an entity followed by escaped text is escaped text |
| Sanitize.DecodeEntity | config.php:92 | each entity decodes back to the character it replaced |
| Sanitize.DecodeEscaped | config.php:92 | decoding `htmlspecialchars` output gives the input back: escaping loses nothing |
| Sanitize.EscapeAppend | config.php:92 | escaping a concatenation escapes each part |
| Sanitize.EscapeTrimmed | config.php:92 | escaping keeps a string free of leading and trailing whitespace |
| Sanitize.SanitizeInput | config.php:91-93 | the output is escaped, has no leading or trailing whitespace, and decodes to the trimmed input |
| Sanitize.SanitizedHasNoMarkup | config.php:91-93 | no character of the output is `<`, `>`, `"` or `'` |
| Sanitize.SanitizeUnblank | config.php:91-93 | on input with no surrounding whitespace, sanitising is exactly escaping |
| Sanitize.SanitizeTwiceDoubleEncodes | config.php:91-93 | sanitising is not idempotent: "<" becomes "&lt;" and then "&amp;lt;" |
| Sanitize.SanitizePlain | config.php:91-93 | text with no special characters and no surrounding whitespace passes unchanged |
| Slug.RemoveUnkept | config.php:136 | only a-z, 0-9, whitespace and '-' survive the filter, and every letter and digit of the input survives, in order |
| Slug.RemoveUnkeptAppend | config.php:136 | filtering a concatenation filters each part: each character is kept or dropped on its own, in order |
| Slug.RemoveUnkeptOne | config.php:136 | a single character survives iff it is a-z, 0-9, whitespace or '-' |
| Slug.RemoveUnkeptFixed | config.php:136 | a string of kept characters passes the filter unchanged |
| Slug.Collapse | config.php:137 | collapsing separator runs keeps every letter and digit, in order |
| Slug.CollapseRun | config.php:137 | a leading run of whitespace and '-' becomes exactly one '-' |
| Slug.CollapseAppend | config.php:137 | collapsing distributes over a concatenation whose first part does not end inside a separator run |
| Slug.SeparatorLaw | config.php:137 | a non-empty run of whitespace and '-' between two parts becomes exactly one '-' there: Collapse(a + sep + b) == Collapse(a) + "-" + Collapse(b) |
| Slug.CollapseShape | config.php:137 | collapsing separator runs leaves only a-z, 0-9 and '-' |
| Slug.CollapseNoDoubleHyphen | config.php:137 | after collapsing, no two hyphens are adjacent |
| Slug.CollapseFixed | config.php:137 | a string without whitespace or "--" is unchanged by collapsing |
| Slug.TrimKeepsNoDouble | config.php:138 | trimming hyphens keeps the no-"--" property |
| Slug.TrimHyphensAlnums | config.php:138 | trimming hyphens loses no letter or digit |
| Slug.GenerateSlug | config.php:134-139 | every slug contains only a-z, 0-9 and '-', never starts or ends with '-', and never contains "--"; its letters and digits are exactly those of the lower-cased title, in order; where the hyphens go is stated by `SeparatorLaw` and `SlugOfWords` |
| Slug.SlugFixed | config.php:134-139 | a string that is already a slug is its own slug |
| Slug.SlugIdempotent | config.php:134-139 | slug(slug(x)) == slug(x) |
| Slug.SlugOfWords | config.php:134-139 | two slugs joined by any non-empty run of whitespace and '-' give the two slugs joined by one '-' |
| Slug.SlugOfTitle | config.php:134-139 | a title whose lower-cased form is two slugs around a separator run gives those slugs joined by one '-' |
| Slug.HelloWorldSlug | config.php:134-139 | "Hello  World" gives "hello-world" |
| Slug.SlugOfForeignTitle | config.php:134-139 | a title with no ASCII letter or digit gives the empty slug |
| Slug.ArabicTitleSlug | config.php:134-139 | the Arabic title "شقة" gives the empty slug |
| Price.Decimal | config.php:131 | the numeral is non-empty, all digits, with no leading zero |
| Price.DecimalRoundTrip | config.php:131 | the decimal numeral reads back as the number |
| Price.GroupWellGrouped | config.php:131 | grouping gives one to three leading digits followed by ",ddd" groups |
| Price.GroupStrip | config.php:131 | removing the commas of a grouped numeral gives back its digits |
| Price.ParseGrouped | config.php:131 | a grouped numeral, a space and a currency read back as the value and the currency |
| Price.NumberFormatGrouped | config.php:131 | `number_format` writes a '-' exactly for a negative amount, then well-grouped digits whose comma-free form is the decimal numeral of the magnitude |
| Price.FormatPriceRoundTrip | config.php:130-132 | every formatted whole-number price reads back as the same price and currency: sign, grouped digits, one space, the code |
| Price.FormatPriceExample | config.php:130-132 | 1234567 is written "1,234,567 YER" |
| Price.DecimalExample | config.php:131 | 1234567 is written with the digits "1234567" |
| Price.GroupExample | config.php:131 | "1234567" is grouped as "1,234,567" |
| Listing.FiltersOf | api.php:261-273 | `featured` is tri-state: absent stays absent; present becomes the PHP `(bool)` cast, false exactly for "" and "0" |
| Listing.ClampPaging | api.php:276-278 | page >= 1, 1 <= per_page <= 50, offset == (page-1)*per_page >= 0; in-range values are kept, others clamped |
| Listing.SortColumn | api.php:281-285 | the column is always in {created_at, price, area_sqm, title}; an allowed value is kept, anything else becomes created_at |
| Listing.SortDirection | api.php:287-291 | the direction is ASC or DESC, ASC exactly when the upper-cased request is "ASC" |
| Listing.LowerCaseAscending | api.php:287-291 | "asc" and "aSc" are accepted as ASC |
| Listing.OnePlaceholder | api.php:294-351 | a placeholder-free piece followed by '?' adds one placeholder |
| Listing.KeywordPlaceholders | api.php:298-302 | the keyword condition has exactly four placeholders |
| Listing.ComparisonPlain | api.php:303-351 | no filter's SQL text before its '?' contains a placeholder: no user value is put into condition text |
| Listing.SqlPlaceholders | api.php:294-351 | each condition's SQL text has as many '?' as it binds parameters |
| Listing.WherePlaceholders | api.php:353 | the joined WHERE clause has as many '?' as the conditions bind |
| Listing.WhereClause | api.php:353 | no conditions give the empty text; otherwise the clause begins with the first condition's SQL and ends with the last one's |
| Listing.WhereStartsActive | api.php:294-353 | whatever the filters, the WHERE clause opens with `p.is_active = 1` |
| Listing.AppendCondition | api.php:294-351 | a row satisfies the extended lists iff it satisfies the old lists and the new condition |
| Listing.KeywordHolds | api.php:298-302 | the keyword condition holds iff one of the four text columns contains the keyword |
| Listing.Append | api.php:294-351 | the lists grow by exactly the condition and its parameters; the arities add up; a row satisfies the new lists iff it satisfied the old ones and the condition holds |
| Listing.AppendWhen | api.php:294-351 | with the guard set exactly the condition and its parameters are appended; with it unset both lists are unchanged |
| Listing.AppendTextFilters | api.php:297-316 | the lists grow by exactly the text group: keyword (one condition, four `%keyword%` parameters), city, type and property_type, each only when non-empty (PHP `empty`) |
| Listing.AppendPriceFilters | api.php:318-326 | the lists grow by exactly a min-price and a max-price condition, each with its bound and only when the bound is > 0 |
| Listing.AppendSizeFilters | api.php:328-341 | the lists grow by exactly a rooms, a min-area and a max-area condition, each with its bound and only when the bound is > 0 |
| Listing.AppendOwnerFilters | api.php:343-351 | the lists grow by exactly an agent condition with the id when > 0, and a featured condition bound to 1 or 0 when featured is present; an absent featured adds nothing |
| Listing.TextMeaning | api.php:297-316 | a row satisfies the lists extended by the text group iff it satisfied them before and passes the keyword, city, type and property_type filters |
| Listing.PriceMeaning | api.php:318-326 | a row satisfies the lists extended by the price group iff it satisfied them before and its price is within the supplied bounds |
| Listing.SizeMeaning | api.php:328-341 | a row satisfies the lists extended by the size group iff it satisfied them before and passes the rooms and area bounds |
| Listing.OwnerMeaning | api.php:343-351 | a row satisfies the lists extended by the owner group iff it satisfied them before and passes the agent and featured filters |
| Listing.TextCounts | api.php:297-316 | one condition per non-empty text filter; four parameters for the keyword and one for each other |
| Listing.RangeCounts | api.php:318-341 | one condition and one parameter per numeric bound > 0 |
| Listing.OwnerCounts | api.php:343-351 | one condition and one parameter for agent_id > 0 and one for a present featured, whose parameter is 1 or 0 |
| Listing.NoFiltersWhere | api.php:294-351 | with no filter supplied the conditions are the active-only one alone and there are no parameters |
| Listing.WhereMeaning | api.php:294-351 | a row satisfies the built conditions iff it is active and passes every supplied filter |
| Listing.WhereArity | api.php:294-351 | the built conditions bind exactly as many parameters as the list holds |
| Listing.ActiveOnlyHolds | api.php:294 | the first condition holds exactly on active rows |
| Listing.BuildWhere | api.php:294-351 | the lists are exactly the active-only condition followed by the text, price, size and owner groups; the '?' count equals the parameter count; a row satisfies the WHERE clause iff it is active and passes every supplied filter |
| Listing.Matching | api.php:353-375 | the selected rows are exactly the table rows that pass the filters |
| Listing.SelectIsMatching | api.php:353-375 | running the built clause over a table selects exactly the matching rows, in order |
| Listing.TotalPages | api.php:414 | total_pages is ceil(total/per_page) |
| Listing.NextPageMeansMoreRows | api.php:415 | page < total_pages iff page*per_page < total |
| Listing.PageOf | api.php:364-375 | a page holds at most per_page rows, the rows from offset on, and is empty past the end |
| Listing.PageMeta | api.php:410-417 | total_pages is the ceiling of total/per_page; has_next iff more rows follow this page; has_prev iff page > 1 |
| Listing.Shape | api.php:378-408 | id, titles, price, listing and property type, city, featured flag and agent id are copied; rooms, bathrooms and area are null exactly when 0 and otherwise the stored value |
| Listing.ShapeAll | api.php:378-408 | one listed item per row, each the row's shaped form |
| Listing.GetPropertiesList | api.php:257-420 | the items are the requested page of the matching rows in the requested order, with the metadata of the clamped paging |
| Listing.LastPageExample | api.php:410-417 | 30 rows at 12 per page, page 3: 3 pages, no next, a previous |
| Listing.EmptyResultMeta | api.php:410-417 | with no rows there are 0 pages and no next page |
| Listing.GetAdminInquiries | api.php:823-854 | the same clamp with a default of 20 per page; the page is a slice of the newest-first list; total_pages is the ceiling |
| RateLimit.Step | api.php:123-146 | with no record or an expired window the request is allowed and the window restarts at {now, 1}; inside the window it is allowed iff requests < max, which adds exactly 1; a denial changes nothing |
| RateLimit.StepKeepsCeiling | api.php:123-146 | the request counter never exceeds the maximum |
| RateLimit.WindowAllowance | api.php:123-146 | inside one window, at most max minus the used count of further requests are allowed |
| RateLimit.FreshWindowCeiling | api.php:123-146 | a burst that opens a fresh window is allowed min(burst size, max) requests |
| RateLimit.RateLimiter.CheckRateLimit | api.php:123-146 | the stored record and the verdict follow `Step`; a denied request leaves the record untouched |
| Inquiry.MissingFields | api.php:78-86 | at most as many missing fields as required ones |
| Inquiry.MissingFieldsMeaning | api.php:78-86 | a field is reported iff it is required and unset or empty after trim (PHP `empty`, so "0" counts as missing) |
| Inquiry.ValidateRequiredFields | api.php:78-86 | the loop returns exactly the missing required fields in input order |
| Inquiry.NewRow | api.php:559-578 | the property id and user id are stored as given; name, email, phone, message and contact time are escaped and decode to the trimmed input; the viewing date is NULL iff PHP-empty and otherwise stored as given, unsanitised |
| Inquiry.CreateInquiry | api.php:531-590 | missing fields are checked first, then that the property exists, then the email; a row is inserted iff all three pass; every rejection is a 400 and leaves the table unchanged |
| Inquiry.ZeroNameRejected | api.php:536-543 | a name of "0" is rejected as a validation error |
| Favorites.Add | api.php:710-737 | a missing or zero property id is a validation error; an existing pair is ALREADY_EXISTS with the set unchanged; otherwise exactly that pair is inserted |
| Favorites.Remove | api.php:739-752 | removal succeeds iff the pair was present, and then the set shrinks by exactly that pair; otherwise NOT_FOUND; other pairs are untouched |
| Favorites.UserFavorites | api.php:690-708 | a user's favourites are exactly the active properties paired with that user |
| Favorites.AddTwice | api.php:710-737 | adding the same pair twice: the second add is ALREADY_EXISTS and changes nothing |
| Favorites.AddThenRemove | api.php:710-752 | adding a new pair then removing it restores the set |
| Favorites.RemoveThenList | api.php:690-752 | after a removal the property is no longer listed for the user, and other users' lists are unchanged |
| Favorites.FavoritesTable.AddToFavorites | api.php:710-737 | the table and the outcome follow `Add` |
| Favorites.FavoritesTable.RemoveFromFavorites | api.php:739-752 | the table and the outcome follow `Remove` |
| Admin.SelectPage | admin.php:130-135 | the page is always one of the six allowed pages; anything else becomes dashboard |
| Admin.FindActiveAdmin | admin.php:18-20 | the record found is an active admin with that username, and none is found iff none exists |
| Admin.Authenticate | admin.php:13-38 | login succeeds iff the sanitised username and the password are PHP-truthy (neither "" nor "0"), an active admin with that name exists and the password verifies; a failure is one of the two error messages |
| Admin.ApplyLogin | admin.php:22-37 | a success writes the four admin identity fields; a failure leaves the session untouched and reports the message |
| Admin.Login | admin.php:10-44 | the session gains an identity iff `Authenticate` succeeds; the CSRF token and the user session are never touched |
| Admin.FalsyNameRejected | admin.php:13-16 | the usernames "" and "0" are rejected as missing |
| Admin.HandlePost | admin.php:84-128 | with a missing or wrong CSRF token nothing runs and the token error is set; with a valid one update_property and create_agent end in a fatal undefined-function error, create_property and update_inquiry_status run and set the matching notice, and any other action does nothing |
| Admin.UndefinedHandlersFatal | admin.php:99-115 | with a valid token, update_property and create_agent always end in the undefined-function error |
| Admin.HandlePostIntended | admin.php:84-128 | the intended dispatch: every one of the four actions runs its handler and sets its notice; no outcome is fatal |
| Admin.IntendedAgreesElsewhere | admin.php:84-128 | the written and intended dispatches differ exactly when the token is valid and the action is one of the two undefined ones |
| Admin.AjaxDispatch | admin.php:57-81 | an action other than stats, delete_property and toggle_featured answers success=false with "Unknown action"; deletions and toggles need a POST with an id |
| Admin.AjaxDeleteWithoutToken | admin.php:57-81 | a POST with ajax=delete_property and an id is dispatched with no CSRF token at all |
| Admin.AjaxDispatchGated | admin.php:57-85 | deletions and toggles are dispatched only with a valid token; with one the routes are those of the switch as written; without one they are refused with the token error |
| Admin.SoftDelete | admin.php:216-227 | only is_active changes, to false, on the rows with the target id; every other field and row is unchanged |
| Admin.ToggleFeaturedRows | admin.php:229-240 | only is_featured is negated, on the rows with the target id |
| Admin.ToggleTwice | admin.php:229-240 | toggling twice restores the rows |
| Admin.SoftDeleteIdempotent | admin.php:216-227 | deleting twice is the same as deleting once |
| Admin.DeletedNotListed | admin.php:216-227 | a soft-deleted property never appears in the public listing |
| Admin.PropertyStore.DeleteProperty | admin.php:216-227 | on success the table is the soft-deleted table; on a database error it is unchanged and the error is reported |
| Admin.PropertyStore.ToggleFeatured | admin.php:229-240 | on success the table has the target's featured flag flipped; on a database error it is unchanged |
| Admin.GetAdminStats | admin.php:138-164 | exactly the eight statistic keys are present, and a failing count is 0 |
| ClientValidation.JsTrim | js/app.js:491 | the trimmed value neither starts nor ends with JavaScript whitespace |
| ClientValidation.IsValidEmail | js/app.js:837-840 | an accepted address has at least five characters and contains '@' |
| ClientValidation.ValidEmailShape | js/app.js:837-840 | an address is accepted iff it has the form A@B.C with A, B, C non-empty and free of whitespace and '@' |
| ClientValidation.AcceptedHasShape | js/app.js:837-840 | every accepted address has the A@B.C shape |
| ClientValidation.ShapeAccepted | js/app.js:837-840 | every A@B.C address is accepted |
| ClientValidation.ValidEmailOneAt | js/app.js:837-840 | an accepted address has exactly one '@' |
| ClientValidation.IsValidPhone | js/app.js:842-845 | an accepted phone has 7 to 16 characters |
| ClientValidation.ValidPhoneShape | js/app.js:842-845 | a phone is accepted iff an optional '+' is followed by 7 to 15 digits, '-', whitespace or parentheses |
| ClientValidation.PhoneExamples | js/app.js:842-845 | "+967 777-123-456" is accepted; 16 digits and a doubled '+' are rejected |
| ClientValidation.GetValidationMessage | js/app.js:848-864 | the current language's message is used when it has one; any other language falls back to English; the message is never empty |
| ClientValidation.ValidateField | js/app.js:489-525 | required-and-empty is checked first, then email, then phone, then minlength; the field is valid iff none fails and then the message is empty; email and phone are checked only on non-empty values; length is counted in UTF-16 code units and the minlength message carries the attribute text as written |
| ClientValidation.Utf16Length | js/app.js:515 | one or two units per character, exactly one per character when all lie in the Basic Multilingual Plane |
| ClientValidation.EmojiLength | js/app.js:515-517 | two emoji are four units long, so a minlength of 3 accepts them |
| Carousel.Next | js/app.js:579-581 | the next index is in [0, n) and wraps from the last slide to the first |
| Carousel.Prev | js/app.js:583-585 | the previous index is in [0, n) and wraps from the first slide to the last |
| Carousel.PrevUndoesNext | js/app.js:579-585 | prev(next(i)) == i |
| Carousel.NextUndoesPrev | js/app.js:579-585 | next(prev(i)) == i |
| Carousel.NextTimesSplit | js/app.js:579-581 | a+b forward steps are a steps and then b steps |
| Carousel.NextTimesNoWrap | js/app.js:579-581 | k steps that stay on screen land on i+k |
| Carousel.FullCircle | js/app.js:579-581 | n forward steps return to the same slide |
| Carousel.Classify | js/app.js:612-625 | on real-valued coordinates, a swipe fires only when abs(dx) > abs(dy) and abs(dx) > 50; dx > 0 goes left (next), dx < 0 goes right (prev) |
| Carousel.VerticalIsNoSwipe | js/app.js:612-625 | a mostly vertical gesture is never a swipe |
| Carousel.SwipeTracker.TouchStart | js/app.js:604-607 | the start point is recorded |
| Carousel.SwipeTracker.TouchEnd | js/app.js:609-630 | the gesture is classified from the recorded start; a start with x or y equal to 0 is ignored and not reset; otherwise the start is reset to 0 |
| Carousel.Slides.constructor | js/app.js:551-557 | a carousel starts at slide 0 |
| Carousel.Slides.GoTo | js/app.js:569-577 | the current slide becomes the requested index |
| Carousel.Slides.NextSlide | js/app.js:579-581 | the current slide advances with wrap-around |
| Carousel.Slides.PrevSlide | js/app.js:583-585 | the current slide moves back with wrap-around |
| Carousel.Slides.OnSwipe | js/app.js:596 | a left swipe is next, a right swipe is previous, anything else stays |
| ClientState.LastKeptFound | js/app.js:318-327 | a key's collected value is the value of a non-blank entry with that key after which no non-blank entry with the key follows: the last one |
| ClientState.LastKeptNone | js/app.js:318-327 | a key is absent iff all its values are blank after trimming |
| ClientState.LastKeptSnoc | js/app.js:321-325 | a later non-blank entry overwrites an earlier one; a blank one changes nothing |
| ClientState.CollectedStep | js/app.js:321-325 | one loop step keeps the map equal to the last non-blank value per key |
| ClientState.CollectSearchData | js/app.js:314-328 | without a form the data is empty; otherwise each key maps to its last untrimmed non-blank value, and blank-only keys are absent |
| ClientState.Flip | js/app.js:387-397 | the property's membership is flipped and every other id string is unchanged |
| ClientState.FlipTwice | js/app.js:387-397 | toggling twice restores the set |
| ClientState.FavoritePath | js/app.js:391 | the DELETE path is "/favorites/" followed by the id string as written |
| ClientState.FavoritePathInjective | js/app.js:391 | two ids give the same DELETE path iff they are the same string |
| ClientState.SpellingsDiffer | js/app.js:387-397 | ids are compared as strings: toggling "07" in a set holding "7" adds a second entry |
| ClientState.FavoriteState.ToggleFavorite | js/app.js:381-404 | not logged in prompts for login and changes nothing; a favourite sends DELETE /favorites/{id}, else POST; success flips membership; a failure leaves the set unchanged and shows the error |

## Left out

- Prices and areas are floats in PHP. They are modelled as integers. `floatval`/`intval` coercion of request values is not modelled: filters arrive as already-converted integers.
- MySQL `LIKE` is modelled as substring containment with `%keyword%`. Wildcards typed inside the keyword, collation and case-insensitive matching are not modelled.
- Query execution is not modelled:
  - `ORDER BY` is a parameter `ordered` that returns the whole table in the requested order; `Listing.Matching` then keeps the rows the WHERE clause selects;
  - the `COUNT(*)` total is the length of the matching list;
  - property existence is a parameter.
- Database exceptions in `api.php` are not modelled. They reach the router's catch (api.php:196-201), which answers 500 INTERNAL_ERROR. `Listing.GetPropertiesList` and `Inquiry.CreateInquiry` have no failure outcome.
- `Inquiry.CreateInquiry`: the `inquiry_id` the response returns (`lastInsertId`) is not modelled. `Created` carries the inserted row instead.
- `Listing.ClampPaging`: the offset is an unbounded integer. In PHP `($page - 1) * $per_page` overflows to a float past PHP_INT_MAX, for example with `page=99999999999999999999`. MySQL then rejects the `OFFSET`, and the request ends in the 500 answer. The model gives an empty page instead.
- `Listing.ShapeAll`: `Listing.Shape` keeps 12 of the 24 response fields. The fields not modelled are slug, currency, address, address_ar, latitude, longitude, main_image, images_count, the agent's name, phone and email, created_at and updated_at. `floatval` of price and area is modelled as the integer value. A row's rooms, bathrooms and area are integers in which 0 stands for a NULL or zero column. The column types are not part of this model, so a value that reaches PHP as a truthy string such as "0.00" is not distinguished: the source answers 0.0 for it, the model null.
- The rate limiter's file storage (a temp file named by `md5`) is not modelled. Neither is the read-modify-write race between concurrent requests. The record is a field of `RateLimit.RateLimiter`.
- These collaborators are parameters:
  - `random_bytes`;
  - `password_verify`;
  - `filter_var(FILTER_VALIDATE_EMAIL)`;
  - the clock.
- `Config.HashEquals` models only the result of `hash_equals`, not its constant-time behaviour.
- `htmlspecialchars` is modelled for the five characters it escapes with `ENT_QUOTES`. Invalid UTF-8 handling is not modelled.
- `strtolower` is modelled for ASCII only, as PHP 8.2 and later do. PHP 8.0 and 8.1 follow the locale.
- The inquiry notification email (`mail()`) is not modelled.
- `Inquiry.NewRow`: the ip_address and user_agent columns are not modelled.
- `Admin.Login`: the `last_login` update and the redirect after login are not modelled.
- `Admin.HandlePost`: what `create_property` and `update_inquiry_status` do is an outcome parameter `run`. `sanitize_property_data` is not modelled. `update_property` and `create_agent` are defined nowhere (see Findings).
- The seven-key `get_admin_stats` of `api.php` (api.php:801-821) is not modelled. Unlike the admin one it has no try/catch, so one failing count ends the request in the router's 500 answer instead of storing 0.
- The request router of `api.php` (URL path parsing from server variables) is not modelled.
- `Carousel.Classify`: touch coordinates are real numbers. The rounding of JavaScript doubles is not modelled.
- `Carousel.Slides`: a carousel with no slides is excluded (`n >= 1`). In JavaScript `goToSlide` would first read `slides[currentSlide].classList` (js/app.js:570) and throw a TypeError.
- `ClientValidation.ValidateField`: the number that the `minlength` text converts to is given with the attribute, as an optional integer that is absent for `NaN`. The conversion itself is not modelled. Neither is a fractional attribute such as "3.5".
- `Favorites.UserFavorites`: the `ORDER BY created_at DESC` of `get_user_favorites` is not modelled. The result is a set.
- `Favorites.Add`: the property id arrives as a string (the client posts the `data-property-id` attribute). The model takes the integer MySQL compares it as: an absent id or "" is `None`, and "0" is `Some(0)`, both rejected by `!$property_id`. Truthy strings that are not canonical numerals, such as "abc" or "07", are not modelled: PHP lets them through and MySQL coerces them.
- The session cookie's attributes (HttpOnly, Secure, SameSite=Strict at config.php:142-144) are not modelled. `Admin.AjaxDispatch` takes the request as it reaches the server, with whatever session the browser sent.
- DOM updates are not modelled. Neither are toasts, indicator classes, the autoplay timer, debounce/throttle and the `fetch` plumbing. `ClientState.FavoriteState.ToggleFavorite` models the request it sends, the outcome it shows and the set it keeps.
- The email templates, `index.php` rendering and the language dictionaries are not modelled: they contain no decision logic.

## Findings

| source | as written | input that shows it | evidently intended | confidence | as-written member | corrected member |
|---|---|---|---|---|---|---|
| admin.php:99-115 | `update_property` and `create_agent` are called, but neither admin.php nor config.php defines them. A valid request for either ends in a fatal "Call to undefined function" error with no notice | a POST with a valid CSRF token and `action=update_property` | both handlers exist and set "Property updated successfully" / "Agent created successfully" or their error message | high; not executed | Admin.UndefinedHandlersFatal | Admin.HandlePostIntended |
| admin.php:57-85 | the AJAX `delete_property` and `toggle_featured` routes are handled before, and outside, the CSRF check of the form branch | a POST `ajax=delete_property&id=1` without a token, carrying a signed-in admin's session cookie. The session cookie is SameSite=Strict (config.php:144), so a cross-site page cannot send it; only a same-site origin, such as a sibling subdomain, or a browser that ignores SameSite can | the state-changing AJAX routes demand the same token as the forms, keeping the form branch's defence in depth | low; not executed | Admin.AjaxDeleteWithoutToken | Admin.AjaxDispatchGated |

=== FILE: admin.dfy ===
/**
 * The admin panel (admin.php): the login gate, the CSRF-gated form
 * dispatch, the ajax routes, the page allow-list, the two single-field
 * property updates and the dashboard statistics.
 */
module Admin {
  import opened Wrappers
  import Php
  import Sanitize
  import Config
  import Listing

  // ---------------------------------------------------------------- page selection

  const AllowedPages: seq<string> := ["dashboard", "properties", "agents", "users", "inquiries", "settings"]

  /** The rendered page: the requested one when it is allowed, otherwise the dashboard. */
  function SelectPage(page: Option<string>): (r: string)
    ensures r in AllowedPages
    ensures page.GetOr("dashboard") in AllowedPages ==> r == page.GetOr("dashboard")
    ensures page.GetOr("dashboard") !in AllowedPages ==> r == "dashboard"
  {
    var p := page.GetOr("dashboard");
    if p in AllowedPages then p else "dashboard"
  }

  // ---------------------------------------------------------------- login

  /** A row of the admins table. */
  datatype AdminRecord = AdminRecord(id: int, username: string, passwordHash: string, fullName: string, role: string, isActive: bool)

  /** The first active admin with this user name, as the login query fetches it. */
  function FindActiveAdmin(admins: seq<AdminRecord>, username: string): (r: Option<AdminRecord>)
    ensures r.Some? ==> r.value in admins && r.value.username == username && r.value.isActive
    ensures r.None? <==> forall a :: a in admins ==> !(a.username == username && a.isActive)
  {
    if admins == [] then None
    else if admins[0].username == username && admins[0].isActive then Some(admins[0])
    else FindActiveAdmin(admins[1..], username)
  }

  const BothRequired: string := "Please enter both username and password"
  const BadCredentials: string := "Invalid username or password"

  datatype LoginResult = LoggedIn(admin: AdminRecord) | LoginFailed(message: string)

  /**
   * The login decision. The user name is sanitised first; both fields must
   * be truthy in PHP's sense ("" and "0" are not); `verify` stands for
   * password_verify.
   */
  function Authenticate(username: string, password: string, admins: seq<AdminRecord>,
                        verify: (string, string) -> bool): (r: LoginResult)
    ensures var name := Sanitize.SanitizeInput(username);
      && (r == LoginFailed(BothRequired) <==> !Php.ToBool(name) || !Php.ToBool(password))
      && (r.LoggedIn? ==> r.admin in admins && r.admin.isActive && r.admin.username == name
                          && verify(password, r.admin.passwordHash))
      && (r == LoginFailed(BadCredentials) <==>
            Php.ToBool(name) && Php.ToBool(password)
            && (FindActiveAdmin(admins, name).None? || !verify(password, FindActiveAdmin(admins, name).value.passwordHash)))
    ensures r.LoginFailed? ==> r.message == BothRequired || r.message == BadCredentials
  {
    var name := Sanitize.SanitizeInput(username);
    if Php.ToBool(name) && Php.ToBool(password) then
      match FindActiveAdmin(admins, name)
      case Some(a) => if verify(password, a.passwordHash) then LoggedIn(a) else LoginFailed(BadCredentials)
      case None => LoginFailed(BadCredentials)
    else LoginFailed(BothRequired)
  }

  /** Writes the outcome of a login into the session: the four identity fields on success, nothing otherwise. */
  method ApplyLogin(session: Config.Session, result: LoginResult) returns (error: Option<string>)
    modifies session
    ensures session.csrfToken == old(session.csrfToken) && session.userId == old(session.userId)
    ensures result.LoggedIn? ==>
      && error == None
      && session.adminId == Some(result.admin.id) && session.adminUsername == Some(result.admin.username)
      && session.adminName == Some(result.admin.fullName) && session.adminRole == Some(result.admin.role)
    ensures result.LoginFailed? ==>
      && error == Some(result.message)
      && session.adminId == old(session.adminId) && session.adminUsername == old(session.adminUsername)
      && session.adminName == old(session.adminName) && session.adminRole == old(session.adminRole)
  {
    if result.LoggedIn? {
      session.adminId := Some(result.admin.id);
      session.adminUsername := Some(result.admin.username);
      session.adminName := Some(result.admin.fullName);
      session.adminRole := Some(result.admin.role);
      error := None;
    } else {
      error := Some(result.message);
    }
  }

  /**
   * A login POST while no admin is signed in: on success the four identity
   * fields of the session are written, otherwise the session is untouched
   * and the error message is returned.
   */
  method Login(session: Config.Session, username: string, password: string, admins: seq<AdminRecord>,
               verify: (string, string) -> bool) returns (error: Option<string>)
    requires session.adminId.None?
    modifies session
    ensures session.csrfToken == old(session.csrfToken) && session.userId == old(session.userId)
    ensures var result := Authenticate(username, password, admins, verify);
      result.LoggedIn? ==>
        && error == None
        && session.adminId == Some(result.admin.id) && session.adminUsername == Some(result.admin.username)
        && session.adminName == Some(result.admin.fullName) && session.adminRole == Some(result.admin.role)
    ensures var result := Authenticate(username, password, admins, verify);
      result.LoginFailed? ==>
        && error == Some(result.message)
        && session.adminId == None && session.adminUsername == old(session.adminUsername)
        && session.adminName == old(session.adminName) && session.adminRole == old(session.adminRole)
  {
    var result := Authenticate(username, password, admins, verify);
    error := ApplyLogin(session, result);
  }

  /** An empty or "0" user name never signs anyone in, whatever the admins table holds. */
  lemma FalsyNameRejected(password: string, admins: seq<AdminRecord>, verify: (string, string) -> bool)
    ensures Authenticate("", password, admins, verify) == LoginFailed(BothRequired)
    ensures Authenticate("0", password, admins, verify) == LoginFailed(BothRequired)
  {
    Sanitize.SanitizePlain("");
    Sanitize.SanitizePlain("0");
  }

  // ---------------------------------------------------------------- form dispatch

  /** What a form action's handler returned. */
  datatype ActionResult = ActionResult(success: bool, message: string)

  /** The two notices the page shows after a POST. */
  datatype Notice = Notice(success: Option<string>, error: Option<string>)

  /** The actions the form switch names. */
  const DispatchedActions: seq<string> := ["create_property", "update_property", "create_agent", "update_inquiry_status"]

  /** The two of them whose handler admin.php defines. */
  const DefinedActions: seq<string> := ["create_property", "update_inquiry_status"]

  /** The two whose handler is defined nowhere: calling it is a fatal error. */
  const UndefinedActions: seq<string> := ["update_property", "create_agent"]

  const InvalidToken: string := "Invalid security token. Please try again."

  function SuccessNotice(action: string): string
  {
    match action
    case "create_property" => "Property created successfully"
    case "update_property" => "Property updated successfully"
    case "create_agent" => "Agent created successfully"
    case _ => "Inquiry status updated"
  }

  /** How a form POST ends: notices and the action that ran, or a fatal call of an undefined function. */
  datatype PostOutcome = Handled(notice: Notice, ran: Option<string>) | Fatal(undefinedFunction: string)

  /**
   * A form POST from a signed-in admin, as admin.php is written. `run(action)`
   * stands for the handler of a defined action. update_property and
   * create_agent name functions that exist in neither admin.php nor
   * config.php, so with a valid token those two actions end the request with
   * a fatal error (the function's name is the action's).
   */
  function HandlePost(stored: Option<string>, posted: string, action: string, run: string -> ActionResult): (r: PostOutcome)
    ensures !Config.VerifyCsrfToken(stored, posted) ==> r == Handled(Notice(None, Some(InvalidToken)), None)
    ensures r.Fatal? <==> stored == Some(posted) && action in UndefinedActions
    ensures r.Fatal? ==> r.undefinedFunction == action
    ensures r.Handled? && r.ran.Some? <==> stored == Some(posted) && action in DefinedActions
    ensures r.Handled? && r.ran.Some? ==>
      (r.ran.value == action
       && r.notice == (if run(action).success then Notice(Some(SuccessNotice(action)), None) else Notice(None, Some(run(action).message))))
    ensures stored == Some(posted) && action !in DispatchedActions ==> r == Handled(Notice(None, None), None)
  {
    if !Config.VerifyCsrfToken(stored, posted) then Handled(Notice(None, Some(InvalidToken)), None)
    else if action in UndefinedActions then Fatal(action)
    else if action in DefinedActions then
      var result := run(action);
      Handled(if result.success then Notice(Some(SuccessNotice(action)), None) else Notice(None, Some(result.message)), Some(action))
    else Handled(Notice(None, None), None)
  }

  /** With a valid token, update_property and create_agent fail whatever the handlers would have done. */
  lemma UndefinedHandlersFatal(token: string, run: string -> ActionResult)
    ensures HandlePost(Some(token), token, "update_property", run) == Fatal("update_property")
    ensures HandlePost(Some(token), token, "create_agent", run) == Fatal("create_agent")
  {
  }

  /**
   * The dispatch the switch is evidently written for: every one of the four
   * actions runs its handler and sets the matching notice.
   */
  function HandlePostIntended(stored: Option<string>, posted: string, action: string, run: string -> ActionResult): (r: PostOutcome)
    ensures r.Handled?
    ensures !Config.VerifyCsrfToken(stored, posted) ==> r == Handled(Notice(None, Some(InvalidToken)), None)
    ensures r.ran.Some? <==> stored == Some(posted) && action in DispatchedActions
    ensures r.ran.Some? ==>
      (r.ran.value == action
       && r.notice == (if run(action).success then Notice(Some(SuccessNotice(action)), None) else Notice(None, Some(run(action).message))))
    ensures stored == Some(posted) && action !in DispatchedActions ==> r == Handled(Notice(None, None), None)
  {
    if !Config.VerifyCsrfToken(stored, posted) then Handled(Notice(None, Some(InvalidToken)), None)
    else if action in DispatchedActions then
      var result := run(action);
      Handled(if result.success then Notice(Some(SuccessNotice(action)), None) else Notice(None, Some(result.message)), Some(action))
    else Handled(Notice(None, None), None)
  }

  /** The two dispatches differ exactly on the two actions without a handler. */
  lemma IntendedAgreesElsewhere(stored: Option<string>, posted: string, action: string, run: string -> ActionResult)
    ensures HandlePost(stored, posted, action, run) != HandlePostIntended(stored, posted, action, run)
        <==> stored == Some(posted) && action in UndefinedActions
  {
  }

  // ---------------------------------------------------------------- ajax routes

  datatype AjaxRoute =
    | Stats | DeleteProperty(id: string) | ToggleFeatured(id: string) | Silent
    | UnknownAction(success: bool, message: string)
    | Refused(message: string)  // only in the token-gated variant

  /**
   * The ajax switch as written: the two updates need a POST carrying an id
   * and print nothing otherwise. It runs before the form branch, so no CSRF
   * token is asked for.
   */
  function AjaxDispatch(ajax: string, isPost: bool, id: Option<string>): (r: AjaxRoute)
    ensures r.UnknownAction? <==> ajax !in ["stats", "delete_property", "toggle_featured"]
    ensures r.UnknownAction? ==> r == UnknownAction(false, "Unknown action")
    ensures r.DeleteProperty? ==> ajax == "delete_property" && isPost && id == Some(r.id)
    ensures r.ToggleFeatured? ==> ajax == "toggle_featured" && isPost && id == Some(r.id)
    ensures r.Silent? <==> ajax in ["delete_property", "toggle_featured"] && !(isPost && id.Some?)
    ensures !r.Refused?
  {
    match ajax
    case "stats" => Stats
    case "delete_property" => if isPost && id.Some? then DeleteProperty(id.value) else Silent
    case "toggle_featured" => if isPost && id.Some? then ToggleFeatured(id.value) else Silent
    case _ => UnknownAction(false, "Unknown action")
  }

  /**
   * A POST carrying no token at all reaches the delete route. The session
   * cookie is SameSite=Strict (config.php:144), so only a same-site origin or
   * a browser that ignores SameSite can send such a request with the admin's
   * session: the route loses the token check, a defence in depth.
   */
  lemma AjaxDeleteWithoutToken()
    ensures AjaxDispatch("delete_property", true, Some("1")) == DeleteProperty("1")
  {
  }

  /** The ajax switch with the form branch's token check in front of the two state-changing routes. */
  function AjaxDispatchGated(ajax: string, isPost: bool, id: Option<string>, stored: Option<string>, posted: string): (r: AjaxRoute)
    ensures (r.DeleteProperty? || r.ToggleFeatured?) ==> Config.VerifyCsrfToken(stored, posted)
    ensures Config.VerifyCsrfToken(stored, posted) ==> r == AjaxDispatch(ajax, isPost, id)
    ensures !Config.VerifyCsrfToken(stored, posted) && ajax in ["delete_property", "toggle_featured"] ==> r == Refused(InvalidToken)
  {
    if ajax in ["delete_property", "toggle_featured"] && !Config.VerifyCsrfToken(stored, posted) then Refused(InvalidToken)
    else AjaxDispatch(ajax, isPost, id)
  }

  // ---------------------------------------------------------------- property updates

  /** UPDATE properties SET is_active = 0 WHERE id = ? */
  function SoftDelete(rows: seq<Listing.PropertyRow>, id: int): (r: seq<Listing.PropertyRow>)
    ensures |r| == |rows|
    ensures forall i :: 0 <= i < |rows| && rows[i].id != id ==> r[i] == rows[i]
    ensures forall i :: 0 <= i < |rows| && rows[i].id == id ==> r[i] == rows[i].(isActive := false)
  {
    if rows == [] then []
    else [if rows[0].id == id then rows[0].(isActive := false) else rows[0]] + SoftDelete(rows[1..], id)
  }

  /** UPDATE properties SET is_featured = NOT is_featured WHERE id = ? */
  function ToggleFeaturedRows(rows: seq<Listing.PropertyRow>, id: int): (r: seq<Listing.PropertyRow>)
    ensures |r| == |rows|
    ensures forall i :: 0 <= i < |rows| && rows[i].id != id ==> r[i] == rows[i]
    ensures forall i :: 0 <= i < |rows| && rows[i].id == id ==> r[i] == rows[i].(isFeatured := !rows[i].isFeatured)
  {
    if rows == [] then []
    else [if rows[0].id == id then rows[0].(isFeatured := !rows[0].isFeatured) else rows[0]] + ToggleFeaturedRows(rows[1..], id)
  }

  /** Toggling the featured flag twice restores the table. */
  lemma ToggleTwice(rows: seq<Listing.PropertyRow>, id: int)
    ensures ToggleFeaturedRows(ToggleFeaturedRows(rows, id), id) == rows
  {
    var once := ToggleFeaturedRows(rows, id);
    var twice := ToggleFeaturedRows(once, id);
    assert forall i :: 0 <= i < |rows| ==> twice[i] == rows[i];
  }

  /** A second delete changes nothing. */
  lemma SoftDeleteIdempotent(rows: seq<Listing.PropertyRow>, id: int)
    ensures SoftDelete(SoftDelete(rows, id), id) == SoftDelete(rows, id)
  {
    var once := SoftDelete(rows, id);
    assert forall i :: 0 <= i < |rows| ==> SoftDelete(once, id)[i] == once[i];
  }

  /** A deleted property drops out of every public listing, whatever the filters. */
  lemma DeletedNotListed(rows: seq<Listing.PropertyRow>, id: int, f: Listing.Filters)
    ensures forall row :: row in Listing.Matching(SoftDelete(rows, id), f) ==> row.id != id
  {
  }

  /** The properties table, updated in place by the two ajax actions. */
  class PropertyStore {
    var rows: seq<Listing.PropertyRow>

    constructor (initial: seq<Listing.PropertyRow>)
      ensures rows == initial
    {
      rows := initial;
    }

    /** delete_property: a soft delete; a database error leaves the table as it was. */
    method DeleteProperty(id: int, dbError: Option<string>) returns (result: ActionResult)
      modifies this
      ensures dbError.None? ==> rows == SoftDelete(old(rows), id) && result == ActionResult(true, "Property deleted successfully")
      ensures dbError.Some? ==> rows == old(rows) && result == ActionResult(false, "Database error: " + dbError.value)
    {
      if dbError.Some? {
        return ActionResult(false, "Database error: " + dbError.value);
      }
      rows := SoftDelete(rows, id);
      result := ActionResult(true, "Property deleted successfully");
    }

    /** toggle_property_featured: negate the flag; a database error leaves the table as it was. */
    method ToggleFeatured(id: int, dbError: Option<string>) returns (result: ActionResult)
      modifies this
      ensures dbError.None? ==> rows == ToggleFeaturedRows(old(rows), id) && result == ActionResult(true, "Featured status updated")
      ensures dbError.Some? ==> rows == old(rows) && result == ActionResult(false, "Database error: " + dbError.value)
    {
      if dbError.Some? {
        return ActionResult(false, "Database error: " + dbError.value);
      }
      rows := ToggleFeaturedRows(rows, id);
      result := ActionResult(true, "Featured status updated");
    }
  }

  // ---------------------------------------------------------------- statistics

  const StatKeys: seq<string> := [
    "total_properties", "featured_properties", "total_agents", "total_users",
    "total_inquiries", "new_inquiries", "monthly_visits", "monthly_inquiries"]

  /**
   * get_admin_stats: one count per key; `count(key)` is the result of that
   * key's query, None when it raised a database error, which reads as 0.
   */
  method GetAdminStats(count: string -> Option<int>) returns (stats: map<string, int>)
    ensures stats.Keys == set k | k in StatKeys
    ensures forall k :: k in StatKeys ==> stats[k] == count(k).GetOr(0)
  {
    stats := map[];
    var i := 0;
    while i < |StatKeys|
      invariant 0 <= i <= |StatKeys|
      invariant stats.Keys == set k | k in StatKeys[..i]
      invariant forall k :: k in StatKeys[..i] ==> stats[k] == count(k).GetOr(0)
    {
      var key := StatKeys[i];
      if count(key).Some? {
        stats := stats[key := count(key).value];
      } else {
        stats := stats[key := 0];
      }
      assert StatKeys[..i + 1] == StatKeys[..i] + [key];
      i := i + 1;
    }
    assert StatKeys[..i] == StatKeys;
  }
}

=== FILE: carousel.dfy ===
/**
 * The image carousel and swipe gestures of the browser script (js/app.js):
 * the current slide index, next/previous with wrap-around, jumping to an
 * indicator, and the classification of a touch gesture.
 */
module Carousel {
  /** nextSlide's index: one on, wrapping to the first slide. */
  function Next(i: int, n: int): (r: int)
    requires n >= 1 && 0 <= i < n
    ensures 0 <= r < n
    ensures r == if i == n - 1 then 0 else i + 1
  {
    (i + 1) % n
  }

  /**
   * prevSlide's index: one back, wrapping to the last slide. The operand
   * i - 1 + n is never negative, so JavaScript's truncating % agrees with
   * Dafny's here.
   */
  function Prev(i: int, n: int): (r: int)
    requires n >= 1 && 0 <= i < n
    ensures 0 <= r < n
    ensures r == if i == 0 then n - 1 else i - 1
  {
    (i - 1 + n) % n
  }

  lemma PrevUndoesNext(i: int, n: int)
    requires n >= 1 && 0 <= i < n
    ensures Prev(Next(i, n), n) == i
  {
  }

  lemma NextUndoesPrev(i: int, n: int)
    requires n >= 1 && 0 <= i < n
    ensures Next(Prev(i, n), n) == i
  {
  }

  /** k presses of next. */
  function NextTimes(i: int, n: int, k: nat): (r: int)
    requires n >= 1 && 0 <= i < n
    ensures 0 <= r < n
  {
    if k == 0 then i else Next(NextTimes(i, n, k - 1), n)
  }

  /** Pressing a + b times is pressing a times, then b times. */
  lemma {:induction false} NextTimesSplit(i: int, n: int, a: nat, b: nat)
    requires n >= 1 && 0 <= i < n
    ensures NextTimes(i, n, a + b) == NextTimes(NextTimes(i, n, a), n, b)
  {
    if b > 0 {
      NextTimesSplit(i, n, a, b - 1);
    }
  }

  /** Before the wrap-around, k presses move k slides on. */
  lemma {:induction false} NextTimesNoWrap(i: int, n: int, k: nat)
    requires n >= 1 && 0 <= i < n && i + k < n
    ensures NextTimes(i, n, k) == i + k
  {
    if k > 0 {
      NextTimesNoWrap(i, n, k - 1);
    }
  }

  /** n presses of next come back to the slide they started from. */
  lemma FullCircle(i: int, n: int)
    requires n >= 1 && 0 <= i < n
    ensures NextTimes(i, n, n) == i
  {
    NextTimesSplit(i, n, n - 1 - i, i + 1);
    NextTimesNoWrap(i, n, n - 1 - i);
    NextTimesSplit(n - 1, n, 1, i);
    assert NextTimes(n - 1, n, 1) == 0;
    NextTimesNoWrap(0, n, i);
  }

  // ---------------------------------------------------------------- gestures

  datatype Swipe = SwipeLeft | SwipeRight | NoSwipe

  /** Math.abs on the touch coordinates, which are JavaScript numbers (reals here). */
  function Abs(x: real): real { if x < 0.0 then -x else x }

  const MinSwipeDistance: real := 50.0

  /**
   * The touchend handler's decision. diffX = startX - endX: a horizontal
   * drag longer than 50 pixels is a left swipe (finger moved left) when
   * positive, a right swipe when negative. A gesture whose recorded start
   * has a zero coordinate is ignored.
   */
  function Classify(startX: real, startY: real, endX: real, endY: real): (r: Swipe)
    ensures r == SwipeLeft <==>
      startX != 0.0 && startY != 0.0 && Abs(startX - endX) > Abs(startY - endY) && startX - endX > MinSwipeDistance
    ensures r == SwipeRight <==>
      startX != 0.0 && startY != 0.0 && Abs(startX - endX) > Abs(startY - endY) && endX - startX > MinSwipeDistance
  {
    if startX == 0.0 || startY == 0.0 then NoSwipe
    else
      var dx, dy := startX - endX, startY - endY;
      if Abs(dx) > Abs(dy) && Abs(dx) > MinSwipeDistance then
        if dx > 0.0 then SwipeLeft else if dx < 0.0 then SwipeRight else NoSwipe
      else NoSwipe
  }

  /** A vertical scroll never turns a slide. */
  lemma VerticalIsNoSwipe(startX: real, startY: real, endX: real, endY: real)
    requires Abs(startY - endY) >= Abs(startX - endX)
    ensures Classify(startX, startY, endX, endY) == NoSwipe
  {
  }

  /** The start point recorded by addSwipeSupport. */
  class SwipeTracker {
    var startX: real
    var startY: real

    constructor ()
      ensures startX == 0.0 && startY == 0.0
    {
      startX, startY := 0.0, 0.0;
    }

    method TouchStart(x: real, y: real)
      modifies this
      ensures startX == x && startY == y
    {
      startX, startY := x, y;
    }

    /**
     * touchend: classify against the recorded start, then clear it. The
     * early return for a zero start coordinate skips the clearing.
     */
    method TouchEnd(endX: real, endY: real) returns (swipe: Swipe)
      modifies this
      ensures swipe == Classify(old(startX), old(startY), endX, endY)
      ensures old(startX) == 0.0 || old(startY) == 0.0 ==> startX == old(startX) && startY == old(startY)
      ensures old(startX) != 0.0 && old(startY) != 0.0 ==> startX == 0.0 && startY == 0.0
    {
      if startX == 0.0 || startY == 0.0 {
        return NoSwipe;
      }
      swipe := Classify(startX, startY, endX, endY);
      startX, startY := 0.0, 0.0;
    }
  }

  // ---------------------------------------------------------------- the carousel

  /** One carousel: its slide count and the index of the active slide. */
  class Slides {
    const count: int
    var current: int

    predicate Valid()
      reads this
    {
      count >= 1 && 0 <= current < count
    }

    constructor (n: int)
      requires n >= 1
      ensures Valid() && count == n && current == 0
    {
      count := n;
      current := 0;
    }

    /** goToSlide: an indicator's index. */
    method GoTo(index: int)
      requires Valid() && 0 <= index < count
      modifies this
      ensures Valid() && current == index
    {
      current := index;
    }

    method NextSlide()
      requires Valid()
      modifies this
      ensures Valid() && current == Next(old(current), count)
    {
      GoTo((current + 1) % count);
    }

    method PrevSlide()
      requires Valid()
      modifies this
      ensures Valid() && current == Prev(old(current), count)
    {
      GoTo((current - 1 + count) % count);
    }

    /** The swipe callbacks: left shows the next slide, right the previous one. */
    method OnSwipe(swipe: Swipe)
      requires Valid()
      modifies this
      ensures Valid()
      ensures swipe == SwipeLeft ==> current == Next(old(current), count)
      ensures swipe == SwipeRight ==> current == Prev(old(current), count)
      ensures swipe == NoSwipe ==> current == old(current)
    {
      if swipe == SwipeLeft {
        NextSlide();
      } else if swipe == SwipeRight {
        PrevSlide();
      }
    }
  }
}

=== FILE: client_state.dfy ===
/**
 * Client-side state of the browser script (js/app.js): the search form's
 * collected entries and the set of favourite property ids.
 */
module ClientState {
  import opened Wrappers
  import ClientValidation

  /** One FormData entry. */
  datatype Entry = Entry(key: string, value: string)

  predicate Blank(value: string) { ClientValidation.JsTrim(value) == [] }

  /** The value collectSearchData keeps for `key`: that of the last entry with the key and a non-blank value. */
  function LastKept(entries: seq<Entry>, key: string): Option<string>
  {
    if entries == [] then None
    else
      var e := entries[|entries| - 1];
      if e.key == key && !Blank(e.value) then Some(e.value) else LastKept(entries[..|entries| - 1], key)
  }

  /** Entry `i` is the last entry with `key` and a non-blank value. */
  predicate LastNonBlankAt(entries: seq<Entry>, key: string, i: int)
    requires 0 <= i < |entries|
  {
    && entries[i].key == key && !Blank(entries[i].value)
    && forall j :: i < j < |entries| && entries[j].key == key ==> Blank(entries[j].value)
  }

  /** A kept value is the value of the last non-blank entry with that key. */
  lemma {:induction false} LastKeptFound(entries: seq<Entry>, key: string)
    ensures var r := LastKept(entries, key);
      r.Some? ==> exists i :: 0 <= i < |entries| && LastNonBlankAt(entries, key, i) && entries[i].value == r.value
  {
    if entries != [] {
      var init, e := entries[..|entries| - 1], entries[|entries| - 1];
      assert entries == init + [e];
      if e.key == key && !Blank(e.value) {
        assert LastNonBlankAt(entries, key, |entries| - 1);
      } else {
        LastKeptFound(init, key);
        if LastKept(init, key).Some? {
          var i :| 0 <= i < |init| && LastNonBlankAt(init, key, i) && init[i].value == LastKept(init, key).value;
          LastNonBlankSnoc(init, e, key, i);
        }
      }
    }
  }

  /** An entry that is not a non-blank one for `key` keeps the last one where it was. */
  lemma LastNonBlankSnoc(init: seq<Entry>, e: Entry, key: string, i: int)
    requires 0 <= i < |init| && LastNonBlankAt(init, key, i)
    requires !(e.key == key && !Blank(e.value))
    ensures LastNonBlankAt(init + [e], key, i) && (init + [e])[i] == init[i]
  {
    var s := init + [e];
    forall j | i < j < |s| && s[j].key == key
      ensures Blank(s[j].value)
    {
      if j < |init| {
        assert s[j] == init[j];
      } else {
        assert s[j] == e;
      }
    }
  }

  /** Nothing is kept exactly when every entry with the key is blank. */
  lemma {:induction false} LastKeptNone(entries: seq<Entry>, key: string)
    ensures LastKept(entries, key).None? <==> forall e :: e in entries && e.key == key ==> Blank(e.value)
  {
    if entries != [] {
      var init, last := entries[..|entries| - 1], entries[|entries| - 1];
      LastKeptNone(init, key);
      assert entries == init + [last];
      assert forall e :: e in entries <==> e in init || e == last;
    }
  }

  /** One more entry: it decides the key's value when it has that key and is not blank. */
  lemma LastKeptSnoc(init: seq<Entry>, e: Entry, key: string)
    ensures LastKept(init + [e], key) ==
      if e.key == key && !Blank(e.value) then Some(e.value) else LastKept(init, key)
  {
    assert (init + [e])[..|init + [e]| - 1] == init;
  }

  /** `data` holds exactly the values collectSearchData keeps for `entries`. */
  ghost predicate Collected(data: map<string, string>, entries: seq<Entry>)
  {
    && (forall k :: k in data <==> LastKept(entries, k).Some?)
    && (forall k :: k in data ==> data[k] == LastKept(entries, k).value)
  }

  /** One loop step keeps `Collected`: a non-blank entry sets its key, a blank one changes nothing. */
  lemma CollectedStep(data: map<string, string>, init: seq<Entry>, e: Entry)
    requires Collected(data, init)
    ensures Collected(if !Blank(e.value) then data[e.key := e.value] else data, init + [e])
  {
    var data' := if !Blank(e.value) then data[e.key := e.value] else data;
    var kept := !Blank(e.value);
    forall k ensures (k in data' <==> LastKept(init + [e], k).Some?)
                     && (k in data' ==> data'[k] == LastKept(init + [e], k).value) {
      LastKeptSnoc(init, e, k);
      if kept && k == e.key {
        assert data'[k] == e.value;
      } else {
        assert (k in data' <==> k in data) && (k in data ==> data'[k] == data[k]);
      }
    }
  }

  lemma TakeOneMore<T>(s: seq<T>, i: nat)
    requires i < |s|
    ensures s[..i + 1] == s[..i] + [s[i]]
  {
  }

  /**
   * collectSearchData: no form gives an empty object; otherwise every key
   * with a non-blank value is kept, holding its untrimmed value, and a
   * later entry with the same key overwrites an earlier one.
   */
  method CollectSearchData(form: Option<seq<Entry>>) returns (data: map<string, string>)
    ensures form.None? ==> data == map[]
    ensures form.Some? ==> forall k :: (k in data <==> LastKept(form.value, k).Some?)
    ensures form.Some? ==> forall k :: k in data ==> data[k] == LastKept(form.value, k).value
  {
    data := map[];
    if form.None? {
      return;
    }
    var entries := form.value;
    ghost var seen: seq<Entry> := [];
    var i := 0;
    while i < |entries|
      invariant 0 <= i <= |entries| && seen == entries[..i]
      invariant Collected(data, seen)
    {
      var e := entries[i];
      TakeOneMore(entries, i);
      CollectedStep(data, seen, e);
      if !Blank(e.value) {
        data := data[e.key := e.value];
      }
      seen := seen + [e];
      i := i + 1;
    }
    assert entries[..i] == entries;
  }

  // ---------------------------------------------------------------- favourites

  /*
   * A property id is the `data-property-id` attribute as written: the Set,
   * its localStorage copy and the request path all hold the string itself,
   * so "7" and "07" are two different favourites.
   */

  /** The favourite set after one toggle of `id`. */
  function Flip(favorites: set<string>, id: string): (r: set<string>)
    ensures id in r <==> id !in favorites
    ensures r - {id} == favorites - {id}
  {
    if id in favorites then favorites - {id} else favorites + {id}
  }

  /** Two successful toggles restore the set. */
  lemma FlipTwice(favorites: set<string>, id: string)
    ensures Flip(Flip(favorites, id), id) == favorites
  {
  }

  /** Ids are compared as strings: toggling "07" next to a favourite "7" adds a second favourite. */
  lemma SpellingsDiffer()
    ensures Flip({"7"}, "07") == {"7", "07"}
  {
    assert "07" != "7";
  }

  datatype ToggleOutcome = LoginPrompt | Toast(message: string) | Failed(message: string)

  datatype Request = DeleteFavorite(path: string) | PostFavorite(propertyId: string)

  /** The DELETE path for one property: `/favorites/${propertyId}`, the id spliced in as written. */
  function FavoritePath(id: string): (r: string)
    ensures |r| == 11 + |id| && r[..11] == "/favorites/" && r[11..] == id
  {
    "/favorites/" + id
  }

  /** Different ids give different paths, so each DELETE names exactly the favourite it removes. */
  lemma FavoritePathInjective(x: string, y: string)
    ensures FavoritePath(x) == FavoritePath(y) <==> x == y
  {
    if FavoritePath(x) == FavoritePath(y) {
      assert x == FavoritePath(x)[11..];
    }
  }

  /** The favourite ids the page holds. */
  class FavoriteState {
    var favorites: set<string>

    constructor (initial: set<string>)
      ensures favorites == initial
    {
      favorites := initial;
    }

    /**
     * toggleFavorite: a signed-out user gets the login prompt; otherwise
     * the request removes or adds the id depending on whether it is a
     * favourite; `fails` says the request threw, and then the set stays
     * as it was.
     */
    method ToggleFavorite(propertyId: string, loggedIn: bool, fails: bool)
      returns (request: Option<Request>, outcome: ToggleOutcome)
      modifies this
      ensures !loggedIn ==> request == None && outcome == LoginPrompt && favorites == old(favorites)
      ensures loggedIn && propertyId in old(favorites) ==> request == Some(DeleteFavorite(FavoritePath(propertyId)))
      ensures loggedIn && propertyId !in old(favorites) ==> request == Some(PostFavorite(propertyId))
      ensures loggedIn && fails ==> favorites == old(favorites) && outcome == Failed("Failed to update favorites")
      ensures loggedIn && !fails ==> favorites == Flip(old(favorites), propertyId)
      ensures loggedIn && !fails ==>
        outcome == Toast(if propertyId in old(favorites) then "Removed from favorites" else "Added to favorites")
    {
      if !loggedIn {
        return None, LoginPrompt;
      }
      var isFavorite := propertyId in favorites;
      if isFavorite {
        request := Some(DeleteFavorite(FavoritePath(propertyId)));
      } else {
        request := Some(PostFavorite(propertyId));
      }
      if fails {
        return request, Failed("Failed to update favorites");
      }
      if isFavorite {
        favorites := favorites - {propertyId};
      } else {
        favorites := favorites + {propertyId};
      }
      outcome := Toast(if isFavorite then "Removed from favorites" else "Added to favorites");
    }
  }
}

=== FILE: client_validation.dfy ===
/**
 * Form validation in the browser script (js/app.js): the e-mail and phone
 * patterns, the per-field check with its fixed priority, and the message
 * table with its English fallback.
 */
module ClientValidation {
  import opened Wrappers
  import Text

  /** JavaScript's whitespace and line terminators: what `\s` matches and what String.prototype.trim() removes. */
  predicate IsJsSpace(c: char)
  {
    c == ' ' || c == '\t' || c == '\n' || c == '\U{0B}' || c == '\U{0C}' || c == '\r'
    || c == '\U{A0}' || c == '\U{1680}' || ('\U{2000}' <= c <= '\U{200A}')
    || c == '\U{2028}' || c == '\U{2029}' || c == '\U{202F}' || c == '\U{205F}'
    || c == '\U{3000}' || c == '\U{FEFF}'
  }

  /** String.prototype.trim(): the infix left after cutting whitespace off both ends. */
  function JsTrim(s: string): (r: string)
    ensures r == [] || (!IsJsSpace(r[0]) && !IsJsSpace(r[|r| - 1]))
    ensures Text.Lead(s, IsJsSpace) + |r| <= |s| && r == s[Text.Lead(s, IsJsSpace)..Text.Lead(s, IsJsSpace) + |r|]
    ensures forall k :: 0 <= k < Text.Lead(s, IsJsSpace) ==> IsJsSpace(s[k])
    ensures forall k :: Text.Lead(s, IsJsSpace) + |r| <= k < |s| ==> IsJsSpace(s[k])
  {
    Text.TrimCut(s, IsJsSpace);
    Text.Trim(s, IsJsSpace)
  }

  // ---------------------------------------------------------------- e-mail

  /** A run the class [^\s@] accepts throughout. */
  predicate Clean(t: string)
  {
    forall k :: 0 <= k < |t| ==> t[k] != '@' && !IsJsSpace(t[k])
  }

  /** Index of the first `c` in `s`, or |s|. */
  function FirstIndex(s: string, c: char): (r: nat)
    ensures r <= |s|
    ensures r < |s| ==> s[r] == c
    ensures forall k :: 0 <= k < r ==> s[k] != c
  {
    if s == [] then 0 else if s[0] == c then 0 else 1 + FirstIndex(s[1..], c)
  }

  /** Some '.' with at least one character on either side. */
  predicate HasInnerDot(d: string)
  {
    exists j :: 0 < j < |d| - 1 && d[j] == '.'
  }

  /** isValidEmail: /^[^\s@]+@[^\s@]+\.[^\s@]+$/ */
  predicate IsValidEmail(email: string): (b: bool)
    ensures b ==> 5 <= |email| && '@' in email
  {
    var at := FirstIndex(email, '@');
    0 < at < |email| && Clean(email[..at]) && Clean(email[at + 1..]) && HasInnerDot(email[at + 1..])
  }

  /** The shape the pattern describes: A@B.C with A, B and C non-empty and free of whitespace and '@'. */
  ghost predicate EmailShape(s: string)
  {
    exists i, j :: 0 < i && i + 1 < j && j + 1 < |s| && s[i] == '@' && s[j] == '.'
                   && Clean(s[..i]) && Clean(s[i + 1..j]) && Clean(s[j + 1..])
  }

  lemma CleanJoin(a: string, b: string)
    requires Clean(a) && Clean(b)
    ensures Clean(a + "." + b)
  {
  }

  lemma AcceptedHasShape(s: string)
    requires IsValidEmail(s)
    ensures EmailShape(s)
  {
    var at := FirstIndex(s, '@');
    var d := s[at + 1..];
    var j :| 0 < j < |d| - 1 && d[j] == '.';
    var jj := at + 1 + j;
    assert s[at + 1..jj] == d[..j];
    assert s[jj + 1..] == d[j + 1..];
    assert s[jj] == '.';
    assert Clean(s[at + 1..jj]) && Clean(s[jj + 1..]);
  }

  lemma ShapeAccepted(s: string, i: int, j: int)
    requires 0 < i && i + 1 < j && j + 1 < |s| && s[i] == '@' && s[j] == '.'
    requires Clean(s[..i]) && Clean(s[i + 1..j]) && Clean(s[j + 1..])
    ensures IsValidEmail(s)
  {
    assert forall k :: 0 <= k < i ==> s[k] == s[..i][k];
    assert FirstIndex(s, '@') == i;
    var d := s[i + 1..];
    assert d == s[i + 1..j] + "." + s[j + 1..];
    CleanJoin(s[i + 1..j], s[j + 1..]);
    assert d[j - i - 1] == '.';
  }

  /** The check accepts exactly the A@B.C shape. */
  lemma ValidEmailShape(s: string)
    ensures IsValidEmail(s) <==> EmailShape(s)
  {
    if IsValidEmail(s) {
      AcceptedHasShape(s);
    }
    if EmailShape(s) {
      var i, j :| 0 < i && i + 1 < j && j + 1 < |s| && s[i] == '@' && s[j] == '.'
                  && Clean(s[..i]) && Clean(s[i + 1..j]) && Clean(s[j + 1..]);
      ShapeAccepted(s, i, j);
    }
  }

  /** An accepted address holds exactly one '@'. */
  lemma ValidEmailOneAt(s: string)
    requires IsValidEmail(s)
    ensures exists i :: 0 <= i < |s| && s[i] == '@'
    ensures forall k, l :: 0 <= k < |s| && 0 <= l < |s| && s[k] == '@' && s[l] == '@' ==> k == l
  {
    var at := FirstIndex(s, '@');
    assert s[at] == '@';
    forall k | at < k < |s| ensures s[k] != '@' {
      assert s[k] == s[at + 1..][k - at - 1];
    }
  }

  // ---------------------------------------------------------------- phone

  /** The class [0-9\-\s\(\)]. */
  predicate IsPhoneChar(c: char)
  {
    ('0' <= c <= '9') || c == '-' || IsJsSpace(c) || c == '(' || c == ')'
  }

  predicate AllPhoneChars(t: string) { forall k :: 0 <= k < |t| ==> IsPhoneChar(t[k]) }

  /** isValidPhone: /^[\+]?[0-9\-\s\(\)]{7,15}$/ */
  predicate IsValidPhone(phone: string): (b: bool)
    ensures b ==> 7 <= |phone| <= 16
  {
    var body := if |phone| > 0 && phone[0] == '+' then phone[1..] else phone;
    7 <= |body| <= 15 && AllPhoneChars(body)
  }

  /** The two ways the pattern can match: without the '+', or with it as the first character. */
  lemma ValidPhoneShape(p: string)
    ensures IsValidPhone(p) <==>
      (7 <= |p| <= 15 && AllPhoneChars(p))
      || (|p| >= 1 && p[0] == '+' && 7 <= |p| - 1 <= 15 && AllPhoneChars(p[1..]))
  {
    if |p| > 0 && p[0] == '+' {
      assert !IsPhoneChar(p[0]);
    }
  }

  /** A Yemeni mobile number in international form is accepted; a sixteen-digit body is not. */
  lemma PhoneExamples()
    ensures IsValidPhone("+967 777-123-456")
    ensures !IsValidPhone("+9671234567890123")
    ensures !IsValidPhone("++96777712345")
  {
    var a := "+967 777-123-456";
    assert a[1..] == "967 777-123-456";
    var c := "++96777712345";
    assert !IsPhoneChar(c[1..][0]);
  }

  // ---------------------------------------------------------------- messages

  datatype Kind = Required | Email | Phone | MinLength

  /** The message table for one language; only Arabic and English have one. */
  function Table(lang: string, kind: Kind, param: string): Option<string>
  {
    if lang == "ar" then
      Some(match kind
        case Required => "هذا الحقل مطلوب"
        case Email => "يجب أن يكون بريد إلكتروني صحيح"
        case Phone => "رقم هاتف غير صحيح"
        case MinLength => "يجب أن يكون على الأقل " + param + " أحرف")
    else if lang == "en" then
      Some(match kind
        case Required => "This field is required"
        case Email => "Must be a valid email address"
        case Phone => "Invalid phone number"
        case MinLength => "Must be at least " + param + " characters")
    else None
  }

  /** getValidationMessage: the current language's message, else the English one. */
  function GetValidationMessage(lang: string, kind: Kind, param: string): (r: string)
    ensures Table(lang, kind, param).Some? ==> r == Table(lang, kind, param).value
    ensures lang != "ar" && lang != "en" ==> r == Table("en", kind, param).value
    ensures r != ""
  {
    match Table(lang, kind, param)
    case Some(m) => m
    case None => Table("en", kind, param).value
  }

  // ---------------------------------------------------------------- one field

  /**
   * The minlength attribute: its text as written, and the number `<` compares
   * the length with after converting the text (None when it converts to NaN,
   * which makes the comparison false).
   */
  datatype MinLengthAttr = MinLengthAttr(text: string, number: Option<int>)

  /** What validateField reads from an input element. */
  datatype Field = Field(value: string, inputType: string, required: bool, minLength: Option<MinLengthAttr>)

  /** String.prototype.length: UTF-16 code units, two for a character outside the Basic Multilingual Plane. */
  function Utf16Length(s: string): (n: nat)
    ensures |s| <= n <= 2 * |s|
    ensures (forall k :: 0 <= k < |s| ==> (s[k] as int) < 0x1_0000) ==> n == |s|
  {
    if s == [] then 0 else Utf16Length(s[..|s| - 1]) + (if (s[|s| - 1] as int) < 0x1_0000 then 1 else 2)
  }

  /** Two emoji are four code units long: a minlength of 3 accepts them. */
  lemma EmojiLength()
    ensures Utf16Length("\U{1F600}\U{1F600}") == 4
    ensures !TooShort("\U{1F600}\U{1F600}", Some(MinLengthAttr("3", Some(3))))
  {
    var e := "\U{1F600}\U{1F600}";
    assert e[..1] == "\U{1F600}" && e[..1][..0] == [];
  }

  /** The minimum-length check fails: the attribute converts to a number and the value has fewer code units. */
  predicate TooShort(v: string, minLength: Option<MinLengthAttr>)
  {
    minLength.Some? && minLength.value.number.Some? && Utf16Length(v) < minLength.value.number.value
  }

  /**
   * validateField: the value is trimmed first; the checks run in order
   * required, e-mail, phone, minimum length, and the first that fails
   * sets the message. The e-mail and phone checks skip an empty value.
   */
  method ValidateField(field: Field, lang: string) returns (isValid: bool, message: string)
    ensures var v := JsTrim(field.value);
      && (isValid <==>
            !(field.required && v == [])
            && !(field.inputType == "email" && v != [] && !IsValidEmail(v))
            && !(field.inputType == "tel" && v != [] && !IsValidPhone(v))
            && !TooShort(v, field.minLength))
      && (isValid <==> message == "")
    ensures var v := JsTrim(field.value);
      && (field.required && v == [] ==> message == GetValidationMessage(lang, Required, ""))
      && (!(field.required && v == []) && field.inputType == "email" && v != [] && !IsValidEmail(v)
          ==> message == GetValidationMessage(lang, Email, ""))
    ensures var v := JsTrim(field.value);
      (!(field.required && v == []) && !(field.inputType == "email" && v != [] && !IsValidEmail(v))
       && field.inputType == "tel" && v != [] && !IsValidPhone(v))
      ==> message == GetValidationMessage(lang, Phone, "")
    ensures var v := JsTrim(field.value);
      (!(field.required && v == []) && !(field.inputType == "email" && v != [] && !IsValidEmail(v))
       && !(field.inputType == "tel" && v != [] && !IsValidPhone(v))
       && TooShort(v, field.minLength))
      ==> message == GetValidationMessage(lang, MinLength, field.minLength.value.text)
  {
    var value := JsTrim(field.value);
    isValid := true;
    message := "";
    if field.required && value == [] {
      isValid := false;
      message := GetValidationMessage(lang, Required, "");
    } else if field.inputType == "email" && value != [] && !IsValidEmail(value) {
      isValid := false;
      message := GetValidationMessage(lang, Email, "");
    } else if field.inputType == "tel" && value != [] && !IsValidPhone(value) {
      isValid := false;
      message := GetValidationMessage(lang, Phone, "");
    } else if TooShort(value, field.minLength) {
      isValid := false;
      message := GetValidationMessage(lang, MinLength, field.minLength.value.text);
    }
  }
}

=== FILE: config.dfy ===
/**
 * The per-request helpers of config.php that decide something: the
 * interface language, and the anti-forgery (CSRF) token kept in the
 * session. The session itself is the object PHP calls $_SESSION.
 */
module Config {
  import opened Wrappers

  predicate IsLanguage(s: string) { s == "ar" || s == "en" }

  const DefaultLanguage: string := "ar"

  /** get_current_language(): a valid `language` cookie, else a valid `lang` query parameter, else Arabic. */
  function GetCurrentLanguage(cookie: Option<string>, langParam: Option<string>): (r: string)
    ensures IsLanguage(r)
    ensures cookie.Some? && IsLanguage(cookie.value) ==> r == cookie.value
    ensures !(cookie.Some? && IsLanguage(cookie.value)) && langParam.Some? && IsLanguage(langParam.value) ==> r == langParam.value
    ensures r != DefaultLanguage ==> (cookie == Some(r) || langParam == Some(r))
  {
    if cookie.Some? && IsLanguage(cookie.value) then cookie.value
    else if langParam.Some? && IsLanguage(langParam.value) then langParam.value
    else DefaultLanguage
  }

  /** The last lines of config.php: a valid `lang` parameter is written over the `language` cookie for the rest of the request. */
  function CookieAfterConfig(cookie: Option<string>, langParam: Option<string>): (r: Option<string>)
    ensures langParam.Some? && IsLanguage(langParam.value) ==> r == langParam
    ensures !(langParam.Some? && IsLanguage(langParam.value)) ==> r == cookie
  {
    if langParam.Some? && IsLanguage(langParam.value) then langParam else cookie
  }

  /**
   * Every page calls get_current_language() after config.php has run, so
   * the language a request actually sees is the query parameter first,
   * then the cookie, then Arabic.
   */
  lemma EffectiveLanguage(cookie: Option<string>, langParam: Option<string>)
    ensures var r := GetCurrentLanguage(CookieAfterConfig(cookie, langParam), langParam);
      if langParam.Some? && IsLanguage(langParam.value) then r == langParam.value
      else if cookie.Some? && IsLanguage(cookie.value) then r == cookie.value
      else r == DefaultLanguage
  {
  }

  newtype byte = x: int | 0 <= x < 256

  /** bin2hex(): two lower-case hexadecimal digits per byte. */
  function HexDigit(n: nat): char
    requires n < 16
  {
    if n < 10 then ('0' as int + n) as char else ('a' as int + n - 10) as char
  }

  predicate IsHexChar(c: char) { '0' <= c <= '9' || 'a' <= c <= 'f' }

  function Bin2Hex(bytes: seq<byte>): (r: string)
    ensures |r| == 2 * |bytes|
    ensures forall i :: 0 <= i < |r| ==> IsHexChar(r[i])
  {
    if bytes == [] then []
    else [HexDigit(bytes[0] as nat / 16), HexDigit(bytes[0] as nat % 16)] + Bin2Hex(bytes[1..])
  }

  function HexValue(c: char): nat
  {
    if '0' <= c <= '9' then c as nat - '0' as nat
    else if 'a' <= c <= 'f' then c as nat - 'a' as nat + 10
    else 0
  }

  /** hex2bin(), the inverse of bin2hex() on its outputs. */
  function Hex2Bin(s: string): seq<byte>
    decreases |s|
  {
    if |s| < 2 then []
    else
      var v := HexValue(s[0]) * 16 + HexValue(s[1]);
      [(if v < 256 then v else 0) as byte] + Hex2Bin(s[2..])
  }

  lemma HexDigitValue(n: nat)
    requires n < 16
    ensures HexValue(HexDigit(n)) == n
  {
  }

  lemma PairValue(n: nat)
    requires n < 256
    ensures HexValue(HexDigit(n / 16)) * 16 + HexValue(HexDigit(n % 16)) == n
  {
    HexDigitValue(n / 16);
    HexDigitValue(n % 16);
  }

  /** The two digits bin2hex() writes for one byte read back as that byte. */
  lemma HexPair(b: byte, rest: string)
    ensures Hex2Bin([HexDigit(b as nat / 16), HexDigit(b as nat % 16)] + rest) == [b] + Hex2Bin(rest)
  {
    var n := b as nat;
    var s := [HexDigit(n / 16), HexDigit(n % 16)] + rest;
    PairValue(n);
    assert s[2..] == rest;
    assert HexValue(s[0]) * 16 + HexValue(s[1]) == n;
  }

  lemma {:induction false} HexRoundTrip(bytes: seq<byte>)
    ensures Hex2Bin(Bin2Hex(bytes)) == bytes
  {
    if bytes != [] {
      HexPair(bytes[0], Bin2Hex(bytes[1..]));
      HexRoundTrip(bytes[1..]);
      assert bytes == [bytes[0]] + bytes[1..];
    }
  }

  /** hash_equals(): false on a length mismatch, otherwise a comparison of every character. */
  function HashEquals(known: string, user: string): (r: bool)
    ensures r <==> known == user
  {
    |known| == |user| && DiffCount(known, user) == 0
  }

  /** How many positions of two equal-length strings differ (accumulated, as a constant-time comparison does). */
  function DiffCount(a: string, b: string): (n: nat)
    requires |a| == |b|
    ensures n == 0 <==> a == b
  {
    if a == [] then 0
    else
      var rest := DiffCount(a[1..], b[1..]);
      assert a == [a[0]] + a[1..] && b == [b[0]] + b[1..];
      (if a[0] == b[0] then 0 else 1) + rest
  }

  /** verify_csrf_token(): a session token must exist and equal the submitted one. */
  function VerifyCsrfToken(stored: Option<string>, token: string): (ok: bool)
    ensures ok <==> stored == Some(token)
  {
    stored.Some? && HashEquals(stored.value, token)
  }

  /** Number of random bytes a fresh token is made from. */
  const TokenBytes: nat := 32

  /** The server-side session ($_SESSION): the CSRF token, the admin identity written at login, and the site user. */
  class Session {
    var csrfToken: Option<string>
    var adminId: Option<int>
    var adminUsername: Option<string>
    var adminName: Option<string>
    var adminRole: Option<string>
    var userId: Option<int>

    constructor ()
      ensures csrfToken == None && adminId == None && adminUsername == None
      ensures adminName == None && adminRole == None && userId == None
    {
      csrfToken := None;
      adminId := None;
      adminUsername := None;
      adminName := None;
      adminRole := None;
      userId := None;
    }

    /**
     * generate_csrf_token(): the first call stores the hex form of
     * `entropy` (what random_bytes(32) returned); later calls return the
     * stored token unchanged.
     */
    method GenerateCsrfToken(entropy: seq<byte>) returns (token: string)
      requires |entropy| == TokenBytes
      modifies this`csrfToken
      ensures old(csrfToken).Some? ==> csrfToken == old(csrfToken) && token == old(csrfToken).value
      ensures old(csrfToken).None? ==> csrfToken == Some(token) && token == Bin2Hex(entropy)
      ensures old(csrfToken).None? ==> |token| == 64 && forall i :: 0 <= i < |token| ==> IsHexChar(token[i])
      ensures VerifyCsrfToken(csrfToken, token)
    {
      if csrfToken.None? {
        csrfToken := Some(Bin2Hex(entropy));
      }
      token := csrfToken.value;
    }
  }
}

=== FILE: envelope.dfy ===
/** The error part of the JSON envelope every api.php response carries: a machine-readable code, a message and the HTTP status. */
module Envelope {
  datatype ApiError = ApiError(code: string, message: string, status: nat)

  /** error_response() with its default status. */
  function BadRequest(code: string, message: string): ApiError
  {
    ApiError(code, message, 400)
  }
}

=== FILE: favorites.dfy ===
/**
 * The favorites join table of api.php: add_to_favorites,
 * remove_from_favorites and get_user_favorites over a set of
 * (user id, property id) pairs. The caller is already authenticated.
 */
module Favorites {
  import opened Wrappers
  import Envelope

  /** (user_id, property_id); the table keeps each pair at most once. */
  type Pair = (int, int)

  datatype Outcome = Added | Removed | Rejected(error: Envelope.ApiError)

  /**
   * add_to_favorites(): a missing or zero property id is a validation
   * error; an existing pair is a conflict; otherwise the pair is inserted.
   */
  function Add(pairs: set<Pair>, user: int, propertyId: Option<int>): (r: (Outcome, set<Pair>))
    ensures propertyId.None? || propertyId == Some(0) ==>
      r.0 == Rejected(Envelope.BadRequest("VALIDATION_ERROR", "Property ID required")) && r.1 == pairs
    ensures propertyId.Some? && propertyId.value != 0 && (user, propertyId.value) in pairs ==>
      r.0 == Rejected(Envelope.BadRequest("ALREADY_EXISTS", "Property already in favorites")) && r.1 == pairs
    ensures propertyId.Some? && propertyId.value != 0 && (user, propertyId.value) !in pairs ==>
      r.0 == Added && (user, propertyId.value) in r.1 && |r.1| == |pairs| + 1
    ensures forall q :: q in r.1 && q !in pairs ==> propertyId.Some? && q == (user, propertyId.value)
    ensures pairs <= r.1
  {
    match propertyId
    case None => (Rejected(Envelope.BadRequest("VALIDATION_ERROR", "Property ID required")), pairs)
    case Some(p) =>
      if p == 0 then (Rejected(Envelope.BadRequest("VALIDATION_ERROR", "Property ID required")), pairs)
      else if (user, p) in pairs then (Rejected(Envelope.BadRequest("ALREADY_EXISTS", "Property already in favorites")), pairs)
      else (Added, pairs + {(user, p)})
  }

  /** remove_from_favorites(): succeeds exactly when the pair was stored, and then removes that pair only. */
  function Remove(pairs: set<Pair>, user: int, propertyId: int): (r: (Outcome, set<Pair>))
    ensures r.0 == Removed <==> (user, propertyId) in pairs
    ensures r.0 != Removed ==> r.0 == Rejected(Envelope.ApiError("NOT_FOUND", "Property not in favorites", 404))
    ensures (user, propertyId) !in r.1
    ensures forall q :: q != (user, propertyId) ==> (q in r.1 <==> q in pairs)
    ensures r.0 == Removed ==> |r.1| == |pairs| - 1
    ensures r.0 != Removed ==> r.1 == pairs
  {
    if (user, propertyId) in pairs then (Removed, pairs - {(user, propertyId)})
    else (Rejected(Envelope.ApiError("NOT_FOUND", "Property not in favorites", 404)), pairs)
  }

  /** get_user_favorites(): the caller's favourite properties that are still active (order left out). */
  function UserFavorites(pairs: set<Pair>, user: int, activeIds: set<int>): (r: set<int>)
    ensures forall p :: p in r <==> (user, p) in pairs && p in activeIds
  {
    set q | q in pairs && q.0 == user && q.1 in activeIds :: q.1
  }

  /** Favouriting the same property twice: the first call succeeds, the second is a conflict and changes nothing. */
  lemma AddTwice(pairs: set<Pair>, user: int, p: int)
    requires p != 0 && (user, p) !in pairs
    ensures var first := Add(pairs, user, Some(p));
      var second := Add(first.1, user, Some(p));
      first.0 == Added && second.0.Rejected? && second.0.error.code == "ALREADY_EXISTS" && second.1 == first.1
  {
  }

  /** Adding then removing a new pair restores the table. */
  lemma AddThenRemove(pairs: set<Pair>, user: int, p: int)
    requires p != 0 && (user, p) !in pairs
    ensures Remove(Add(pairs, user, Some(p)).1, user, p) == (Removed, pairs)
  {
    var added := Add(pairs, user, Some(p)).1;
    assert added - {(user, p)} == pairs;
  }

  /** After a removal the property no longer appears in the caller's favourites, and other users' lists are unchanged. */
  lemma RemoveThenList(pairs: set<Pair>, user: int, p: int, activeIds: set<int>)
    ensures var after := Remove(pairs, user, p).1;
      p !in UserFavorites(after, user, activeIds)
      && forall other :: other != user ==> UserFavorites(after, other, activeIds) == UserFavorites(pairs, other, activeIds)
  {
    var after := Remove(pairs, user, p).1;
    forall other | other != user
      ensures UserFavorites(after, other, activeIds) == UserFavorites(pairs, other, activeIds)
    {
      forall q | q in UserFavorites(pairs, other, activeIds)
        ensures q in UserFavorites(after, other, activeIds)
      {
        assert (other, q) in pairs && (other, q) != (user, p);
      }
    }
  }

  /** The favorites table as the API mutates it. */
  class FavoritesTable {
    var pairs: set<Pair>

    constructor ()
      ensures pairs == {}
    {
      pairs := {};
    }

    method AddToFavorites(user: int, propertyId: Option<int>) returns (outcome: Outcome)
      modifies this
      ensures (outcome, pairs) == Add(old(pairs), user, propertyId)
    {
      if propertyId.None? || propertyId.value == 0 {
        return Rejected(Envelope.BadRequest("VALIDATION_ERROR", "Property ID required"));
      }
      var p := propertyId.value;
      if (user, p) in pairs {
        return Rejected(Envelope.BadRequest("ALREADY_EXISTS", "Property already in favorites"));
      }
      pairs := pairs + {(user, p)};
      outcome := Added;
    }

    method RemoveFromFavorites(user: int, propertyId: int) returns (outcome: Outcome)
      modifies this
      ensures (outcome, pairs) == Remove(old(pairs), user, propertyId)
    {
      var before := |pairs|;
      assert (user, propertyId) !in pairs ==> pairs - {(user, propertyId)} == pairs;
      pairs := pairs - {(user, propertyId)};
      if |pairs| < before {
        outcome := Removed;
      } else {
        outcome := Rejected(Envelope.ApiError("NOT_FOUND", "Property not in favorites", 404));
      }
    }
  }
}

=== FILE: inquiry.dfy ===
/**
 * Inquiry intake in api.php: validate_required_fields and create_inquiry.
 * The request body is a map from field names to strings; looking up the
 * property and PHP's filter_var(FILTER_VALIDATE_EMAIL) are given as
 * predicates, and the inquiries table is a sequence of rows.
 */
module Inquiry {
  import opened Wrappers
  import Php
  import Text
  import Sanitize
  import Envelope

  /** A required field is missing when it is unset or when empty() holds of its trimmed value (so "0" is missing too). */
  predicate IsMissing(data: map<string, string>, field: string)
  {
    field !in data || Php.Empty(Php.Trim(data[field]))
  }

  /** The required fields that are missing, in the order they are required. */
  function MissingFields(data: map<string, string>, required: seq<string>): (r: seq<string>)
    ensures |r| <= |required|
  {
    if required == [] then []
    else
      var last := required[|required| - 1];
      MissingFields(data, required[..|required| - 1]) + (if IsMissing(data, last) then [last] else [])
  }

  /** A field is reported exactly when it is required and missing. */
  lemma {:induction false} MissingFieldsMeaning(data: map<string, string>, required: seq<string>, f: string)
    ensures f in MissingFields(data, required) <==> f in required && IsMissing(data, f)
  {
    if required != [] {
      var init, last := required[..|required| - 1], required[|required| - 1];
      MissingFieldsMeaning(data, init, f);
      assert required == init + [last];
    }
  }

  /** validate_required_fields($data, $required_fields) */
  method ValidateRequiredFields(data: map<string, string>, required: seq<string>) returns (missing: seq<string>)
    ensures missing == MissingFields(data, required)
  {
    missing := [];
    var i := 0;
    while i < |required|
      invariant 0 <= i <= |required|
      invariant missing == MissingFields(data, required[..i])
    {
      var field := required[i];
      assert required[..i + 1][..i] == required[..i];
      if field !in data || Php.Empty(Php.Trim(data[field])) {
        missing := missing + [field];
      }
      i := i + 1;
    }
    assert required[..i] == required;
  }

  /** PHP implode($glue, $pieces). */
  function Implode(glue: string, pieces: seq<string>): string
  {
    if pieces == [] then ""
    else if |pieces| == 1 then pieces[0]
    else Implode(glue, pieces[..|pieces| - 1]) + glue + pieces[|pieces| - 1]
  }

  const InquiryRequired: seq<string> := ["property_id", "name", "email", "phone"]

  /** A row of the inquiries table as create_inquiry writes it (address and user agent left out). */
  datatype InquiryRow = InquiryRow(
    propertyId: string,
    userId: Option<int>,
    name: string,
    email: string,
    phone: string,
    message: string,
    preferredContactTime: string,
    preferredViewingDate: Option<string>)

  datatype Outcome = Created(row: InquiryRow) | Rejected(error: Envelope.ApiError)

  /** `$input[$key] ?? ''` */
  function Field(input: map<string, string>, key: string): string
  {
    if key in input then input[key] else ""
  }

  /** The row an accepted inquiry inserts: every text field sanitised, an empty viewing date stored as NULL. */
  function NewRow(input: map<string, string>, userId: Option<int>): (r: InquiryRow)
    ensures r.propertyId == Field(input, "property_id") && r.userId == userId
    ensures Sanitize.IsEscaped(r.name) && Sanitize.HtmlDecode(r.name) == Php.Trim(Field(input, "name"))
    ensures Sanitize.IsEscaped(r.email) && Sanitize.HtmlDecode(r.email) == Php.Trim(Field(input, "email"))
    ensures Sanitize.IsEscaped(r.phone) && Sanitize.HtmlDecode(r.phone) == Php.Trim(Field(input, "phone"))
    ensures Sanitize.IsEscaped(r.message) && Sanitize.HtmlDecode(r.message) == Php.Trim(Field(input, "message"))
    ensures Sanitize.IsEscaped(r.preferredContactTime)
            && Sanitize.HtmlDecode(r.preferredContactTime) == Php.Trim(Field(input, "preferred_contact_time"))
    ensures r.preferredViewingDate.None? <==> Php.Empty(Field(input, "preferred_viewing_date"))
    ensures r.preferredViewingDate.Some? ==> r.preferredViewingDate.value == Field(input, "preferred_viewing_date")
  {
    var viewing := Field(input, "preferred_viewing_date");
    InquiryRow(
      Field(input, "property_id"),
      userId,
      Sanitize.SanitizeInput(Field(input, "name")),
      Sanitize.SanitizeInput(Field(input, "email")),
      Sanitize.SanitizeInput(Field(input, "phone")),
      Sanitize.SanitizeInput(Field(input, "message")),
      Sanitize.SanitizeInput(Field(input, "preferred_contact_time")),
      if Php.Empty(viewing) then None else Some(viewing))
  }

  /**
   * create_inquiry(): missing fields are reported first, then an unknown or
   * inactive property, then a malformed email; only a request passing all
   * three checks appends a row. `activeProperty` answers the query
   * "SELECT id FROM properties WHERE id = ? AND is_active = 1";
   * `validEmail` stands for filter_var(FILTER_VALIDATE_EMAIL).
   */
  function CreateInquiry(input: map<string, string>, userId: Option<int>,
                         activeProperty: string -> bool, validEmail: string -> bool,
                         inquiries: seq<InquiryRow>): (r: (Outcome, seq<InquiryRow>))
    ensures r.0.Created? <==>
      MissingFields(input, InquiryRequired) == [] && activeProperty(Field(input, "property_id")) && validEmail(Field(input, "email"))
    ensures r.0.Created? ==> r.1 == inquiries + [r.0.row] && r.0.row == NewRow(input, userId)
    ensures r.0.Rejected? ==> r.1 == inquiries && r.0.error.status == 400
    ensures MissingFields(input, InquiryRequired) != [] ==> r.0.Rejected? && r.0.error.code == "VALIDATION_ERROR"
    ensures MissingFields(input, InquiryRequired) == [] && !activeProperty(Field(input, "property_id")) ==>
      r.0.Rejected? && r.0.error.code == "INVALID_PROPERTY"
    ensures MissingFields(input, InquiryRequired) == [] && activeProperty(Field(input, "property_id")) && !validEmail(Field(input, "email")) ==>
      r.0.Rejected? && r.0.error.code == "INVALID_EMAIL"
  {
    var missing := MissingFields(input, InquiryRequired);
    if missing != [] then
      (Rejected(Envelope.BadRequest("VALIDATION_ERROR", "Missing required fields: " + Implode(", ", missing))), inquiries)
    else if !activeProperty(Field(input, "property_id")) then
      (Rejected(Envelope.BadRequest("INVALID_PROPERTY", "Property not found")), inquiries)
    else if !validEmail(Field(input, "email")) then
      (Rejected(Envelope.BadRequest("INVALID_EMAIL", "Invalid email address")), inquiries)
    else
      var row := NewRow(input, userId);
      (Created(row), inquiries + [row])
  }

  /** A name of "0" counts as missing (empty("0") holds in PHP), so the request is rejected before any other check. */
  lemma ZeroNameRejected(input: map<string, string>, userId: Option<int>,
                         activeProperty: string -> bool, validEmail: string -> bool,
                         inquiries: seq<InquiryRow>)
    requires "name" in input && input["name"] == "0"
    ensures var r := CreateInquiry(input, userId, activeProperty, validEmail, inquiries);
      r.0.Rejected? && r.0.error.code == "VALIDATION_ERROR" && r.1 == inquiries
  {
    Text.TrimFixed("0", Php.IsTrimChar);
    assert IsMissing(input, "name");
    assert InquiryRequired[1] == "name";
    MissingFieldsMeaning(input, InquiryRequired, "name");
    assert MissingFields(input, InquiryRequired) != [];
  }
}

=== FILE: listing.dfy ===
/**
 * get_properties_list (api.php): normalise the query string, build the
 * WHERE clause as two lists appended in step (condition texts and bound
 * parameters), select and page the matching rows, and compute the
 * pagination metadata. get_admin_inquiries shares the page clamp.
 *
 * PHP's intval()/floatval() coercions happen before this model: numeric
 * query values arrive as integers, an absent one as 0. The table is a
 * sequence of rows already in the order ORDER BY gives.
 */
module Listing {
  import opened Wrappers
  import Php

  const PropertiesPerPage: int := 12
  const AdminItemsPerPage: int := 20
  const MaxPerPage: int := 50

  /** The query string of GET /properties; an absent text parameter is "". */
  datatype ListingRequest = ListingRequest(
    keyword: string,
    city: string,
    listingType: string,
    propertyType: string,
    minPrice: int,
    maxPrice: int,
    rooms: int,
    minArea: int,
    maxArea: int,
    agentId: int,
    featured: Option<string>,
    page: Option<int>,
    perPage: Option<int>,
    sortBy: Option<string>,
    sortOrder: Option<string>)

  /** The $filters array. */
  datatype Filters = Filters(
    keyword: string,
    city: string,
    listingType: string,
    propertyType: string,
    minPrice: int,
    maxPrice: int,
    rooms: int,
    minArea: int,
    maxArea: int,
    agentId: int,
    featured: Option<bool>)

  /** `featured` is tri-state: absent, or the (bool) cast of the parameter ("" and "0" are false). */
  function FiltersOf(req: ListingRequest): (f: Filters)
    ensures f.featured.None? <==> req.featured.None?
    ensures req.featured.Some? ==> (f.featured.value <==> req.featured.value != "" && req.featured.value != "0")
  {
    Filters(req.keyword, req.city, req.listingType, req.propertyType,
            req.minPrice, req.maxPrice, req.rooms, req.minArea, req.maxArea, req.agentId,
            if req.featured.Some? then Some(Php.ToBool(req.featured.value)) else None)
  }

  // ---------------------------------------------------------------- paging

  datatype Paging = Paging(page: int, perPage: int, offset: int)

  /** max(1, page) and min(50, max(1, per_page)), with the offset of the first row on the page. */
  function ClampPaging(page: Option<int>, perPage: Option<int>, defaultPerPage: int): (p: Paging)
    ensures p.page >= 1 && 1 <= p.perPage <= MaxPerPage
    ensures p.offset == (p.page - 1) * p.perPage && p.offset >= 0
    ensures p.page == (if page.GetOr(1) >= 1 then page.GetOr(1) else 1)
    ensures 1 <= perPage.GetOr(defaultPerPage) <= MaxPerPage ==> p.perPage == perPage.GetOr(defaultPerPage)
    ensures perPage.GetOr(defaultPerPage) < 1 ==> p.perPage == 1
    ensures perPage.GetOr(defaultPerPage) > MaxPerPage ==> p.perPage == MaxPerPage
  {
    var pg := if page.GetOr(1) >= 1 then page.GetOr(1) else 1;
    var raw := perPage.GetOr(defaultPerPage);
    var size := if raw < 1 then 1 else if raw > MaxPerPage then MaxPerPage else raw;
    assert (pg - 1) * size >= 0 by { NonNegativeProduct(pg - 1, size); }
    Paging(pg, size, (pg - 1) * size)
  }

  lemma NonNegativeProduct(a: int, b: int)
    requires a >= 0 && b >= 0
    ensures a * b >= 0
  {
  }

  // ---------------------------------------------------------------- sorting

  const AllowedSortFields: seq<string> := ["created_at", "price", "area_sqm", "title"]

  /** sort_by: kept when it is on the allow-list, otherwise created_at. */
  function SortColumn(sortBy: Option<string>): (r: string)
    ensures r in AllowedSortFields
    ensures sortBy.GetOr("created_at") in AllowedSortFields ==> r == sortBy.GetOr("created_at")
    ensures sortBy.GetOr("created_at") !in AllowedSortFields ==> r == "created_at"
  {
    var s := sortBy.GetOr("created_at");
    if s in AllowedSortFields then s else "created_at"
  }

  /** sort_order: upper-cased, kept when it is ASC or DESC, otherwise DESC. */
  function SortDirection(sortOrder: Option<string>): (r: string)
    ensures r == "ASC" || r == "DESC"
    ensures r == "ASC" <==> Php.ToUpper(sortOrder.GetOr("DESC")) == "ASC"
  {
    var s := Php.ToUpper(sortOrder.GetOr("DESC"));
    if s == "ASC" || s == "DESC" then s else "DESC"
  }

  /** The direction is case-insensitive: "asc" and "aSc" sort ascending. */
  lemma LowerCaseAscending()
    ensures SortDirection(Some("asc")) == "ASC" && SortDirection(Some("aSc")) == "ASC"
  {
    assert Php.ToUpper("asc") == "ASC";
    assert Php.ToUpper("aSc") == "ASC";
  }

  // ---------------------------------------------------------------- rows

  /** A row of the properties table (prices and areas as whole numbers). */
  datatype PropertyRow = PropertyRow(
    id: int,
    title: string,
    titleAr: string,
    description: string,
    descriptionAr: string,
    city: string,
    listingType: string,
    propertyType: string,
    price: int,
    rooms: int,
    bathrooms: int,
    areaSqm: int,
    agentId: int,
    isActive: bool,
    isFeatured: bool)

  /** `k` occurs in `s`. */
  predicate Contains(s: string, k: string)
  {
    exists i :: 0 <= i <= |s| && k <= s[i..]
  }

  /** A text filter applies when its value is not empty() and then demands equality. */
  predicate Equals(filter: string, value: string)
  {
    !Php.Empty(filter) ==> value == filter
  }

  /** The keyword filter applies when it is not empty() and then demands it occur in a title or description. */
  predicate Mentions(keyword: string, row: PropertyRow)
  {
    !Php.Empty(keyword) ==>
      Contains(row.title, keyword) || Contains(row.titleAr, keyword)
      || Contains(row.description, keyword) || Contains(row.descriptionAr, keyword)
  }

  /** A lower bound applies when it is positive. */
  predicate AtLeast(bound: int, value: int) { bound > 0 ==> value >= bound }

  /** An upper bound applies when it is positive. */
  predicate AtMost(bound: int, value: int) { bound > 0 ==> value <= bound }

  predicate MatchesText(f: Filters, row: PropertyRow)
  {
    && Mentions(f.keyword, row)
    && Equals(f.city, row.city)
    && Equals(f.listingType, row.listingType)
    && Equals(f.propertyType, row.propertyType)
  }

  predicate MatchesPrice(f: Filters, row: PropertyRow)
  {
    AtLeast(f.minPrice, row.price) && AtMost(f.maxPrice, row.price)
  }

  predicate MatchesSize(f: Filters, row: PropertyRow)
  {
    && AtLeast(f.rooms, row.rooms)
    && AtLeast(f.minArea, row.areaSqm)
    && AtMost(f.maxArea, row.areaSqm)
  }

  /** The agent_id filter applies when positive; the featured filter when supplied. */
  predicate MatchesOwner(f: Filters, row: PropertyRow)
  {
    && (f.agentId > 0 ==> row.agentId == f.agentId)
    && (f.featured.Some? ==> row.isFeatured == f.featured.value)
  }

  /** What a row must satisfy for the supplied filters: the reference the WHERE clause is proved against. */
  predicate RowMatches(f: Filters, row: PropertyRow)
  {
    && row.isActive
    && MatchesText(f, row)
    && MatchesPrice(f, row)
    && MatchesSize(f, row)
    && MatchesOwner(f, row)
  }

  // ---------------------------------------------------------------- the WHERE clause

  datatype Condition =
    | IsActive | KeywordMatch | CityIs | TypeIs | PropertyTypeIs
    | MinPrice | MaxPrice | MinRooms | MinArea | MaxArea | AgentIs | FeaturedIs

  /** A bound parameter. */
  datatype Param = Str(s: string) | Int(n: int)

  /** The column and operator of a one-parameter condition, before its placeholder. */
  function Comparison(c: Condition): string
    requires c != IsActive && c != KeywordMatch
  {
    match c
    case CityIs => "p.city = "
    case TypeIs => "p.type = "
    case PropertyTypeIs => "p.property_type = "
    case MinPrice => "p.price >= "
    case MaxPrice => "p.price <= "
    case MinRooms => "p.rooms >= "
    case MinArea => "p.area_sqm >= "
    case MaxArea => "p.area_sqm <= "
    case AgentIs => "p.agent_id = "
    case FeaturedIs => "p.is_featured = "
  }

  /** The fixed SQL text of each condition; user values only ever reach the query through the '?' placeholders. */
  function Sql(c: Condition): string
  {
    match c
    case IsActive => "p.is_active = 1"
    case KeywordMatch =>
      "(p.title LIKE " + "?" + (" OR p.title_ar LIKE " + "?" + (" OR p.description LIKE " + "?" + (" OR p.description_ar LIKE " + "?" + ")")))
    case _ => Comparison(c) + "?" + ""
  }

  /** How many parameters a condition binds. */
  function Arity(c: Condition): nat
  {
    match c
    case IsActive => 0
    case KeywordMatch => 4
    case _ => 1
  }

  /** The number of '?' placeholders in an SQL text. */
  function Placeholders(s: string): nat
  {
    if s == [] then 0 else Placeholders(s[..|s| - 1]) + (if s[|s| - 1] == '?' then 1 else 0)
  }

  lemma {:induction false} PlaceholdersAppend(a: string, b: string)
    ensures Placeholders(a + b) == Placeholders(a) + Placeholders(b)
    decreases |b|
  {
    if b == [] {
      assert a + b == a;
    } else {
      assert (a + b)[..|a + b| - 1] == a + b[..|b| - 1];
      PlaceholdersAppend(a, b[..|b| - 1]);
    }
  }

  lemma {:induction false} NoPlaceholders(s: string)
    requires '?' !in s
    ensures Placeholders(s) == 0
  {
    if s != [] {
      assert s[|s| - 1] in s;
      assert forall i :: 0 <= i < |s| - 1 ==> s[..|s| - 1][i] == s[i];
      NoPlaceholders(s[..|s| - 1]);
    }
  }

  /** A text piece free of '?', one placeholder, then the rest. */
  lemma OnePlaceholder(piece: string, rest: string)
    requires '?' !in piece
    ensures Placeholders(piece + "?" + rest) == 1 + Placeholders(rest)
  {
    NoPlaceholders(piece);
    PlaceholdersAppend(piece, "?");
    PlaceholdersAppend(piece + "?", rest);
    assert "?"[..0] == [];
  }

  lemma DescriptionArPlaceholders()
    ensures Placeholders(" OR p.description_ar LIKE " + "?" + ")") == 1
  {
    NoPlaceholders(")");
    OnePlaceholder(" OR p.description_ar LIKE ", ")");
  }

  lemma DescriptionPlaceholders()
    ensures Placeholders(" OR p.description LIKE " + "?" + (" OR p.description_ar LIKE " + "?" + ")")) == 2
  {
    DescriptionArPlaceholders();
    OnePlaceholder(" OR p.description LIKE ", " OR p.description_ar LIKE " + "?" + ")");
  }

  lemma TitleArPlaceholders()
    ensures Placeholders(" OR p.title_ar LIKE " + "?" + (" OR p.description LIKE " + "?" + (" OR p.description_ar LIKE " + "?" + ")"))) == 3
  {
    DescriptionPlaceholders();
    OnePlaceholder(" OR p.title_ar LIKE ", " OR p.description LIKE " + "?" + (" OR p.description_ar LIKE " + "?" + ")"));
  }

  /** The keyword condition binds its pattern four times. */
  lemma KeywordPlaceholders()
    ensures Placeholders(Sql(KeywordMatch)) == 4
  {
    TitleArPlaceholders();
    OnePlaceholder("(p.title LIKE ", " OR p.title_ar LIKE " + "?" + (" OR p.description LIKE " + "?" + (" OR p.description_ar LIKE " + "?" + ")")));
  }

  lemma ComparisonPlain(c: Condition)
    requires c != IsActive && c != KeywordMatch
    ensures '?' !in Comparison(c)
  {
  }

  /** Each condition's text holds exactly as many '?' as the parameters it binds. */
  lemma SqlPlaceholders(c: Condition)
    ensures Placeholders(Sql(c)) == Arity(c)
  {
    if c == IsActive {
      NoPlaceholders("p.is_active = 1");
    } else if c == KeywordMatch {
      KeywordPlaceholders();
    } else {
      ComparisonPlain(c);
      OnePlaceholder(Comparison(c), "");
    }
  }

  /** Total parameters the condition list binds. */
  function TotalArity(conds: seq<Condition>): nat
  {
    if conds == [] then 0 else TotalArity(conds[..|conds| - 1]) + Arity(conds[|conds| - 1])
  }

  /** implode(' AND ', $where_conditions) */
  function WhereClause(conds: seq<Condition>): (r: string)
    ensures conds == [] <==> r == ""
    ensures conds != [] ==> |Sql(conds[0])| <= |r| && r[..|Sql(conds[0])|] == Sql(conds[0])
    ensures conds != [] ==> |Sql(conds[|conds| - 1])| <= |r| && r[|r| - |Sql(conds[|conds| - 1])|..] == Sql(conds[|conds| - 1])
  {
    if conds == [] then ""
    else if |conds| == 1 then Sql(conds[0])
    else
      var init := conds[..|conds| - 1];
      assert init[0] == conds[0];
      PrefixKept(WhereClause(init), " AND ", Sql(conds[|conds| - 1]), Sql(conds[0]));
      WhereClause(init) + " AND " + Sql(conds[|conds| - 1])
  }

  lemma PrefixKept(a: string, b: string, c: string, p: string)
    requires |p| <= |a| && a[..|p|] == p
    ensures |p| <= |a + b + c| && (a + b + c)[..|p|] == p
  {
    assert forall k :: 0 <= k < |p| ==> (a + b + c)[k] == a[k];
  }

  /** Whatever the filters, the WHERE clause opens with the active-listings condition. */
  lemma WhereStartsActive(f: Filters)
    ensures var w := WhereClause(WhereConds(f));
      |w| >= |"p.is_active = 1"| && w[..|"p.is_active = 1"|] == "p.is_active = 1"
  {
    assert WhereConds(f)[0] == IsActive;
  }

  /** The assembled WHERE clause holds exactly as many '?' as the conditions bind parameters. */
  lemma {:induction false} WherePlaceholders(conds: seq<Condition>)
    ensures Placeholders(WhereClause(conds)) == TotalArity(conds)
  {
    if |conds| == 1 {
      SqlPlaceholders(conds[0]);
      assert conds[..0] == [];
    } else if |conds| > 1 {
      var init, last := conds[..|conds| - 1], conds[|conds| - 1];
      WherePlaceholders(init);
      PlaceholdersJoin(WhereClause(init), last);
      assert WhereClause(conds) == WhereClause(init) + " AND " + Sql(last);
      assert TotalArity(conds) == TotalArity(init) + Arity(last);
    }
  }

  /** Joining one more condition with " AND " adds its placeholders. */
  lemma PlaceholdersJoin(w: string, c: Condition)
    ensures Placeholders(w + " AND " + Sql(c)) == Placeholders(w) + Arity(c)
  {
    SqlPlaceholders(c);
    NoPlaceholders(" AND ");
    PlaceholdersAppend(w, " AND ");
    PlaceholdersAppend(w + " AND ", Sql(c));
  }

  /** A LIKE pattern of the shape '%k%' matches the values containing k (other patterns are compared literally). */
  predicate Like(value: string, pattern: string)
  {
    if |pattern| >= 2 && pattern[0] == '%' && pattern[|pattern| - 1] == '%'
    then Contains(value, pattern[1..|pattern| - 1])
    else value == pattern
  }

  /** What one condition says of a row, given the parameters bound to its placeholders. */
  predicate Holds(c: Condition, args: seq<Param>, row: PropertyRow)
  {
    |args| == Arity(c) &&
    match c
    case IsActive => row.isActive
    case KeywordMatch =>
      (forall i :: 0 <= i < 4 ==> args[i].Str?) &&
      (Like(row.title, args[0].s) || Like(row.titleAr, args[1].s)
       || Like(row.description, args[2].s) || Like(row.descriptionAr, args[3].s))
    case CityIs => args[0] == Str(row.city)
    case TypeIs => args[0] == Str(row.listingType)
    case PropertyTypeIs => args[0] == Str(row.propertyType)
    case MinPrice => args[0].Int? && row.price >= args[0].n
    case MaxPrice => args[0].Int? && row.price <= args[0].n
    case MinRooms => args[0].Int? && row.rooms >= args[0].n
    case MinArea => args[0].Int? && row.areaSqm >= args[0].n
    case MaxArea => args[0].Int? && row.areaSqm <= args[0].n
    case AgentIs => args[0] == Int(row.agentId)
    case FeaturedIs => args[0] == Int(if row.isFeatured then 1 else 0)
  }

  /**
   * The conditions joined by AND, each reading its own parameters from the
   * parameter list in order; false when the list does not bind exactly.
   */
  predicate Satisfies(conds: seq<Condition>, params: seq<Param>, row: PropertyRow)
    decreases |conds|
  {
    if conds == [] then params == []
    else
      var c := conds[|conds| - 1];
      var n := Arity(c);
      n <= |params|
      && Holds(c, params[|params| - n..], row)
      && Satisfies(conds[..|conds| - 1], params[..|params| - n], row)
  }

  /** Appending one condition with its parameters conjoins it to the clause. */
  lemma AppendCondition(conds: seq<Condition>, params: seq<Param>, c: Condition, args: seq<Param>, row: PropertyRow)
    requires |args| == Arity(c)
    ensures Satisfies(conds + [c], params + args, row) <==> Satisfies(conds, params, row) && Holds(c, args, row)
  {
    var cs, ps := conds + [c], params + args;
    assert cs[..|cs| - 1] == conds && cs[|cs| - 1] == c;
    assert ps[|ps| - |args|..] == args && ps[..|ps| - |args|] == params;
  }

  /** The keyword condition with its four '%keyword%' parameters means: the keyword occurs in one of the four texts. */
  lemma KeywordHolds(keyword: string, row: PropertyRow)
    ensures var pattern := Str("%" + keyword + "%");
      Holds(KeywordMatch, [pattern, pattern, pattern, pattern], row) <==>
        Contains(row.title, keyword) || Contains(row.titleAr, keyword)
        || Contains(row.description, keyword) || Contains(row.descriptionAr, keyword)
  {
    var p := "%" + keyword + "%";
    assert p[1..|p| - 1] == keyword;
  }

  /** One step of the builder: append `c` to the conditions and its parameters to the parameter list. */
  method Append(conds: seq<Condition>, params: seq<Param>, c: Condition, args: seq<Param>)
    returns (conds': seq<Condition>, params': seq<Param>)
    requires |args| == Arity(c)
    ensures conds' == conds + [c] && params' == params + args
    ensures TotalArity(conds') == TotalArity(conds) + Arity(c)
    ensures forall row {:trigger Satisfies(conds', params', row)} :: Satisfies(conds', params', row) <==> Satisfies(conds, params, row) && Holds(c, args, row)
  {
    conds', params' := conds + [c], params + args;
    assert conds'[..|conds'| - 1] == conds;
    forall row ensures Satisfies(conds', params', row) <==> Satisfies(conds, params, row) && Holds(c, args, row) {
      AppendCondition(conds, params, c, args, row);
    }
  }

  /** `xs` when `b` holds, nothing otherwise: what a guarded builder step contributes. */
  function When<T>(b: bool, xs: seq<T>): seq<T>
  {
    if b then xs else []
  }

  /** A builder step guarded by `when`: `c` and its parameters are appended only if `when` holds. */
  method AppendWhen(when: bool, conds: seq<Condition>, params: seq<Param>, c: Condition, args: seq<Param>)
    returns (conds': seq<Condition>, params': seq<Param>)
    requires |args| == Arity(c)
    ensures conds' == conds + When(when, [c]) && params' == params + When(when, args)
  {
    conds', params' := conds, params;
    if when {
      conds', params' := Append(conds, params, c, args);
    } else {
      assert conds + [] == conds && params + [] == params;
    }
  }

  lemma Concat2<T>(s: seq<T>, a: seq<T>, b: seq<T>)
    ensures s + a + b == s + (a + b)
  {
  }

  lemma Concat3<T>(s: seq<T>, a: seq<T>, b: seq<T>, c: seq<T>)
    ensures s + a + b + c == s + (a + b + c)
  {
  }

  lemma Concat4<T>(s: seq<T>, a: seq<T>, b: seq<T>, c: seq<T>, d: seq<T>)
    ensures s + a + b + c + d == s + (a + b + c + d)
  {
  }

  /** The '%keyword%' LIKE pattern, bound once per searched column. */
  function KeywordPattern(f: Filters): Param
  {
    Str("%" + f.keyword + "%")
  }

  /** The conditions the keyword, city, type and property_type steps add, in order. */
  function TextConds(f: Filters): seq<Condition>
  {
    When(!Php.Empty(f.keyword), [KeywordMatch]) + When(!Php.Empty(f.city), [CityIs])
    + When(!Php.Empty(f.listingType), [TypeIs]) + When(!Php.Empty(f.propertyType), [PropertyTypeIs])
  }

  function TextParams(f: Filters): seq<Param>
  {
    var k := KeywordPattern(f);
    When(!Php.Empty(f.keyword), [k, k, k, k]) + When(!Php.Empty(f.city), [Str(f.city)])
    + When(!Php.Empty(f.listingType), [Str(f.listingType)]) + When(!Php.Empty(f.propertyType), [Str(f.propertyType)])
  }

  function PriceConds(f: Filters): seq<Condition>
  {
    When(f.minPrice > 0, [MinPrice]) + When(f.maxPrice > 0, [MaxPrice])
  }

  function PriceParams(f: Filters): seq<Param>
  {
    When(f.minPrice > 0, [Int(f.minPrice)]) + When(f.maxPrice > 0, [Int(f.maxPrice)])
  }

  function SizeConds(f: Filters): seq<Condition>
  {
    When(f.rooms > 0, [MinRooms]) + When(f.minArea > 0, [MinArea]) + When(f.maxArea > 0, [MaxArea])
  }

  function SizeParams(f: Filters): seq<Param>
  {
    When(f.rooms > 0, [Int(f.rooms)]) + When(f.minArea > 0, [Int(f.minArea)]) + When(f.maxArea > 0, [Int(f.maxArea)])
  }

  function OwnerConds(f: Filters): seq<Condition>
  {
    When(f.agentId > 0, [AgentIs]) + When(f.featured.Some?, [FeaturedIs])
  }

  function OwnerParams(f: Filters): seq<Param>
  {
    When(f.agentId > 0, [Int(f.agentId)]) + When(f.featured.Some?, [Int(if f.featured.GetOr(false) then 1 else 0)])
  }

  /** A guarded step conjoins its condition to the clause when the guard holds, and changes nothing otherwise. */
  lemma SatisfiesWhen(conds: seq<Condition>, params: seq<Param>, b: bool, c: Condition, args: seq<Param>, row: PropertyRow)
    requires |args| == Arity(c)
    ensures Satisfies(conds + When(b, [c]), params + When(b, args), row) <==> Satisfies(conds, params, row) && (b ==> Holds(c, args, row))
  {
    if b {
      AppendCondition(conds, params, c, args, row);
    } else {
      assert conds + [] == conds && params + [] == params;
    }
  }

  /** Two guarded steps conjoin both guarded conditions. */
  lemma SatisfiesWhen2(conds: seq<Condition>, params: seq<Param>, b1: bool, c1: Condition, a1: seq<Param>, b2: bool, c2: Condition, a2: seq<Param>, row: PropertyRow)
    requires |a1| == Arity(c1) && |a2| == Arity(c2)
    ensures Satisfies(conds + (When(b1, [c1]) + When(b2, [c2])), params + (When(b1, a1) + When(b2, a2)), row)
      <==> Satisfies(conds, params, row) && (b1 ==> Holds(c1, a1, row)) && (b2 ==> Holds(c2, a2, row))
  {
    SatisfiesWhen(conds, params, b1, c1, a1, row);
    SatisfiesWhen(conds + When(b1, [c1]), params + When(b1, a1), b2, c2, a2, row);
    Concat2(conds, When(b1, [c1]), When(b2, [c2]));
    Concat2(params, When(b1, a1), When(b2, a2));
  }

  /** The price conditions hold of a row exactly when its price is within the supplied bounds. */
  lemma PriceMeaning(f: Filters, conds: seq<Condition>, params: seq<Param>, row: PropertyRow)
    ensures Satisfies(conds + PriceConds(f), params + PriceParams(f), row) <==> Satisfies(conds, params, row) && MatchesPrice(f, row)
  {
    SatisfiesWhen2(conds, params, f.minPrice > 0, MinPrice, [Int(f.minPrice)], f.maxPrice > 0, MaxPrice, [Int(f.maxPrice)], row);
    PriceGuards(f, row);
  }

  lemma PriceGuards(f: Filters, row: PropertyRow)
    ensures (f.minPrice > 0 ==> Holds(MinPrice, [Int(f.minPrice)], row)) && (f.maxPrice > 0 ==> Holds(MaxPrice, [Int(f.maxPrice)], row))
        <==> MatchesPrice(f, row)
  {
  }

  lemma SatisfiesWhen3(conds: seq<Condition>, params: seq<Param>, b1: bool, c1: Condition, a1: seq<Param>, b2: bool, c2: Condition, a2: seq<Param>,
                       b3: bool, c3: Condition, a3: seq<Param>, row: PropertyRow)
    requires |a1| == Arity(c1) && |a2| == Arity(c2) && |a3| == Arity(c3)
    ensures Satisfies(conds + (When(b1, [c1]) + When(b2, [c2]) + When(b3, [c3])), params + (When(b1, a1) + When(b2, a2) + When(b3, a3)), row)
      <==> Satisfies(conds, params, row) && (b1 ==> Holds(c1, a1, row)) && (b2 ==> Holds(c2, a2, row)) && (b3 ==> Holds(c3, a3, row))
  {
    var cs, ps := When(b1, [c1]) + When(b2, [c2]), When(b1, a1) + When(b2, a2);
    SatisfiesWhen2(conds, params, b1, c1, a1, b2, c2, a2, row);
    SatisfiesWhen(conds + cs, params + ps, b3, c3, a3, row);
    Concat2(conds, cs, When(b3, [c3]));
    Concat2(params, ps, When(b3, a3));
  }

  lemma SatisfiesWhen4(conds: seq<Condition>, params: seq<Param>, b1: bool, c1: Condition, a1: seq<Param>, b2: bool, c2: Condition, a2: seq<Param>,
                       b3: bool, c3: Condition, a3: seq<Param>, b4: bool, c4: Condition, a4: seq<Param>, row: PropertyRow)
    requires |a1| == Arity(c1) && |a2| == Arity(c2) && |a3| == Arity(c3) && |a4| == Arity(c4)
    ensures Satisfies(conds + (When(b1, [c1]) + When(b2, [c2]) + When(b3, [c3]) + When(b4, [c4])),
                      params + (When(b1, a1) + When(b2, a2) + When(b3, a3) + When(b4, a4)), row)
      <==> Satisfies(conds, params, row) && (b1 ==> Holds(c1, a1, row)) && (b2 ==> Holds(c2, a2, row))
           && (b3 ==> Holds(c3, a3, row)) && (b4 ==> Holds(c4, a4, row))
  {
    var cs, ps := When(b1, [c1]) + When(b2, [c2]) + When(b3, [c3]), When(b1, a1) + When(b2, a2) + When(b3, a3);
    SatisfiesWhen3(conds, params, b1, c1, a1, b2, c2, a2, b3, c3, a3, row);
    SatisfiesWhen(conds + cs, params + ps, b4, c4, a4, row);
    Concat2(conds, cs, When(b4, [c4]));
    Concat2(params, ps, When(b4, a4));
  }

  /** The keyword, city, type and property_type conditions hold of a row exactly when it passes those filters. */
  lemma TextMeaning(f: Filters, conds: seq<Condition>, params: seq<Param>, row: PropertyRow)
    ensures Satisfies(conds + TextConds(f), params + TextParams(f), row) <==> Satisfies(conds, params, row) && MatchesText(f, row)
  {
    var k := KeywordPattern(f);
    SatisfiesWhen4(conds, params, !Php.Empty(f.keyword), KeywordMatch, [k, k, k, k], !Php.Empty(f.city), CityIs, [Str(f.city)],
                   !Php.Empty(f.listingType), TypeIs, [Str(f.listingType)], !Php.Empty(f.propertyType), PropertyTypeIs, [Str(f.propertyType)], row);
    TextGuards(f, row);
  }

  lemma TextGuards(f: Filters, row: PropertyRow)
    ensures var k := KeywordPattern(f);
      (!Php.Empty(f.keyword) ==> Holds(KeywordMatch, [k, k, k, k], row)) && (!Php.Empty(f.city) ==> Holds(CityIs, [Str(f.city)], row))
      && (!Php.Empty(f.listingType) ==> Holds(TypeIs, [Str(f.listingType)], row))
      && (!Php.Empty(f.propertyType) ==> Holds(PropertyTypeIs, [Str(f.propertyType)], row))
      <==> MatchesText(f, row)
  {
    KeywordHolds(f.keyword, row);
  }

  /** The rooms and area conditions hold of a row exactly when it is within the supplied bounds. */
  lemma SizeMeaning(f: Filters, conds: seq<Condition>, params: seq<Param>, row: PropertyRow)
    ensures Satisfies(conds + SizeConds(f), params + SizeParams(f), row) <==> Satisfies(conds, params, row) && MatchesSize(f, row)
  {
    SatisfiesWhen3(conds, params, f.rooms > 0, MinRooms, [Int(f.rooms)], f.minArea > 0, MinArea, [Int(f.minArea)],
                   f.maxArea > 0, MaxArea, [Int(f.maxArea)], row);
    SizeGuards(f, row);
  }

  lemma SizeGuards(f: Filters, row: PropertyRow)
    ensures (f.rooms > 0 ==> Holds(MinRooms, [Int(f.rooms)], row)) && (f.minArea > 0 ==> Holds(MinArea, [Int(f.minArea)], row))
            && (f.maxArea > 0 ==> Holds(MaxArea, [Int(f.maxArea)], row))
        <==> MatchesSize(f, row)
  {
  }

  /** The agent and featured conditions hold of a row exactly when it passes those filters. */
  lemma OwnerMeaning(f: Filters, conds: seq<Condition>, params: seq<Param>, row: PropertyRow)
    ensures Satisfies(conds + OwnerConds(f), params + OwnerParams(f), row) <==> Satisfies(conds, params, row) && MatchesOwner(f, row)
  {
    SatisfiesWhen2(conds, params, f.agentId > 0, AgentIs, [Int(f.agentId)],
                   f.featured.Some?, FeaturedIs, [Int(if f.featured.GetOr(false) then 1 else 0)], row);
    OwnerGuards(f, row);
  }

  lemma OwnerGuards(f: Filters, row: PropertyRow)
    ensures (f.agentId > 0 ==> Holds(AgentIs, [Int(f.agentId)], row))
            && (f.featured.Some? ==> Holds(FeaturedIs, [Int(if f.featured.GetOr(false) then 1 else 0)], row))
        <==> MatchesOwner(f, row)
  {
  }

  /** The keyword, city, type and property_type steps of the builder. */
  method AppendTextFilters(f: Filters, conds: seq<Condition>, params: seq<Param>)
    returns (conds': seq<Condition>, params': seq<Param>)
    ensures conds' == conds + TextConds(f) && params' == params + TextParams(f)
  {
    var pattern := KeywordPattern(f);
    var c1, p1 := AppendWhen(!Php.Empty(f.keyword), conds, params, KeywordMatch, [pattern, pattern, pattern, pattern]);
    var c2, p2 := AppendWhen(!Php.Empty(f.city), c1, p1, CityIs, [Str(f.city)]);
    var c3, p3 := AppendWhen(!Php.Empty(f.listingType), c2, p2, TypeIs, [Str(f.listingType)]);
    conds', params' := AppendWhen(!Php.Empty(f.propertyType), c3, p3, PropertyTypeIs, [Str(f.propertyType)]);
    Concat4(conds, When(!Php.Empty(f.keyword), [KeywordMatch]), When(!Php.Empty(f.city), [CityIs]),
            When(!Php.Empty(f.listingType), [TypeIs]), When(!Php.Empty(f.propertyType), [PropertyTypeIs]));
    Concat4(params, When(!Php.Empty(f.keyword), [pattern, pattern, pattern, pattern]), When(!Php.Empty(f.city), [Str(f.city)]),
            When(!Php.Empty(f.listingType), [Str(f.listingType)]), When(!Php.Empty(f.propertyType), [Str(f.propertyType)]));
  }

  /** The min_price and max_price steps of the builder. */
  method AppendPriceFilters(f: Filters, conds: seq<Condition>, params: seq<Param>)
    returns (conds': seq<Condition>, params': seq<Param>)
    ensures conds' == conds + PriceConds(f) && params' == params + PriceParams(f)
  {
    var c1, p1 := AppendWhen(f.minPrice > 0, conds, params, MinPrice, [Int(f.minPrice)]);
    conds', params' := AppendWhen(f.maxPrice > 0, c1, p1, MaxPrice, [Int(f.maxPrice)]);
    Concat2(conds, When(f.minPrice > 0, [MinPrice]), When(f.maxPrice > 0, [MaxPrice]));
    Concat2(params, When(f.minPrice > 0, [Int(f.minPrice)]), When(f.maxPrice > 0, [Int(f.maxPrice)]));
  }

  /** The rooms, min_area and max_area steps of the builder. */
  method AppendSizeFilters(f: Filters, conds: seq<Condition>, params: seq<Param>)
    returns (conds': seq<Condition>, params': seq<Param>)
    ensures conds' == conds + SizeConds(f) && params' == params + SizeParams(f)
  {
    var c1, p1 := AppendWhen(f.rooms > 0, conds, params, MinRooms, [Int(f.rooms)]);
    var c2, p2 := AppendWhen(f.minArea > 0, c1, p1, MinArea, [Int(f.minArea)]);
    conds', params' := AppendWhen(f.maxArea > 0, c2, p2, MaxArea, [Int(f.maxArea)]);
    Concat3(conds, When(f.rooms > 0, [MinRooms]), When(f.minArea > 0, [MinArea]), When(f.maxArea > 0, [MaxArea]));
    Concat3(params, When(f.rooms > 0, [Int(f.rooms)]), When(f.minArea > 0, [Int(f.minArea)]), When(f.maxArea > 0, [Int(f.maxArea)]));
  }

  /** The agent_id and featured steps of the builder. */
  method AppendOwnerFilters(f: Filters, conds: seq<Condition>, params: seq<Param>)
    returns (conds': seq<Condition>, params': seq<Param>)
    ensures conds' == conds + OwnerConds(f) && params' == params + OwnerParams(f)
  {
    var flag := Int(if f.featured.GetOr(false) then 1 else 0);
    var c1, p1 := AppendWhen(f.agentId > 0, conds, params, AgentIs, [Int(f.agentId)]);
    conds', params' := AppendWhen(f.featured.Some?, c1, p1, FeaturedIs, [flag]);
    Concat2(conds, When(f.agentId > 0, [AgentIs]), When(f.featured.Some?, [FeaturedIs]));
    Concat2(params, When(f.agentId > 0, [Int(f.agentId)]), When(f.featured.Some?, [flag]));
  }

  /** Every condition and parameter the builder produces, in order. */
  function WhereConds(f: Filters): seq<Condition>
  {
    [IsActive] + TextConds(f) + PriceConds(f) + SizeConds(f) + OwnerConds(f)
  }

  function WhereParams(f: Filters): seq<Param>
  {
    TextParams(f) + PriceParams(f) + SizeParams(f) + OwnerParams(f)
  }

  /** How many conditions, or parameters, a guarded step adds. */
  function Count(b: bool, n: nat): nat { if b then n else 0 }

  lemma WhenLength<T>(b: bool, xs: seq<T>)
    ensures |When(b, xs)| == Count(b, |xs|)
  {
  }

  /** The keyword adds one condition and four parameters; city, type and property_type one of each. */
  lemma TextCounts(f: Filters)
    ensures |TextConds(f)| == Count(!Php.Empty(f.keyword), 1) + Count(!Php.Empty(f.city), 1)
      + Count(!Php.Empty(f.listingType), 1) + Count(!Php.Empty(f.propertyType), 1)
    ensures |TextParams(f)| == Count(!Php.Empty(f.keyword), 4) + Count(!Php.Empty(f.city), 1)
      + Count(!Php.Empty(f.listingType), 1) + Count(!Php.Empty(f.propertyType), 1)
  {
    var k := KeywordPattern(f);
    WhenLength(!Php.Empty(f.keyword), [KeywordMatch]);
    WhenLength(!Php.Empty(f.city), [CityIs]);
    WhenLength(!Php.Empty(f.listingType), [TypeIs]);
    WhenLength(!Php.Empty(f.propertyType), [PropertyTypeIs]);
    WhenLength(!Php.Empty(f.keyword), [k, k, k, k]);
    WhenLength(!Php.Empty(f.city), [Str(f.city)]);
    WhenLength(!Php.Empty(f.listingType), [Str(f.listingType)]);
    WhenLength(!Php.Empty(f.propertyType), [Str(f.propertyType)]);
  }

  /** A bound adds one condition and one parameter, and only when it is positive. */
  lemma RangeCounts(f: Filters)
    ensures |PriceConds(f)| == |PriceParams(f)| == Count(f.minPrice > 0, 1) + Count(f.maxPrice > 0, 1)
    ensures |SizeConds(f)| == |SizeParams(f)| == Count(f.rooms > 0, 1) + Count(f.minArea > 0, 1) + Count(f.maxArea > 0, 1)
  {
    WhenLength(f.minPrice > 0, [MinPrice]);
    WhenLength(f.maxPrice > 0, [MaxPrice]);
    WhenLength(f.minPrice > 0, [Int(f.minPrice)]);
    WhenLength(f.maxPrice > 0, [Int(f.maxPrice)]);
    WhenLength(f.rooms > 0, [MinRooms]);
    WhenLength(f.minArea > 0, [MinArea]);
    WhenLength(f.maxArea > 0, [MaxArea]);
    WhenLength(f.rooms > 0, [Int(f.rooms)]);
    WhenLength(f.minArea > 0, [Int(f.minArea)]);
    WhenLength(f.maxArea > 0, [Int(f.maxArea)]);
  }

  /** agent_id adds one condition and one parameter when positive; featured whenever it is present, bound to 1 or 0. */
  lemma OwnerCounts(f: Filters)
    ensures |OwnerConds(f)| == |OwnerParams(f)| == Count(f.agentId > 0, 1) + Count(f.featured.Some?, 1)
    ensures f.featured.Some? ==>
      (OwnerConds(f)[|OwnerConds(f)| - 1] == FeaturedIs
       && OwnerParams(f)[|OwnerParams(f)| - 1] == Int(if f.featured.value then 1 else 0))
  {
    WhenLength(f.agentId > 0, [AgentIs]);
    WhenLength(f.featured.Some?, [FeaturedIs]);
    WhenLength(f.agentId > 0, [Int(f.agentId)]);
    WhenLength(f.featured.Some?, [Int(if f.featured.GetOr(false) then 1 else 0)]);
  }

  /** With no filter supplied the clause is the active-only condition alone. */
  lemma NoFiltersWhere(f: Filters)
    requires f.keyword == "" && f.city == "" && f.listingType == "" && f.propertyType == ""
    requires f.minPrice == 0 && f.maxPrice == 0 && f.rooms == 0 && f.minArea == 0 && f.maxArea == 0
    requires f.agentId == 0 && f.featured.None?
    ensures WhereConds(f) == [IsActive] && WhereParams(f) == []
  {
  }

  /** The clause built for `f` holds of a row exactly when the row is active and passes every supplied filter. */
  lemma WhereMeaning(f: Filters, row: PropertyRow)
    ensures Satisfies(WhereConds(f), WhereParams(f), row) <==> RowMatches(f, row)
  {
    var c0, p0: seq<Param> := [IsActive], [];
    var c1, p1 := c0 + TextConds(f), p0 + TextParams(f);
    var c2, p2 := c1 + PriceConds(f), p1 + PriceParams(f);
    var c3, p3 := c2 + SizeConds(f), p2 + SizeParams(f);
    ActiveOnlyHolds(row);
    TextMeaning(f, c0, p0, row);
    PriceMeaning(f, c1, p1, row);
    SizeMeaning(f, c2, p2, row);
    OwnerMeaning(f, c3, p3, row);
    assert p0 + TextParams(f) == TextParams(f);
  }

  lemma {:induction false} TotalArityAppend(a: seq<Condition>, b: seq<Condition>)
    ensures TotalArity(a + b) == TotalArity(a) + TotalArity(b)
    decreases |b|
  {
    if b == [] {
      assert a + b == a;
    } else {
      assert (a + b)[..|a + b| - 1] == a + b[..|b| - 1];
      TotalArityAppend(a, b[..|b| - 1]);
    }
  }

  lemma WhenArity(b: bool, c: Condition, args: seq<Param>)
    requires |args| == Arity(c)
    ensures TotalArity(When(b, [c])) == |When(b, args)|
  {
    if b {
      assert [c][..0] == [];
    }
  }

  lemma WhenArity2(b1: bool, c1: Condition, a1: seq<Param>, b2: bool, c2: Condition, a2: seq<Param>)
    requires |a1| == Arity(c1) && |a2| == Arity(c2)
    ensures TotalArity(When(b1, [c1]) + When(b2, [c2])) == |When(b1, a1) + When(b2, a2)|
  {
    WhenArity(b1, c1, a1);
    WhenArity(b2, c2, a2);
    TotalArityAppend(When(b1, [c1]), When(b2, [c2]));
  }

  lemma WhenArity3(b1: bool, c1: Condition, a1: seq<Param>, b2: bool, c2: Condition, a2: seq<Param>, b3: bool, c3: Condition, a3: seq<Param>)
    requires |a1| == Arity(c1) && |a2| == Arity(c2) && |a3| == Arity(c3)
    ensures TotalArity(When(b1, [c1]) + When(b2, [c2]) + When(b3, [c3])) == |When(b1, a1) + When(b2, a2) + When(b3, a3)|
  {
    WhenArity2(b1, c1, a1, b2, c2, a2);
    WhenArity(b3, c3, a3);
    TotalArityAppend(When(b1, [c1]) + When(b2, [c2]), When(b3, [c3]));
  }

  lemma WhenArity4(b1: bool, c1: Condition, a1: seq<Param>, b2: bool, c2: Condition, a2: seq<Param>,
                   b3: bool, c3: Condition, a3: seq<Param>, b4: bool, c4: Condition, a4: seq<Param>)
    requires |a1| == Arity(c1) && |a2| == Arity(c2) && |a3| == Arity(c3) && |a4| == Arity(c4)
    ensures TotalArity(When(b1, [c1]) + When(b2, [c2]) + When(b3, [c3]) + When(b4, [c4]))
         == |When(b1, a1) + When(b2, a2) + When(b3, a3) + When(b4, a4)|
  {
    WhenArity3(b1, c1, a1, b2, c2, a2, b3, c3, a3);
    WhenArity(b4, c4, a4);
    TotalArityAppend(When(b1, [c1]) + When(b2, [c2]) + When(b3, [c3]), When(b4, [c4]));
  }

  lemma TextArity(f: Filters)
    ensures TotalArity(TextConds(f)) == |TextParams(f)|
  {
    var k := KeywordPattern(f);
    WhenArity4(!Php.Empty(f.keyword), KeywordMatch, [k, k, k, k], !Php.Empty(f.city), CityIs, [Str(f.city)],
               !Php.Empty(f.listingType), TypeIs, [Str(f.listingType)], !Php.Empty(f.propertyType), PropertyTypeIs, [Str(f.propertyType)]);
  }

  lemma PriceArity(f: Filters)
    ensures TotalArity(PriceConds(f)) == |PriceParams(f)|
  {
    WhenArity2(f.minPrice > 0, MinPrice, [Int(f.minPrice)], f.maxPrice > 0, MaxPrice, [Int(f.maxPrice)]);
  }

  lemma SizeArity(f: Filters)
    ensures TotalArity(SizeConds(f)) == |SizeParams(f)|
  {
    WhenArity3(f.rooms > 0, MinRooms, [Int(f.rooms)], f.minArea > 0, MinArea, [Int(f.minArea)], f.maxArea > 0, MaxArea, [Int(f.maxArea)]);
  }

  lemma OwnerArity(f: Filters)
    ensures TotalArity(OwnerConds(f)) == |OwnerParams(f)|
  {
    WhenArity2(f.agentId > 0, AgentIs, [Int(f.agentId)], f.featured.Some?, FeaturedIs, [Int(if f.featured.GetOr(false) then 1 else 0)]);
  }

  /** The clause built for `f` binds exactly as many parameters as its conditions take. */
  lemma WhereArity(f: Filters)
    ensures TotalArity(WhereConds(f)) == |WhereParams(f)|
  {
    ActiveOnly();
    TextArity(f);
    PriceArity(f);
    SizeArity(f);
    OwnerArity(f);
    TotalArityAppend([IsActive], TextConds(f));
    TotalArityAppend([IsActive] + TextConds(f), PriceConds(f));
    TotalArityAppend([IsActive] + TextConds(f) + PriceConds(f), SizeConds(f));
    TotalArityAppend([IsActive] + TextConds(f) + PriceConds(f) + SizeConds(f), OwnerConds(f));
  }

  /** The clause the builder starts from binds no parameter. */
  lemma ActiveOnly()
    ensures TotalArity([IsActive]) == 0
  {
    assert [IsActive][..0] == [];
  }

  /** The clause the builder starts from keeps exactly the active rows. */
  lemma ActiveOnlyHolds(row: PropertyRow)
    ensures Satisfies([IsActive], [], row) <==> row.isActive
  {
    assert [IsActive][..0] == [];
  }

  /**
   * The WHERE clause of get_properties_list: the active-only condition
   * followed by one condition per supplied filter, in the source's order; it binds exactly as many parameters as its texts
   * have placeholders, and holds of a row exactly when the row passes
   * every supplied filter.
   */
  method BuildWhere(f: Filters) returns (conds: seq<Condition>, params: seq<Param>)
    ensures conds == WhereConds(f) && params == WhereParams(f)
    ensures TotalArity(conds) == |params|
    ensures Placeholders(WhereClause(conds)) == |params|
    ensures forall row :: Satisfies(conds, params, row) <==> RowMatches(f, row)
  {
    var c0, p0 := [IsActive], [];
    var c1, p1 := AppendTextFilters(f, c0, p0);
    var c2, p2 := AppendPriceFilters(f, c1, p1);
    var c3, p3 := AppendSizeFilters(f, c2, p2);
    conds, params := AppendOwnerFilters(f, c3, p3);
    assert p0 + TextParams(f) == TextParams(f);
    forall row ensures Satisfies(conds, params, row) <==> RowMatches(f, row) {
      WhereMeaning(f, row);
    }
    WhereArity(f);
    WherePlaceholders(conds);
  }

  // ---------------------------------------------------------------- selection and paging

  /** The rows the database returns for a WHERE clause, in table order. */
  function Select(table: seq<PropertyRow>, conds: seq<Condition>, params: seq<Param>): (r: seq<PropertyRow>)
  {
    if table == [] then []
    else Select(table[..|table| - 1], conds, params)
         + (if Satisfies(conds, params, table[|table| - 1]) then [table[|table| - 1]] else [])
  }

  /** The reference: the rows that pass every supplied filter, in table order. */
  function Matching(table: seq<PropertyRow>, f: Filters): (r: seq<PropertyRow>)
    ensures |r| <= |table|
    ensures forall row :: row in r <==> row in table && RowMatches(f, row)
  {
    if table == [] then []
    else Matching(table[..|table| - 1], f)
         + (if RowMatches(f, table[|table| - 1]) then [table[|table| - 1]] else [])
  }

  /** A clause that holds exactly of the matching rows selects exactly the matching rows. */
  lemma {:induction false} SelectIsMatching(table: seq<PropertyRow>, f: Filters, conds: seq<Condition>, params: seq<Param>)
    requires forall row :: Satisfies(conds, params, row) <==> RowMatches(f, row)
    ensures Select(table, conds, params) == Matching(table, f)
  {
    if table != [] {
      SelectIsMatching(table[..|table| - 1], f, conds, params);
    }
  }

  /** ceil(total / per_page): the fewest pages that hold every row. */
  function TotalPages(total: nat, perPage: int): (n: nat)
    requires perPage >= 1
    ensures n * perPage >= total
    ensures n == 0 || (n - 1) * perPage < total
  {
    (total + perPage - 1) / perPage
  }

  lemma MultiplyMonotone(a: int, b: int, k: int)
    requires a <= b && k >= 0
    ensures a * k <= b * k
  {
  }

  /** There is a next page exactly when rows remain beyond this one. */
  lemma NextPageMeansMoreRows(total: nat, page: int, perPage: int)
    requires perPage >= 1 && page >= 1
    ensures page < TotalPages(total, perPage) <==> page * perPage < total
  {
    var n := TotalPages(total, perPage);
    if page < n {
      MultiplyMonotone(page, n - 1, perPage);
    } else {
      MultiplyMonotone(n, page, perPage);
    }
  }

  /** LIMIT per_page OFFSET offset over the selected rows. */
  function PageOf<T>(rows: seq<T>, p: Paging): (r: seq<T>)
    requires p.offset >= 0 && p.perPage >= 1
    ensures |r| <= p.perPage
    ensures p.offset >= |rows| ==> r == []
    ensures p.offset < |rows| ==> |r| == (if |rows| - p.offset < p.perPage then |rows| - p.offset else p.perPage)
    ensures forall i :: 0 <= i < |r| ==> r[i] == rows[p.offset + i]
  {
    if p.offset >= |rows| then []
    else if |rows| - p.offset < p.perPage then rows[p.offset..]
    else rows[p.offset..p.offset + p.perPage]
  }

  datatype Meta = Meta(total: nat, page: int, perPage: int, totalPages: nat, hasNext: bool, hasPrev: bool)

  /** The meta block of the listing response. */
  function PageMeta(total: nat, p: Paging): (m: Meta)
    requires p.page >= 1 && p.perPage >= 1 && p.offset == (p.page - 1) * p.perPage
    ensures m.total == total && m.page == p.page && m.perPage == p.perPage
    ensures m.totalPages * p.perPage >= total && (m.totalPages == 0 || (m.totalPages - 1) * p.perPage < total)
    ensures m.hasNext <==> p.offset + p.perPage < total
    ensures m.hasNext <==> p.page * p.perPage < total
    ensures m.hasPrev <==> p.page > 1
  {
    var n := TotalPages(total, p.perPage);
    NextPageMeansMoreRows(total, p.page, p.perPage);
    assert p.offset + p.perPage == p.page * p.perPage;
    Meta(total, p.page, p.perPage, n, p.page < n, p.page > 1)
  }

  /** A listed property as the response shapes it: zero rooms, bathrooms or area read as absent. */
  datatype ListedProperty = ListedProperty(
    id: int,
    title: string,
    titleAr: string,
    price: int,
    listingType: string,
    propertyType: string,
    rooms: Option<int>,
    bathrooms: Option<int>,
    areaSqm: Option<int>,
    city: string,
    isFeatured: bool,
    agentId: int)

  function Present(n: int): Option<int> { if n != 0 then Some(n) else None }

  function Shape(row: PropertyRow): (r: ListedProperty)
    ensures r.id == row.id && r.title == row.title && r.titleAr == row.titleAr && r.price == row.price
    ensures r.listingType == row.listingType && r.propertyType == row.propertyType && r.city == row.city
    ensures r.isFeatured == row.isFeatured && r.agentId == row.agentId
    ensures (r.rooms.None? <==> row.rooms == 0) && (r.rooms.Some? ==> r.rooms.value == row.rooms)
    ensures (r.bathrooms.None? <==> row.bathrooms == 0) && (r.bathrooms.Some? ==> r.bathrooms.value == row.bathrooms)
    ensures (r.areaSqm.None? <==> row.areaSqm == 0) && (r.areaSqm.Some? ==> r.areaSqm.value == row.areaSqm)
  {
    ListedProperty(row.id, row.title, row.titleAr, row.price, row.listingType, row.propertyType,
                   Present(row.rooms), Present(row.bathrooms), Present(row.areaSqm),
                   row.city, row.isFeatured, row.agentId)
  }

  function ShapeAll(rows: seq<PropertyRow>): (r: seq<ListedProperty>)
    ensures |r| == |rows| && forall i :: 0 <= i < |rows| ==> r[i] == Shape(rows[i])
  {
    if rows == [] then [] else [Shape(rows[0])] + ShapeAll(rows[1..])
  }

  /**
   * GET /properties. `ordered(column, direction)` is the table in the order
   * of ORDER BY p.column direction; only allow-listed columns and ASC/DESC
   * ever reach it. The page holds the matching rows from the offset on,
   * at most per_page of them, and the meta block counts every matching row.
   */
  method GetPropertiesList(req: ListingRequest, ordered: (string, string) -> seq<PropertyRow>)
    returns (items: seq<ListedProperty>, meta: Meta)
    ensures var p := ClampPaging(req.page, req.perPage, PropertiesPerPage);
      var rows := Matching(ordered(SortColumn(req.sortBy), SortDirection(req.sortOrder)), FiltersOf(req));
      && items == ShapeAll(PageOf(rows, p))
      && meta == PageMeta(|rows|, p)
    ensures |items| <= meta.perPage <= MaxPerPage
    ensures meta.hasNext <==> (meta.page * meta.perPage < meta.total)
  {
    var f := FiltersOf(req);
    var paging := ClampPaging(req.page, req.perPage, PropertiesPerPage);
    assert paging.page >= 1 && paging.perPage >= 1 && paging.offset == (paging.page - 1) * paging.perPage;
    var table := ordered(SortColumn(req.sortBy), SortDirection(req.sortOrder));
    var conds, params := BuildWhere(f);
    var selected := Select(table, conds, params);
    SelectIsMatching(table, f, conds, params);
    meta := PageMeta(|selected|, paging);
    items := ShapeAll(PageOf(selected, paging));
  }

  /** 30 matching rows at 12 a page: page 3 is the last, holds 6 rows and has a previous page. */
  lemma LastPageExample()
    ensures var p := ClampPaging(Some(3), None, PropertiesPerPage);
      var m := PageMeta(30, p);
      && m.totalPages == 3 && !m.hasNext && m.hasPrev
      && forall rows: seq<int> :: |rows| == 30 ==> |PageOf(rows, p)| == 6
  {
  }

  /** No matching rows: no pages and no next page, whatever the page asked for. */
  lemma EmptyResultMeta(p: Paging)
    requires p.page >= 1 && p.perPage >= 1 && p.offset == (p.page - 1) * p.perPage
    ensures PageMeta(0, p).totalPages == 0 && !PageMeta(0, p).hasNext
  {
  }

  // ---------------------------------------------------------------- admin inquiries

  datatype AdminMeta = AdminMeta(total: nat, page: int, perPage: int, totalPages: nat)

  /**
   * GET /admin/inquiries: the same clamp with 20 rows a page by default,
   * over every inquiry newest first; the meta block has no has_next/has_prev.
   */
  function GetAdminInquiries<T>(newestFirst: seq<T>, page: Option<int>, perPage: Option<int>): (r: (seq<T>, AdminMeta))
    ensures var p := ClampPaging(page, perPage, AdminItemsPerPage);
      && r.0 == PageOf(newestFirst, p)
      && r.1.total == |newestFirst| && r.1.page == p.page && r.1.perPage == p.perPage
    ensures perPage.None? ==> r.1.perPage == AdminItemsPerPage
    ensures r.1.totalPages * r.1.perPage >= |newestFirst| && (r.1.totalPages == 0 || (r.1.totalPages - 1) * r.1.perPage < |newestFirst|)
  {
    var p := ClampPaging(page, perPage, AdminItemsPerPage);
    (PageOf(newestFirst, p), AdminMeta(|newestFirst|, p.page, p.perPage, TotalPages(|newestFirst|, p.perPage)))
  }
}

=== FILE: php.dfy ===
/**
 * The few PHP language rules the server code leans on: trim() with its
 * default character list, empty() and the (bool) cast on strings, and the
 * ASCII case mappings of strtolower()/strtoupper().
 */
module Php {
  import Text

  /** The default character list of PHP's trim(): space, tab, LF, CR, NUL and vertical tab. */
  predicate IsTrimChar(c: char)
  {
    c == ' ' || c == '\t' || c == '\n' || c == '\r' || c == '\0' || c == '\U{0B}'
  }

  /** trim(): the infix left after cutting PHP whitespace off both ends. */
  function Trim(s: string): (r: string)
    ensures r == [] || (!IsTrimChar(r[0]) && !IsTrimChar(r[|r| - 1]))
    ensures Text.Lead(s, IsTrimChar) + |r| <= |s| && r == s[Text.Lead(s, IsTrimChar)..Text.Lead(s, IsTrimChar) + |r|]
    ensures forall k :: 0 <= k < Text.Lead(s, IsTrimChar) ==> IsTrimChar(s[k])
    ensures forall k :: Text.Lead(s, IsTrimChar) + |r| <= k < |s| ==> IsTrimChar(s[k])
  {
    Text.TrimCut(s, IsTrimChar);
    Text.Trim(s, IsTrimChar)
  }

  /** empty() on a string: true for "" and for "0". */
  predicate Empty(s: string)
  {
    s == "" || s == "0"
  }

  /** The (bool) cast, and the truthiness `if ($s)`, of a string. */
  predicate ToBool(s: string)
  {
    !Empty(s)
  }

  predicate IsUpper(c: char) { 'A' <= c <= 'Z' }
  predicate IsLower(c: char) { 'a' <= c <= 'z' }

  /** strtolower(): only ASCII letters change (the locale-insensitive behaviour of PHP 8.2). */
  function ToLower(s: string): (r: string)
    ensures |r| == |s|
    ensures forall i :: 0 <= i < |s| ==> r[i] == if IsUpper(s[i]) then (s[i] as int + 32) as char else s[i]
  {
    if s == [] then []
    else [if IsUpper(s[0]) then (s[0] as int + 32) as char else s[0]] + ToLower(s[1..])
  }

  /** strtoupper(), ASCII letters only. */
  function ToUpper(s: string): (r: string)
    ensures |r| == |s|
    ensures forall i :: 0 <= i < |s| ==> r[i] == if IsLower(s[i]) then (s[i] as int - 32) as char else s[i]
  {
    if s == [] then []
    else [if IsLower(s[0]) then (s[0] as int - 32) as char else s[0]] + ToUpper(s[1..])
  }

  /** Upper-casing maps every ASCII letter of either case to the upper-case letter and nothing else onto it. */
  lemma ToUpperOfLetter(s: string, t: string)
    requires forall i :: 0 <= i < |t| ==> IsUpper(t[i])
    ensures ToUpper(s) == t <==> |s| == |t| && forall i :: 0 <= i < |s| ==> s[i] == t[i] || s[i] as int == t[i] as int + 32
  {
    var u := ToUpper(s);
    if |s| == |t| && forall i :: 0 <= i < |s| ==> s[i] == t[i] || s[i] as int == t[i] as int + 32 {
      forall i | 0 <= i < |s| ensures u[i] == t[i] {
        assert IsUpper(t[i]);
      }
      assert u == t;
    }
  }

  /** A string without upper-case ASCII letters is its own lower-case form. */
  lemma ToLowerFixed(s: string)
    requires forall i :: 0 <= i < |s| ==> !IsUpper(s[i])
    ensures ToLower(s) == s
  {
  }
}

=== FILE: price.dfy ===
/**
 * format_price (config.php): number_format($price) . ' ' . $currency, for
 * whole-number prices. number_format() with no decimals writes the sign,
 * then the decimal digits grouped in threes from the right with ','.
 */
module Price {
  import opened Wrappers
  import Text

  const DefaultCurrency: string := "YER"

  predicate IsDigit(c: char) { '0' <= c <= '9' }

  predicate AllDigits(s: string) { forall i :: 0 <= i < |s| ==> IsDigit(s[i]) }

  function DigitChar(d: nat): char
    requires d < 10
  {
    ('0' as int + d) as char
  }

  /** The decimal numeral of `n`, without leading zeros. */
  function Decimal(n: nat): (r: string)
    ensures |r| >= 1 && AllDigits(r)
    ensures r[0] == '0' ==> n == 0
  {
    if n < 10 then [DigitChar(n)] else Decimal(n / 10) + [DigitChar(n % 10)]
  }

  /** The number a string of decimal digits denotes. */
  function ValueOf(s: string): nat
    requires AllDigits(s)
  {
    if s == [] then 0 else ValueOf(s[..|s| - 1]) * 10 + (s[|s| - 1] as int - '0' as int)
  }

  lemma {:induction false} DecimalRoundTrip(n: nat)
    ensures ValueOf(Decimal(n)) == n
  {
    if n >= 10 {
      DecimalRoundTrip(n / 10);
      var r := Decimal(n);
      assert r[..|r| - 1] == Decimal(n / 10);
    }
  }

  /** Digits split into groups of three from the right, joined by ','. */
  function Group(d: string): (r: string)
    requires |d| >= 1 && AllDigits(d)
    decreases |d|
  {
    if |d| <= 3 then d else Group(d[..|d| - 3]) + "," + d[|d| - 3..]
  }

  /** A leading group of one to three digits, then any number of ",ddd" groups. */
  predicate WellGrouped(s: string)
    decreases |s|
  {
    (1 <= |s| <= 3 && AllDigits(s))
    || (|s| >= 5 && s[|s| - 4] == ',' && AllDigits(s[|s| - 3..]) && WellGrouped(s[..|s| - 4]))
  }

  function StripCommas(s: string): (r: string)
  {
    if s == [] then [] else StripCommas(s[..|s| - 1]) + (if s[|s| - 1] == ',' then [] else [s[|s| - 1]])
  }

  lemma {:induction false} StripAppend(a: string, b: string)
    ensures StripCommas(a + b) == StripCommas(a) + StripCommas(b)
    decreases |b|
  {
    if b == [] {
      assert a + b == a;
    } else {
      assert (a + b)[..|a + b| - 1] == a + b[..|b| - 1];
      StripAppend(a, b[..|b| - 1]);
    }
  }

  lemma {:induction false} StripDigits(d: string)
    requires AllDigits(d)
    ensures StripCommas(d) == d
  {
    if d != [] {
      StripDigits(d[..|d| - 1]);
      assert d == d[..|d| - 1] + [d[|d| - 1]];
    }
  }

  /** Grouping gives a well-grouped numeral. */
  lemma {:induction false} GroupWellGrouped(d: string)
    requires |d| >= 1 && AllDigits(d)
    ensures WellGrouped(Group(d))
    decreases |d|
  {
    if |d| > 3 {
      var hi, lo := d[..|d| - 3], d[|d| - 3..];
      GroupWellGrouped(hi);
      var g := Group(d);
      assert g == Group(hi) + "," + lo;
      assert g[..|g| - 4] == Group(hi) && g[|g| - 4] == ',' && g[|g| - 3..] == lo;
    }
  }

  /** Removing the commas from `g + "," + lo` keeps the digits of `lo`. */
  lemma StripComma(g: string, lo: string)
    requires AllDigits(lo)
    ensures StripCommas(g + "," + lo) == StripCommas(g) + lo
  {
    var g1 := g + ",";
    assert g1[..|g1| - 1] == g && g1[|g1| - 1] == ',';
    assert StripCommas(g1) == StripCommas(g);
    StripAppend(g1, lo);
    StripDigits(lo);
  }

  /** Removing the commas of the grouped numeral gives back the digits. */
  lemma {:induction false} GroupStrip(d: string)
    requires |d| >= 1 && AllDigits(d)
    ensures StripCommas(Group(d)) == d
    decreases |d|
  {
    if |d| <= 3 {
      StripDigits(d);
    } else {
      var hi, lo := d[..|d| - 3], d[|d| - 3..];
      GroupStrip(hi);
      assert Group(d) == Group(hi) + "," + lo;
      StripComma(Group(hi), lo);
      assert d == hi + lo;
    }
  }

  /** number_format() of a whole number. */
  function NumberFormat(n: int): string
  {
    if n < 0 then "-" + Group(Decimal(-n)) else Group(Decimal(n))
  }

  /** number_format() writes an optional '-', then the digits of |n| grouped in threes. */
  lemma NumberFormatGrouped(n: int)
    ensures var r := NumberFormat(n);
      && (n < 0 ==> |r| >= 2 && r[0] == '-' && WellGrouped(r[1..]) && StripCommas(r[1..]) == Decimal(-n))
      && (n >= 0 ==> WellGrouped(r) && StripCommas(r) == Decimal(n))
  {
    var m: nat := if n < 0 then -n else n;
    GroupWellGrouped(Decimal(m));
    GroupStrip(Decimal(m));
    if n < 0 {
      var r := NumberFormat(n);
      assert r[1..] == Group(Decimal(m));
    }
  }

  /** format_price: the formatted amount, one space, the currency. */
  function FormatPrice(price: int, currency: string): string
  {
    NumberFormat(price) + " " + currency
  }

  predicate IsNumeralChar(c: char) { IsDigit(c) || c == ',' }

  /** Reads a well-grouped numeral, one space and the currency that follows it. */
  function ParseUnsigned(body: string): Option<(nat, string)>
  {
    var n := |body| - |Text.TrimStart(body, IsNumeralChar)|;
    if n < |body| && body[n] == ' ' && WellGrouped(body[..n]) then
      StripGroupedDigits(body[..n]);
      Some((ValueOf(StripCommas(body[..n])), body[n + 1..]))
    else None
  }

  /** Reads a formatted price back: optional '-', a well-grouped numeral, one space, the currency. */
  function ParsePrice(s: string): Option<(int, string)>
  {
    if |s| > 0 && s[0] == '-' then
      match ParseUnsigned(s[1..])
      case Some((v, c)) => Some((-(v as int), c))
      case None => None
    else
      match ParseUnsigned(s)
      case Some((v, c)) => Some((v as int, c))
      case None => None
  }

  lemma {:induction false} StripGroupedDigits(s: string)
    requires WellGrouped(s)
    ensures AllDigits(StripCommas(s))
    decreases |s|
  {
    if 1 <= |s| <= 3 && AllDigits(s) {
      StripDigits(s);
    } else {
      var hi, lo := s[..|s| - 4], s[|s| - 3..];
      StripGroupedDigits(hi);
      assert s == hi + "," + lo;
      StripComma(hi, lo);
    }
  }

  lemma {:induction false} GroupedIsNumeral(s: string)
    requires WellGrouped(s)
    ensures forall i :: 0 <= i < |s| ==> IsNumeralChar(s[i])
    decreases |s|
  {
    if !(1 <= |s| <= 3 && AllDigits(s)) {
      GroupedIsNumeral(s[..|s| - 4]);
      assert forall i :: |s| - 3 <= i < |s| ==> s[i] == s[|s| - 3..][i - (|s| - 3)];
    }
  }

  /** The numeral is exactly the run of digits and commas before the first space. */
  lemma NumeralSpan(g: string, currency: string)
    requires forall i :: 0 <= i < |g| ==> IsNumeralChar(g[i])
    ensures var body := g + " " + currency;
      |body| - |Text.TrimStart(body, IsNumeralChar)| == |g|
  {
    var body := g + " " + currency;
    var t := Text.TrimStart(body, IsNumeralChar);
    assert body[|g|] == ' ';
    assert IsNumeralChar(body[|g|]) || |body| - |t| <= |g|;
    assert |t| == 0 || !IsNumeralChar(t[0]);
  }

  /** A well-grouped numeral, a space and the rest read as the numeral's digits and the rest. */
  lemma ParseAt(g: string, rest: string)
    requires WellGrouped(g)
    ensures AllDigits(StripCommas(g)) && ParseUnsigned(g + " " + rest) == Some((ValueOf(StripCommas(g)), rest))
  {
    StripGroupedDigits(g);
    GroupedIsNumeral(g);
    NumeralSpan(g, rest);
    var body := g + " " + rest;
    assert body[..|g|] == g && body[|g|] == ' ' && body[|g| + 1..] == rest;
  }

  /** A grouped numeral followed by a space and a currency reads back as its value and that currency. */
  lemma ParseGrouped(d: string, currency: string)
    requires |d| >= 1 && AllDigits(d)
    ensures ParseUnsigned(Group(d) + " " + currency) == Some((ValueOf(d), currency))
  {
    GroupWellGrouped(d);
    ParseAt(Group(d), currency);
    GroupStrip(d);
  }

  /** The part after an optional '-' reads back as the magnitude and the currency. */
  lemma FormattedBody(m: nat, currency: string)
    ensures var body := Group(Decimal(m)) + " " + currency;
      ParseUnsigned(body) == Some((m, currency)) && body[0] != '-'
  {
    var d := Decimal(m);
    ParseGrouped(d, currency);
    DecimalRoundTrip(m);
    GroupWellGrouped(d);
    GroupedIsNumeral(Group(d));
    assert IsNumeralChar(Group(d)[0]);
  }

  /** A leading '-' negates what the rest reads as. */
  lemma ParseMinus(body: string, v: nat, currency: string)
    requires ParseUnsigned(body) == Some((v, currency))
    ensures ParsePrice("-" + body) == Some((-(v as int), currency))
  {
    var s := "-" + body;
    assert s[0] == '-' && s[1..] == body;
  }

  lemma NonNegativeRoundTrip(price: nat, currency: string)
    ensures ParsePrice(FormatPrice(price, currency)) == Some((price, currency))
  {
    FormattedBody(price, currency);
    assert FormatPrice(price, currency) == Group(Decimal(price)) + " " + currency;
  }

  lemma FormatNegative(price: int, currency: string)
    requires price < 0
    ensures FormatPrice(price, currency) == "-" + (Group(Decimal(-price)) + " " + currency)
  {
    assert NumberFormat(price) == "-" + Group(Decimal(-price));
  }

  lemma NegativeRoundTrip(price: int, currency: string)
    requires price < 0
    ensures ParsePrice(FormatPrice(price, currency)) == Some((price, currency))
  {
    var m: nat := -price;
    var body := Group(Decimal(m)) + " " + currency;
    FormattedBody(m, currency);
    assert ParseUnsigned(body) == Some((m, currency));
    FormatNegative(price, currency);
    assert FormatPrice(price, currency) == "-" + body;
    ParseMinus(body, m, currency);
  }

  /** The formatted price reads back as the same price and currency. */
  lemma FormatPriceRoundTrip(price: int, currency: string)
    ensures ParsePrice(FormatPrice(price, currency)) == Some((price, currency))
  {
    if price < 0 {
      NegativeRoundTrip(price, currency);
    } else {
      NonNegativeRoundTrip(price, currency);
    }
  }

  lemma DecimalExample()
    ensures Decimal(1234567) == "1234567"
  {
    assert Decimal(1234) == "1234";
    assert Decimal(123456) == Decimal(12345) + "6";
    assert Decimal(1234567) == Decimal(123456) + "7";
  }

  lemma GroupExample()
    ensures Group("1234567") == "1,234,567"
  {
    var d := "1234567";
    assert d[..4] == "1234" && d[4..] == "567";
    assert "1234"[..1] == "1" && "1234"[1..] == "234";
    assert Group("1234") == "1,234";
  }

  /** The grouped part of a price has a comma exactly every three digits: 1234567 is written "1,234,567 YER". */
  lemma FormatPriceExample()
    ensures FormatPrice(1234567, DefaultCurrency) == "1,234,567 YER"
  {
    DecimalExample();
    GroupExample();
    assert NumberFormat(1234567) == "1,234,567";
  }
}

=== FILE: ratelimit.dfy ===
/**
 * check_rate_limit (api.php): a fixed-window counter per client address.
 * The record that the source keeps in a temporary file is the state of a
 * RateLimiter object here; reading and writing the file are left out.
 */
module RateLimit {
  import opened Wrappers

  const DefaultMaxRequests: int := 100
  const DefaultTimeWindow: int := 3600

  /** The stored record {start_time, requests}. */
  datatype Window = Window(startTime: int, requests: int)

  /**
   * One call at time `now` against the stored record: whether the request
   * is allowed and the record stored afterwards. A missing or unreadable
   * file is `None`.
   */
  function Step(rec: Option<Window>, now: int, maxRequests: int, timeWindow: int): (r: (bool, Option<Window>))
    ensures rec.None? || now - rec.value.startTime >= timeWindow ==> r == (true, Some(Window(now, 1)))
    ensures rec.Some? && now - rec.value.startTime < timeWindow ==>
      && (r.0 <==> rec.value.requests < maxRequests)
      && (r.0 ==> r.1 == Some(rec.value.(requests := rec.value.requests + 1)))
      && (!r.0 ==> r.1 == rec)
  {
    match rec
    case Some(w) =>
      if now - w.startTime < timeWindow then
        if w.requests >= maxRequests then (false, rec)
        else (true, Some(w.(requests := w.requests + 1)))
      else (true, Some(Window(now, 1)))
    case None => (true, Some(Window(now, 1)))
  }

  /** The stored count never exceeds the ceiling (for a ceiling of at least one). */
  lemma StepKeepsCeiling(rec: Option<Window>, now: int, maxRequests: int, timeWindow: int)
    requires maxRequests >= 1
    requires rec.Some? ==> rec.value.requests <= maxRequests
    ensures var r := Step(rec, now, maxRequests, timeWindow); r.1.Some? && r.1.value.requests <= maxRequests
  {
  }

  /** Number of calls allowed when the calls arrive at the times `nows`, in order. */
  function AllowedCount(rec: Option<Window>, nows: seq<int>, maxRequests: int, timeWindow: int): nat
    decreases |nows|
  {
    if nows == [] then 0
    else
      var r := Step(rec, nows[0], maxRequests, timeWindow);
      (if r.0 then 1 else 0) + AllowedCount(r.1, nows[1..], maxRequests, timeWindow)
  }

  /** Inside one window, a record that already counts `q` requests lets exactly min(k, max - q) of the next k calls through. */
  lemma {:induction false} WindowAllowance(w: Window, nows: seq<int>, maxRequests: int, timeWindow: int)
    requires 0 <= w.requests
    requires forall i :: 0 <= i < |nows| ==> nows[i] - w.startTime < timeWindow
    ensures var room := if maxRequests - w.requests > 0 then maxRequests - w.requests else 0;
      AllowedCount(Some(w), nows, maxRequests, timeWindow) == if |nows| < room then |nows| else room
    decreases |nows|
  {
    if nows != [] {
      var r := Step(Some(w), nows[0], maxRequests, timeWindow);
      if r.0 {
        WindowAllowance(r.1.value, nows[1..], maxRequests, timeWindow);
      } else {
        assert r.1 == Some(w);
        WindowAllowance(w, nows[1..], maxRequests, timeWindow);
      }
    }
  }

  /**
   * A client that starts a fresh window at `start` and keeps calling before
   * it expires gets exactly `maxRequests` calls through; every later call in
   * the window is refused (the API answers 429).
   */
  lemma FreshWindowCeiling(rec: Option<Window>, start: int, nows: seq<int>, maxRequests: int, timeWindow: int)
    requires maxRequests >= 1 && timeWindow > 0
    requires rec.None? || start - rec.value.startTime >= timeWindow
    requires forall i :: 0 <= i < |nows| ==> start <= nows[i] < start + timeWindow
    ensures AllowedCount(rec, [start] + nows, maxRequests, timeWindow) == if |nows| + 1 < maxRequests then |nows| + 1 else maxRequests
  {
    var s := [start] + nows;
    assert s[1..] == nows;
    WindowAllowance(Window(start, 1), nows, maxRequests, timeWindow);
  }

  /** The temporary file for one client address, as an object: `record` is its decoded content. */
  class RateLimiter {
    var record: Option<Window>

    constructor ()
      ensures record == None
    {
      record := None;
    }

    /** check_rate_limit($identifier, $max_requests, $time_window) at clock value `now`. */
    method CheckRateLimit(now: int, maxRequests: int, timeWindow: int) returns (allowed: bool)
      modifies this
      ensures (allowed, record) == Step(old(record), now, maxRequests, timeWindow)
      ensures !allowed ==> record == old(record)
    {
      if record.Some? && now - record.value.startTime < timeWindow {
        if record.value.requests >= maxRequests {
          return false;
        }
        record := Some(record.value.(requests := record.value.requests + 1));
      } else {
        record := Some(Window(now, 1));
      }
      allowed := true;
    }
  }
}

=== FILE: sanitize.dfy ===
/**
 * sanitize_input (config.php): trim() with PHP's default character list,
 * then htmlspecialchars() with ENT_QUOTES, which escapes exactly & " ' < >.
 */
module Sanitize {
  import Php
  import Text

  /** The five characters htmlspecialchars() replaces under ENT_QUOTES. */
  predicate IsSpecial(c: char) { c == '&' || c == '"' || c == '\'' || c == '<' || c == '>' }

  function Entity(c: char): string
  {
    if c == '&' then "&amp;"
    else if c == '"' then "&quot;"
    else if c == '\'' then "&#039;"
    else if c == '<' then "&lt;"
    else if c == '>' then "&gt;"
    else [c]
  }

  /** `s` begins with one of the five entities htmlspecialchars() writes. */
  predicate StartsWithEntity(s: string)
  {
    "&amp;" <= s || "&quot;" <= s || "&#039;" <= s || "&lt;" <= s || "&gt;" <= s
  }

  /** No raw special character except '&', and every '&' opens an entity. */
  predicate IsEscaped(s: string)
  {
    forall i :: 0 <= i < |s| ==> (!IsSpecial(s[i]) || s[i] == '&') && (s[i] == '&' ==> StartsWithEntity(s[i..]))
  }

  function HtmlSpecialChars(s: string): (r: string)
    ensures IsEscaped(r)
    ensures |r| >= |s|
  {
    if s == [] then []
    else
      var rest := HtmlSpecialChars(s[1..]);
      EntityThenEscaped(s[0], rest);
      Entity(s[0]) + rest
  }

  lemma EntityThenEscaped(c: char, rest: string)
    requires IsEscaped(rest)
    ensures IsEscaped(Entity(c) + rest)
  {
    var e := Entity(c);
    var r := e + rest;
    forall i | 0 <= i < |r| && r[i] == '&'
      ensures StartsWithEntity(r[i..])
    {
      if i < |e| {
        assert i == 0 && e <= r;
      } else {
        assert r[i..] == rest[i - |e|..];
      }
    }
  }

  /** The function this project pairs with escaping: it reads the five entities back. */
  function HtmlDecode(s: string): string
    decreases |s|
  {
    if s == [] then []
    else if "&amp;" <= s then "&" + HtmlDecode(s[5..])
    else if "&quot;" <= s then "\"" + HtmlDecode(s[6..])
    else if "&#039;" <= s then "'" + HtmlDecode(s[6..])
    else if "&lt;" <= s then "<" + HtmlDecode(s[4..])
    else if "&gt;" <= s then ">" + HtmlDecode(s[4..])
    else [s[0]] + HtmlDecode(s[1..])
  }

  /** Decoding reads one escaped character back. */
  lemma DecodeEntity(c: char, rest: string)
    ensures HtmlDecode(Entity(c) + rest) == [c] + HtmlDecode(rest)
  {
    if c == '&' {
      DecodeAmp(rest);
    } else if c == '"' {
      DecodeQuot(rest);
    } else if c == '\'' {
      DecodeApos(rest);
    } else if c == '<' {
      DecodeLt(rest);
    } else if c == '>' {
      DecodeGt(rest);
    } else {
      var r := Entity(c) + rest;
      assert r[0] == c && r[1..] == rest;
    }
  }

  lemma DecodeAmp(rest: string)
    ensures HtmlDecode("&amp;" + rest) == "&" + HtmlDecode(rest)
  {
    var r := "&amp;" + rest;
    assert r[..5] == "&amp;" && r[5..] == rest;
  }

  lemma DecodeQuot(rest: string)
    ensures HtmlDecode("&quot;" + rest) == "\"" + HtmlDecode(rest)
  {
    var r := "&quot;" + rest;
    assert r[..6] == "&quot;" && r[1] == 'q' && r[6..] == rest;
  }

  lemma DecodeApos(rest: string)
    ensures HtmlDecode("&#039;" + rest) == "'" + HtmlDecode(rest)
  {
    var r := "&#039;" + rest;
    assert r[..6] == "&#039;" && r[1] == '#' && r[6..] == rest;
  }

  lemma DecodeLt(rest: string)
    ensures HtmlDecode("&lt;" + rest) == "<" + HtmlDecode(rest)
  {
    var r := "&lt;" + rest;
    assert r[..4] == "&lt;" && r[1] == 'l' && r[4..] == rest;
  }

  lemma DecodeGt(rest: string)
    ensures HtmlDecode("&gt;" + rest) == ">" + HtmlDecode(rest)
  {
    var r := "&gt;" + rest;
    assert r[..4] == "&gt;" && r[1] == 'g' && r[4..] == rest;
  }

  /** Escaping loses nothing: decoding the escaped text gives the text back. */
  lemma {:induction false} DecodeEscaped(s: string)
    ensures HtmlDecode(HtmlSpecialChars(s)) == s
  {
    if s != [] {
      DecodeEscaped(s[1..]);
      assert HtmlSpecialChars(s) == Entity(s[0]) + HtmlSpecialChars(s[1..]);
      DecodeEntity(s[0], HtmlSpecialChars(s[1..]));
    }
  }

  /** Escaping distributes over concatenation. */
  lemma {:induction false} EscapeAppend(a: string, b: string)
    ensures HtmlSpecialChars(a + b) == HtmlSpecialChars(a) + HtmlSpecialChars(b)
  {
    if a != [] {
      assert (a + b)[0] == a[0];
      assert (a + b)[1..] == a[1..] + b;
      EscapeAppend(a[1..], b);
      calc {
        HtmlSpecialChars(a + b);
        Entity(a[0]) + HtmlSpecialChars(a[1..] + b);
        Entity(a[0]) + (HtmlSpecialChars(a[1..]) + HtmlSpecialChars(b));
        (Entity(a[0]) + HtmlSpecialChars(a[1..])) + HtmlSpecialChars(b);
        HtmlSpecialChars(a) + HtmlSpecialChars(b);
      }
    } else {
      assert a + b == b;
    }
  }

  /** An entity starts with the character itself or '&' and ends with the character itself or ';'. */
  lemma EntityEnds(c: char)
    ensures var e := Entity(c);
      |e| >= 1 && (e[0] == c || e[0] == '&') && (e[|e| - 1] == c || e[|e| - 1] == ';')
  {
  }

  lemma EscapeOne(c: char)
    ensures HtmlSpecialChars([c]) == Entity(c)
  {
    assert [c][1..] == [];
  }

  /** The escaped text starts with the first character or with '&', and ends with the last character or with ';'. */
  lemma EscapedEnds(t: string)
    requires t != []
    ensures var r := HtmlSpecialChars(t);
      r != [] && (r[0] == t[0] || r[0] == '&') && (r[|r| - 1] == t[|t| - 1] || r[|r| - 1] == ';')
  {
    EntityEnds(t[0]);
    EscapedLast(t);
  }

  lemma EscapedLast(t: string)
    requires t != []
    ensures var r := HtmlSpecialChars(t);
      r != [] && (r[|r| - 1] == t[|t| - 1] || r[|r| - 1] == ';')
  {
    var init, last := t[..|t| - 1], t[|t| - 1];
    assert t == init + [last];
    EscapeAppend(init, [last]);
    EscapeOne(last);
    EntityEnds(last);
    var a, e := HtmlSpecialChars(init), Entity(last);
    assert HtmlSpecialChars(t) == a + e;
    assert (a + e)[|a + e| - 1] == e[|e| - 1];
  }

  /** Escaping text whose ends are not blank gives text whose ends are not blank, and decodes back to it. */
  lemma EscapeTrimmed(t: string)
    requires t == [] || (!Php.IsTrimChar(t[0]) && !Php.IsTrimChar(t[|t| - 1]))
    ensures var r := HtmlSpecialChars(t);
      && (r == [] || (!Php.IsTrimChar(r[0]) && !Php.IsTrimChar(r[|r| - 1])))
      && HtmlDecode(r) == t
  {
    DecodeEscaped(t);
    if t != [] {
      EscapedEnds(t);
    }
  }

  function SanitizeInput(data: string): (r: string)
    ensures IsEscaped(r)
    ensures r == [] || (!Php.IsTrimChar(r[0]) && !Php.IsTrimChar(r[|r| - 1]))
    ensures HtmlDecode(r) == Php.Trim(data)
  {
    var t := Php.Trim(data);
    EscapeTrimmed(t);
    HtmlSpecialChars(t)
  }

  /** After sanitising, none of < > " ' appears raw. */
  lemma SanitizedHasNoMarkup(data: string)
    ensures forall c :: c in SanitizeInput(data) ==> c != '<' && c != '>' && c != '"' && c != '\''
  {
    var r := SanitizeInput(data);
    forall c | c in r ensures c != '<' && c != '>' && c != '"' && c != '\'' {
      var i :| 0 <= i < |r| && r[i] == c;
      assert !IsSpecial(r[i]) || r[i] == '&';
    }
  }

  /** Text whose ends are not blank is only escaped. */
  lemma SanitizeUnblank(s: string)
    requires s != [] && !Php.IsTrimChar(s[0]) && !Php.IsTrimChar(s[|s| - 1])
    ensures SanitizeInput(s) == HtmlSpecialChars(s)
  {
    Text.TrimFixed(s, Php.IsTrimChar);
  }

  lemma SanitizeLessThan()
    ensures SanitizeInput("<") == "&lt;"
  {
    SanitizeUnblank("<");
    assert HtmlSpecialChars("<") == Entity('<') + HtmlSpecialChars("");
  }

  lemma EscapeEntityText()
    ensures HtmlSpecialChars("&lt;") == "&amp;lt;"
  {
    var t, tail := "&lt;", "lt;";
    EscapePlain(tail);
    assert t[0] == '&' && t[1..] == tail;
  }

  lemma SanitizeEntityText()
    ensures SanitizeInput("&lt;") == "&amp;lt;"
  {
    SanitizeUnblank("&lt;");
    EscapeEntityText();
  }

  /** Sanitising is not idempotent: a second pass escapes the '&' of every entity again. */
  lemma SanitizeTwiceDoubleEncodes()
    ensures SanitizeInput("<") == "&lt;"
    ensures SanitizeInput(SanitizeInput("<")) == "&amp;lt;"
  {
    SanitizeLessThan();
    SanitizeEntityText();
  }

  /** Text without any of the five special characters is left as it is. */
  lemma {:induction false} EscapePlain(s: string)
    requires forall i :: 0 <= i < |s| ==> !IsSpecial(s[i])
    ensures HtmlSpecialChars(s) == s
  {
    if s != [] {
      EscapePlain(s[1..]);
    }
  }

  /** Sanitising leaves plain text whose ends are not blank unchanged. */
  lemma SanitizePlain(s: string)
    requires forall i :: 0 <= i < |s| ==> !IsSpecial(s[i])
    requires s == [] || (!Php.IsTrimChar(s[0]) && !Php.IsTrimChar(s[|s| - 1]))
    ensures SanitizeInput(s) == s
  {
    Text.TrimFixed(s, Php.IsTrimChar);
    EscapePlain(s);
  }
}

=== FILE: slug.dfy ===
/**
 * generate_slug (config.php): lower-case, delete every character outside
 * [a-z0-9\s-], collapse each run of whitespace and hyphens into one '-',
 * and strip '-' from both ends.
 *
 * The PHP patterns carry no /u flag, so they match bytes; every byte of a
 * multi-byte UTF-8 character is 0x80 or above and is deleted by the second
 * step, so deleting whole characters here gives the same result.
 */
module Slug {
  import Text
  import Php

  /** PCRE's \s without Unicode support: tab, LF, VT, FF, CR and space. */
  predicate IsSpace(c: char)
  {
    c == '\t' || c == '\n' || c == '\U{0B}' || c == '\U{0C}' || c == '\r' || c == ' '
  }

  predicate IsAlnum(c: char) { 'a' <= c <= 'z' || '0' <= c <= '9' }

  /** Characters the pattern /[^a-z0-9\s-]/ leaves in place. */
  predicate IsKept(c: char) { IsAlnum(c) || IsSpace(c) || c == '-' }

  /** Characters the pattern /[\s-]+/ folds into a single hyphen. */
  predicate IsSeparator(c: char) { IsSpace(c) || c == '-' }

  predicate IsHyphen(c: char) { c == '-' }

  predicate AllKept(s: string) { forall i :: 0 <= i < |s| ==> IsKept(s[i]) }

  /** Only [a-z0-9-]. */
  predicate SlugChars(s: string) { forall i :: 0 <= i < |s| ==> IsAlnum(s[i]) || s[i] == '-' }

  /** No "--". */
  predicate NoDoubleHyphen(s: string) { forall i :: 0 <= i < |s| - 1 ==> !(s[i] == '-' && s[i + 1] == '-') }

  /** What a slug looks like: [a-z0-9-] only, no '-' at either end, no "--". */
  predicate IsSlug(s: string)
  {
    && SlugChars(s)
    && (s == [] || (s[0] != '-' && s[|s| - 1] != '-'))
    && NoDoubleHyphen(s)
  }

  /** The letters and digits of a text, in order: what a slug keeps of its title. */
  function Alnums(s: string): string
  {
    if s == [] then []
    else if IsAlnum(s[0]) then [s[0]] + Alnums(s[1..])
    else Alnums(s[1..])
  }

  lemma AlnumsCons(c: char, r: string)
    ensures Alnums([c] + r) == (if IsAlnum(c) then [c] + Alnums(r) else Alnums(r))
  {
    assert ([c] + r)[1..] == r;
  }

  lemma {:induction false} AlnumsAppend(a: string, b: string)
    ensures Alnums(a + b) == Alnums(a) + Alnums(b)
    decreases |a|
  {
    if a == [] {
      assert a + b == b;
    } else {
      assert (a + b)[1..] == a[1..] + b;
      AlnumsAppend(a[1..], b);
    }
  }

  /** preg_replace('/[^a-z0-9\s-]/', '', $text): the kept characters, in order; every letter and digit among them. */
  function RemoveUnkept(s: string): (r: string)
    ensures AllKept(r)
    ensures Alnums(r) == Alnums(s)
  {
    if s == [] then []
    else if IsKept(s[0]) then
      AlnumsCons(s[0], RemoveUnkept(s[1..]));
      [s[0]] + RemoveUnkept(s[1..])
    else RemoveUnkept(s[1..])
  }

  /** The filter works character by character: every kept character survives, in order, and no other. */
  lemma {:induction false} RemoveUnkeptAppend(a: string, b: string)
    ensures RemoveUnkept(a + b) == RemoveUnkept(a) + RemoveUnkept(b)
    decreases |a|
  {
    if a == [] {
      assert a + b == b;
    } else {
      assert (a + b)[0] == a[0] && (a + b)[1..] == a[1..] + b;
      RemoveUnkeptAppend(a[1..], b);
    }
  }

  lemma RemoveUnkeptOne(c: char)
    ensures RemoveUnkept([c]) == if IsKept(c) then [c] else []
  {
    assert [c][1..] == [];
  }

  /** Text made only of kept characters passes through unchanged. */
  lemma {:induction false} RemoveUnkeptFixed(s: string)
    requires AllKept(s)
    ensures RemoveUnkept(s) == s
  {
    if s != [] {
      KeptSuffix(s, 1);
      RemoveUnkeptFixed(s[1..]);
      assert s == [s[0]] + s[1..];
    }
  }

  /** preg_replace('/[\s-]+/', '-', $text): each run of separators becomes one '-'; letters and digits stay as they are. */
  function Collapse(s: string): (r: string)
    ensures Alnums(r) == Alnums(s)
    decreases |s|
  {
    if s == [] then []
    else if IsSeparator(s[0]) then
      var t := Text.TrimStart(s[1..], IsSeparator);
      SeparatorRunAlnums(s);
      AlnumsCons('-', Collapse(t));
      "-" + Collapse(t)
    else
      AlnumsCons(s[0], Collapse(s[1..]));
      AlnumsCons(s[0], s[1..]);
      assert s == [s[0]] + s[1..];
      [s[0]] + Collapse(s[1..])
  }

  /** A run of separators holds no letter or digit. */
  lemma SeparatorRunAlnums(s: string)
    requires s != [] && IsSeparator(s[0])
    ensures Alnums(s) == Alnums(Text.TrimStart(s[1..], IsSeparator))
  {
    assert !IsAlnum(s[0]);
    assert Alnums(s) == Alnums(s[1..]);
    TrimStartAlnums(s[1..], IsSeparator);
  }

  /** Dropping separators from the front loses no letter or digit. */
  lemma {:induction false} TrimStartAlnums(s: string, drop: char -> bool)
    requires forall c :: drop(c) ==> IsSeparator(c)
    ensures Alnums(Text.TrimStart(s, drop)) == Alnums(s)
    decreases |s|
  {
    if s != [] && drop(s[0]) {
      TrimStartAlnums(s[1..], drop);
    }
  }

  /** Dropping separators from the back loses no letter or digit. */
  lemma {:induction false} TrimEndAlnums(s: string, drop: char -> bool)
    requires forall c :: drop(c) ==> IsSeparator(c)
    ensures Alnums(Text.TrimEnd(s, drop)) == Alnums(s)
    decreases |s|
  {
    if s != [] && drop(s[|s| - 1]) {
      var init := s[..|s| - 1];
      TrimEndAlnums(init, drop);
      assert s == init + [s[|s| - 1]];
      AlnumsAppend(init, [s[|s| - 1]]);
      AlnumsCons(s[|s| - 1], []);
      assert [s[|s| - 1]] + [] == [s[|s| - 1]];
    }
  }

  /** Cutting hyphens off the ends loses no letter or digit. */
  lemma TrimHyphensAlnums(s: string)
    ensures Alnums(Text.Trim(s, IsHyphen)) == Alnums(s)
  {
    TrimStartAlnums(s, IsHyphen);
    TrimEndAlnums(Text.TrimStart(s, IsHyphen), IsHyphen);
  }

  /**
   * generate_slug: a well-formed slug whose letters and digits are, in order,
   * exactly those of the lower-cased title.
   */
  function GenerateSlug(text: string): (r: string)
    ensures IsSlug(r)
    ensures Alnums(r) == Alnums(Php.ToLower(text))
  {
    var kept := RemoveUnkept(Php.ToLower(text));
    var collapsed := Collapse(kept);
    CollapseShape(kept);
    CollapseNoDoubleHyphen(kept);
    Text.TrimChars(collapsed, IsHyphen);
    TrimKeepsNoDouble(collapsed);
    TrimHyphensAlnums(collapsed);
    Text.Trim(collapsed, IsHyphen)
  }

  /** The collapsed text starts with '-' exactly when the input starts with a separator, and is empty exactly when the input is. */
  lemma {:induction false} CollapseHead(s: string)
    ensures Collapse(s) == [] <==> s == []
    ensures Collapse(s) != [] ==> (Collapse(s)[0] == '-' <==> IsSeparator(s[0]))
  {
  }

  lemma KeptSuffix(s: string, k: nat)
    requires AllKept(s) && k <= |s|
    ensures AllKept(s[k..])
  {
    assert forall i :: 0 <= i < |s| - k ==> s[k..][i] == s[k + i];
  }

  lemma SlugCharsPrepend(c: char, r: string)
    requires (IsAlnum(c) || c == '-') && SlugChars(r)
    ensures SlugChars([c] + r)
  {
    assert forall i :: 1 <= i < |r| + 1 ==> ([c] + r)[i] == r[i - 1];
  }

  /** Collapsing kept characters leaves only [a-z0-9-]. */
  lemma {:induction false} CollapseShape(s: string)
    requires AllKept(s)
    ensures SlugChars(Collapse(s))
    decreases |s|, 1
  {
    if s != [] {
      if IsSeparator(s[0]) {
        SeparatorRunShape(s);
      } else {
        KeptSuffix(s, 1);
        CollapseShape(s[1..]);
        SlugCharsPrepend(s[0], Collapse(s[1..]));
      }
    }
  }

  /** A run of separators becomes one '-' in front of the collapsed rest. */
  lemma {:induction false} SeparatorRunShape(s: string)
    requires AllKept(s) && s != [] && IsSeparator(s[0])
    ensures SlugChars(Collapse(s))
    decreases |s|, 0
  {
    var t := Text.TrimStart(s[1..], IsSeparator);
    assert Collapse(s) == "-" + Collapse(t);
    KeptSuffix(s, |s| - |t|);
    assert t == s[|s| - |t|..];
    CollapseShape(t);
    SlugCharsPrepend('-', Collapse(t));
  }

  lemma NoDoublePrepend(c: char, r: string)
    requires NoDoubleHyphen(r) && (r == [] || c != '-' || r[0] != '-')
    ensures NoDoubleHyphen([c] + r)
  {
    assert forall i :: 1 <= i < |r| + 1 ==> ([c] + r)[i] == r[i - 1];
  }

  /** The collapsed text never holds two hyphens in a row. */
  lemma {:induction false} CollapseNoDoubleHyphen(s: string)
    ensures NoDoubleHyphen(Collapse(s))
    decreases |s|, 1
  {
    if s != [] {
      if IsSeparator(s[0]) {
        SeparatorRunNoDouble(s);
      } else {
        CollapseNoDoubleHyphen(s[1..]);
        NoDoublePrepend(s[0], Collapse(s[1..]));
      }
    }
  }

  /** The hyphen a separator run becomes is followed by a non-hyphen. */
  lemma {:induction false} SeparatorRunNoDouble(s: string)
    requires s != [] && IsSeparator(s[0])
    ensures NoDoubleHyphen(Collapse(s))
    decreases |s|, 0
  {
    var t := Text.TrimStart(s[1..], IsSeparator);
    assert Collapse(s) == "-" + Collapse(t);
    CollapseNoDoubleHyphen(t);
    CollapseHead(t);
    NoDoublePrepend('-', Collapse(t));
  }

  /** Text without whitespace and without "--" is left as it is by the collapse. */
  lemma {:induction false} CollapseFixed(s: string)
    requires forall i :: 0 <= i < |s| ==> !IsSpace(s[i])
    requires NoDoubleHyphen(s)
    ensures Collapse(s) == s
    decreases |s|
  {
    if s != [] {
      CollapseFixed(s[1..]);
      if IsSeparator(s[0]) {
        var t := Text.TrimStart(s[1..], IsSeparator);
        assert (|s| > 1 && IsSeparator(s[1])) || |t| == |s| - 1;
        assert t == s[1..];
        assert Collapse(s) == "-" + s[1..];
      }
    }
  }

  /** Separators in front of text that does not start with one are all dropped. */
  lemma {:induction false} TrimStartRun(x: string, b: string)
    requires forall i :: 0 <= i < |x| ==> IsSeparator(x[i])
    requires b == [] || !IsSeparator(b[0])
    ensures Text.TrimStart(x + b, IsSeparator) == b
    decreases |x|
  {
    if x == [] {
      assert x + b == b;
    } else {
      assert (x + b)[1..] == x[1..] + b;
      TrimStartRun(x[1..], b);
    }
  }

  /** Trimming separators off the front of `x + b` stops inside `x` when `x` ends with a non-separator. */
  lemma {:induction false} TrimStartAppend(x: string, b: string)
    requires x != [] && !IsSeparator(x[|x| - 1])
    ensures Text.TrimStart(x + b, IsSeparator) == Text.TrimStart(x, IsSeparator) + b
    decreases |x|
  {
    if IsSeparator(x[0]) {
      assert |x| > 1;
      assert (x + b)[1..] == x[1..] + b;
      TrimStartAppend(x[1..], b);
    }
  }

  /** A run of separators in front of text that does not start with one becomes a single '-'. */
  lemma CollapseRun(sep: string, b: string)
    requires sep != [] && forall i :: 0 <= i < |sep| ==> IsSeparator(sep[i])
    requires b == [] || !IsSeparator(b[0])
    ensures Collapse(sep + b) == "-" + Collapse(b)
  {
    assert (sep + b)[0] == sep[0];
    assert (sep + b)[1..] == sep[1..] + b;
    TrimStartRun(sep[1..], b);
  }

  /** Text ending with a letter or digit collapses on its own: nothing after it joins its runs. */
  lemma {:induction false} CollapseAppend(a: string, b: string)
    requires a == [] || !IsSeparator(a[|a| - 1])
    ensures Collapse(a + b) == Collapse(a) + Collapse(b)
    decreases |a|, 1
  {
    if a == [] {
      assert a + b == b;
    } else if IsSeparator(a[0]) {
      CollapseAppendRun(a, b);
    } else {
      PlainSplit(a, b);
      CollapseAppend(a[1..], b);
      CollapsePlainStep(a + b);
      CollapsePlainStep(a);
      Regroup([a[0]], Collapse(a[1..]), Collapse(b), Collapse(a + b), Collapse(a));
    }
  }

  lemma PlainSplit(a: string, b: string)
    requires a != []
    ensures (a + b)[0] == a[0] && (a + b)[1..] == a[1..] + b
    ensures a[1..] == [] || a[1..][|a[1..]| - 1] == a[|a| - 1]
  {
  }

  lemma {:induction false} CollapseAppendRun(a: string, b: string)
    requires a != [] && IsSeparator(a[0]) && !IsSeparator(a[|a| - 1])
    ensures Collapse(a + b) == Collapse(a) + Collapse(b)
    decreases |a|, 0
  {
    var t := Text.TrimStart(a[1..], IsSeparator);
    RunSplit(a, b);
    CollapseAppend(t, b);
    CollapseSepStep(a + b);
    CollapseSepStep(a);
    Regroup("-", Collapse(t), Collapse(b), Collapse(a + b), Collapse(a));
  }

  lemma Regroup(c: string, x: string, y: string, whole: string, head: string)
    requires whole == c + (x + y) && head == c + x
    ensures whole == head + y
  {
  }

  /** One unfolding of Collapse at a separator. */
  lemma CollapseSepStep(s: string)
    requires s != [] && IsSeparator(s[0])
    ensures Collapse(s) == "-" + Collapse(Text.TrimStart(s[1..], IsSeparator))
  {
  }

  /** One unfolding of Collapse at a letter, digit or other non-separator. */
  lemma CollapsePlainStep(s: string)
    requires s != [] && !IsSeparator(s[0])
    ensures Collapse(s) == [s[0]] + Collapse(s[1..])
  {
  }

  /** After a leading separator, the rest of the run ends inside `a` when `a` ends with a non-separator. */
  lemma RunSplit(a: string, b: string)
    requires a != [] && IsSeparator(a[0]) && !IsSeparator(a[|a| - 1])
    ensures var t := Text.TrimStart(a[1..], IsSeparator);
      && (a + b)[0] == a[0]
      && Text.TrimStart((a + b)[1..], IsSeparator) == t + b
      && t != [] && t[|t| - 1] == a[|a| - 1] && |t| < |a|
  {
    assert (a + b)[1..] == a[1..] + b;
    TrimStartAppend(a[1..], b);
  }

  /**
   * The separator law of preg_replace('/[\s-]+/', '-', ...): a maximal run of
   * whitespace and hyphens between two pieces becomes exactly one '-'.
   */
  lemma SeparatorLaw(a: string, sep: string, b: string)
    requires a == [] || !IsSeparator(a[|a| - 1])
    requires sep != [] && forall i :: 0 <= i < |sep| ==> IsSeparator(sep[i])
    requires b == [] || !IsSeparator(b[0])
    ensures Collapse(a + sep + b) == Collapse(a) + "-" + Collapse(b)
  {
    Regroup3(a, sep, b, a + sep + b);
    CollapseAppend(a, sep + b);
    CollapseRun(sep, b);
    Regroup3(Collapse(a), "-", Collapse(b), Collapse(a + (sep + b)));
  }

  lemma Regroup3(x: string, y: string, z: string, whole: string)
    requires whole == x + y + z || whole == x + (y + z)
    ensures whole == x + y + z && whole == x + (y + z)
  {
  }

  /** Two slugs with whitespace or hyphens between them give the two slugs joined by one '-'. */
  lemma SlugOfWords(a: string, sep: string, b: string)
    requires IsSlug(a) && IsSlug(b) && a != [] && b != []
    requires sep != [] && forall i :: 0 <= i < |sep| ==> IsSeparator(sep[i])
    ensures GenerateSlug(a + sep + b) == a + "-" + b
  {
    var s := a + sep + b;
    WordsKept(a, sep, b);
    WordsCollapse(a, sep, b);
    var r := a + "-" + b;
    Ends(a, b, r);
    Text.TrimFixed(r, IsHyphen);
  }

  lemma Ends(a: string, b: string, r: string)
    requires a != [] && b != [] && r == a + "-" + b
    ensures r[0] == a[0] && r[|r| - 1] == b[|b| - 1]
  {
  }

  /** Slugs and separators pass lower-casing and the character filter unchanged. */
  lemma WordsKept(a: string, sep: string, b: string)
    requires IsSlug(a) && IsSlug(b)
    requires forall i :: 0 <= i < |sep| ==> IsSeparator(sep[i])
    ensures RemoveUnkept(Php.ToLower(a + sep + b)) == a + sep + b
  {
    var s := a + sep + b;
    WordsChars(a, sep, b);
    Php.ToLowerFixed(s);
    RemoveUnkeptFixed(s);
  }

  lemma WordsChars(a: string, sep: string, b: string)
    requires SlugChars(a) && SlugChars(b)
    requires forall i :: 0 <= i < |sep| ==> IsSeparator(sep[i])
    ensures var s := a + sep + b;
      && (forall i :: 0 <= i < |s| ==> !Php.IsUpper(s[i]))
      && AllKept(s)
  {
    var s := a + sep + b;
    forall i | 0 <= i < |s| ensures !Php.IsUpper(s[i]) && IsKept(s[i]) {
      if i < |a| { assert s[i] == a[i]; }
      else if i < |a| + |sep| { assert s[i] == sep[i - |a|]; }
      else { assert s[i] == b[i - |a| - |sep|]; }
    }
  }

  /** The separators between two slugs collapse to one '-' and the slugs stay. */
  lemma WordsCollapse(a: string, sep: string, b: string)
    requires IsSlug(a) && IsSlug(b) && a != [] && b != []
    requires sep != [] && forall i :: 0 <= i < |sep| ==> IsSeparator(sep[i])
    ensures Collapse(a + sep + b) == a + "-" + b
  {
    SeparatorLaw(a, sep, b);
    assert forall i :: 0 <= i < |a| ==> !IsSpace(a[i]);
    assert forall i :: 0 <= i < |b| ==> !IsSpace(b[i]);
    CollapseFixed(a);
    CollapseFixed(b);
  }

  /** A title that lower-cases to two slugs with separators between them gives the two slugs joined by one '-'. */
  lemma SlugOfTitle(text: string, a: string, sep: string, b: string)
    requires Php.ToLower(text) == a + sep + b
    requires IsSlug(a) && IsSlug(b) && a != [] && b != []
    requires sep != [] && forall i :: 0 <= i < |sep| ==> IsSeparator(sep[i])
    ensures GenerateSlug(text) == a + "-" + b
  {
    WordsChars(a, sep, b);
    RemoveUnkeptFixed(a + sep + b);
    WordsCollapse(a, sep, b);
    var r := a + "-" + b;
    Ends(a, b, r);
    Text.TrimFixed(r, IsHyphen);
  }

  /** "Hello  World" becomes "hello-world". */
  lemma HelloWorldSlug(title: string)
    requires title == "Hello  World"
    ensures GenerateSlug(title) == "hello-world"
  {
    HelloLower(title);
    HelloParts("hello", "  ", "world");
    SlugOfTitle(title, "hello", "  ", "world");
  }

  lemma HelloParts(a: string, sep: string, b: string)
    requires a == "hello" && sep == "  " && b == "world"
    ensures IsSlug(a) && IsSlug(b) && a != [] && b != []
    ensures sep != [] && forall i :: 0 <= i < |sep| ==> IsSeparator(sep[i])
    ensures a + "-" + b == "hello-world"
  {
  }

  lemma HelloLower(title: string)
    requires title == "Hello  World"
    ensures Php.ToLower(title) == "hello" + "  " + "world"
  {
    var lower := "hello" + "  " + "world";
    forall i | 0 <= i < |title| ensures Php.ToLower(title)[i] == lower[i] {
    }
  }

  lemma InfixNoDouble(s: string, a: nat, b: nat)
    requires NoDoubleHyphen(s) && a <= b <= |s|
    ensures NoDoubleHyphen(s[a..b])
  {
    assert forall i :: 0 <= i < b - a ==> s[a..b][i] == s[a + i];
  }

  /** Trimming hyphens takes an infix, so it keeps the "no --" property. */
  lemma TrimKeepsNoDouble(s: string)
    requires NoDoubleHyphen(s)
    ensures NoDoubleHyphen(Text.Trim(s, IsHyphen))
  {
    var r, k := Text.Trim(s, IsHyphen), Text.Lead(s, IsHyphen);
    InfixNoDouble(s, k, k + |r|);
  }

  /** Lower-casing and deleting unkept characters leave a slug as it is. */
  lemma SlugKept(s: string)
    requires IsSlug(s)
    ensures RemoveUnkept(Php.ToLower(s)) == s
  {
    Php.ToLowerFixed(s);
    assert AllKept(s);
    RemoveUnkeptFixed(s);
  }

  /** A slug is a fixed point of generate_slug. */
  lemma SlugFixed(s: string)
    requires IsSlug(s)
    ensures GenerateSlug(s) == s
  {
    SlugKept(s);
    assert forall i :: 0 <= i < |s| ==> !IsSpace(s[i]);
    CollapseFixed(s);
    Text.TrimFixed(s, IsHyphen);
  }

  /** generate_slug is idempotent. */
  lemma SlugIdempotent(text: string)
    ensures GenerateSlug(GenerateSlug(text)) == GenerateSlug(text)
  {
    SlugFixed(GenerateSlug(text));
  }

  /** A title with no ASCII letter or digit (an all-Arabic title, say) gives the empty slug, whatever whitespace and hyphens it holds. */
  lemma SlugOfForeignTitle(text: string)
    requires forall i :: 0 <= i < |text| ==> !IsAlnum(text[i]) && !Php.IsUpper(text[i])
    ensures GenerateSlug(text) == ""
  {
    var lowered := Php.ToLower(text);
    assert forall i :: 0 <= i < |lowered| ==> !IsAlnum(lowered[i]);
    OnlySeparatorsKept(lowered);
    var kept := RemoveUnkept(lowered);
    CollapseOfSeparators(kept);
    var c := Collapse(kept);
    assert c == [] || c == "-";
    assert Text.Trim(c, IsHyphen) == [];
  }

  lemma {:induction false} OnlySeparatorsKept(s: string)
    requires forall i :: 0 <= i < |s| ==> !IsAlnum(s[i])
    ensures forall i :: 0 <= i < |RemoveUnkept(s)| ==> IsSeparator(RemoveUnkept(s)[i])
  {
    if s != [] {
      OnlySeparatorsKept(s[1..]);
    }
  }

  lemma CollapseOfSeparators(s: string)
    requires forall i :: 0 <= i < |s| ==> IsSeparator(s[i])
    ensures Collapse(s) == [] || Collapse(s) == "-"
  {
    if s != [] {
      var t := Text.TrimStart(s[1..], IsSeparator);
      assert t == [];
    }
  }

  /** The title "apartment", written in Arabic, has the empty slug. */
  lemma ArabicTitleSlug()
    ensures GenerateSlug("شقة") == ""
  {
    var t := "شقة";
    assert t == ['\U{0634}', '\U{0642}', '\U{0629}'];
    SlugOfForeignTitle(t);
  }
}

=== FILE: text.dfy ===
/**
 * Character-class trimming shared by PHP's trim(), the slug builder's
 * trim($text, '-') and JavaScript's String.prototype.trim().
 */
module Text {

  /** Drops the longest prefix of characters satisfying `drop`. */
  function TrimStart(s: string, drop: char -> bool): (r: string)
    ensures |r| <= |s| && r == s[|s| - |r|..]
    ensures r == [] || !drop(r[0])
    ensures forall k :: 0 <= k < |s| - |r| ==> drop(s[k])
  {
    if s == [] || !drop(s[0]) then s else TrimStart(s[1..], drop)
  }

  /** Drops the longest suffix of characters satisfying `drop`. */
  function TrimEnd(s: string, drop: char -> bool): (r: string)
    ensures |r| <= |s| && r == s[..|r|]
    ensures r == [] || !drop(r[|r| - 1])
    ensures forall k :: |r| <= k < |s| ==> drop(s[k])
  {
    if s == [] || !drop(s[|s| - 1]) then s else TrimEnd(s[..|s| - 1], drop)
  }

  /** Number of characters `Trim` removes from the front of `s`. */
  function Lead(s: string, drop: char -> bool): nat
  {
    |s| - |TrimStart(s, drop)|
  }

  /** Both ends trimmed: what remains is a contiguous infix of `s` whose ends are kept characters. */
  function Trim(s: string, drop: char -> bool): (r: string)
    ensures r == [] || (!drop(r[0]) && !drop(r[|r| - 1]))
    ensures Lead(s, drop) + |r| <= |s| && r == s[Lead(s, drop)..Lead(s, drop) + |r|]
  {
    TrimEnd(TrimStart(s, drop), drop)
  }

  /** Everything Trim cuts off, on either side, is droppable. */
  lemma TrimCut(s: string, drop: char -> bool)
    ensures forall k :: 0 <= k < Lead(s, drop) ==> drop(s[k])
    ensures forall k :: Lead(s, drop) + |Trim(s, drop)| <= k < |s| ==> drop(s[k])
  {
    var t := TrimStart(s, drop);
    SuffixDropped(s, t, |TrimEnd(t, drop)|, drop);
  }

  /** What TrimEnd cut from a suffix `t` of `s` is cut from `s` too. */
  lemma SuffixDropped(s: string, t: string, n: nat, drop: char -> bool)
    requires |t| <= |s| && t == s[|s| - |t|..] && n <= |t|
    requires forall k :: n <= k < |t| ==> drop(t[k])
    ensures forall k :: |s| - |t| + n <= k < |s| ==> drop(s[k])
  {
    forall k | |s| - |t| + n <= k < |s|
      ensures drop(s[k])
    {
      assert s[k] == t[k - (|s| - |t|)];
    }
  }

  /** Trimming leaves a string alone exactly when neither end is droppable. */
  lemma TrimFixed(s: string, drop: char -> bool)
    ensures Trim(s, drop) == s <==> (s == [] || (!drop(s[0]) && !drop(s[|s| - 1])))
  {
    if s != [] && !drop(s[0]) && !drop(s[|s| - 1]) {
      var t := TrimStart(s, drop);
      assert drop(s[0]) || |t| == |s|;
      assert t == s;
      var r := TrimEnd(t, drop);
      assert drop(t[|t| - 1]) || |r| == |t|;
    }
  }

  /** Every character surviving a trim occurs in the input. */
  lemma TrimChars(s: string, drop: char -> bool)
    ensures forall c :: c in Trim(s, drop) ==> c in s
  {
    var r, i := Trim(s, drop), Lead(s, drop);
    InfixChars(s, i, i + |r|);
  }

  lemma InfixChars(s: string, a: nat, b: nat)
    requires a <= b <= |s|
    ensures forall c :: c in s[a..b] ==> c in s
  {
    forall c | c in s[a..b]
      ensures c in s
    {
      var k :| 0 <= k < b - a && s[a..b][k] == c;
      assert s[a + k] == c;
    }
  }

}

=== FILE: wrappers.dfy ===
/** The usual optional-value datatype, used for PHP's "isset"/null and JavaScript's undefined. */
module Wrappers {
  datatype Option<+T> = None | Some(value: T) {
    function GetOr(default: T): T {
      match this
      case Some(v) => v
      case None => default
    }
  }
}
